=== FILE: README.md ===
# Article scraper core, modelled in Dafny

This project models the decision logic of a Python article scraper. The scraper
collects blog posts, guides and book chapters into records holding:

- title, content and content type;
- source URL, author and user id;
- optionally, the service that fetched the page.

The model covers five parts of the system.

- **The heuristic engine** (`UniversalScraper`):
  - the content-area detector that scores subtrees of a page and picks the main content;
  - the title cascade (meta titles, the `<title>` tag with its site suffix cut, the longest article `h1`);
  - the body formatter with its metadata filter;
  - the author cascade with its name validator, its name cleaner, its JSON-LD lookup and its per-domain fallback table;
  - the article-link filter, scorer and ranking;
  - `scrape_url`, over abstract fetch outcomes.
- **The configuration-driven scraper** (`GenericScraper`):
  - selector-ordered body extraction;
  - element formatting and exclusion by substring;
  - author precedence and the byline split;
  - the de-duplicated discovery URL set;
  - the ZenRows fallbacks and the disabled-target check.
- **The ZenRows fallback scraper**: its request parameters, its result record and its link discovery. Its extraction helpers are textually the same as the generic scraper's, so both share one module.
- **The configuration loader**:
  - the defaults of the two dataclasses;
  - the parse of a loaded YAML document;
  - target lookup and validation.
- **The PDF chapter segmentation loop**, over an abstract sequence of pages.

A parsed page is an immutable tree of elements and text nodes. `find_all` is a pre-order walk that remembers each node's ancestors. `get_text(strip=True)` is the concatenation of the stripped, non-empty text nodes. Floating-point scores are integers scaled by 100.

Fetches, the rendering service, `urljoin`/`urlparse` and the general CSS selector engine are inputs: outcomes, functions or given element lists.

Modules and files:

| module | file | models |
|---|---|---|
| `Common` | common.dfy | option, record, first-maximum and de-duplication helpers |
| `Text` | text.dfy | whitespace, strip, ASCII lower-casing, substrings, join, split |
| `Dom` | dom.dfy | the page tree, the pre-order walk, text extraction |
| `ContentDetector` | content_detector.dfy | `ContentDetector` |
| `Title` | title.dfy | `_extract_title`, `_is_likely_site_title` |
| `ContentFormat` | content_format.dfy | `_extract_content_from_area`, `_is_likely_metadata` |
| `AuthorName` | author_name.dfy | `_is_reasonable_author` |
| `AuthorClean` | author_clean.dfy | `_extract_clean_author_name` |
| `AuthorCascade` | author_cascade.dfy | `_extract_author`, the JSON-LD lookup, `_get_fallback_author` |
| `Links` | links.dfy | `_is_potential_article_link`, `_score_article_link`, `discover_article_urls`, `_is_likely_blog_post_url` |
| `UniversalScrape` | universal_scrape.dfy | `UniversalScraper.scrape_url` |
| `Config` | config.dfy | `config_loader.py` |
| `TargetExtraction` | target_extraction.dfy | the extraction helpers shared by `GenericScraper` and `ZenRowsScraper` |
| `GenericScraper` | generic_scraper.dfy | `GenericScraper` |
| `ZenRows` | zenrows.dfy | `ZenRowsScraper` |
| `PdfChapters` | pdf_chapters.dfy | `process_book_chapters` |

## Model

| member | source | states |
|---|---|---|
| ContentDetector.Score | universal_scraper.py:112-157 | The score is never negative. A positive weighted sum is the score, and a positive score is the weighted sum of the element's measurements: capped text length, +200 per `p`, +300 per heading, +150 per list, −2000 if navigation-like, −1000 if links exceed both the paragraphs and 5, +1000 for `article`/`main`, +500 at most once for a content-like class. A non-positive sum gives 0. The score is bounded by the positive terms. |
| ContentDetector.NavigationClassPenalty | universal_scraper.py:173-183 | A class token containing a navigation word makes the element navigation-like. Its score is then the non-navigation sum minus 2000, unless the floor at 0 absorbs the penalty. |
| ContentDetector.SelectorProposals | universal_scraper.py:78-84 | The semantic pass proposes exactly the page elements that match the selector, each scored by `_score_content_area` and tagged `semantic`: every proposal matches, and every matching element is proposed. |
| ContentDetector.SelectorProposalsAppend | universal_scraper.py:80-84 | One selector's matches keep document order: the pass over a split element list is the pass over each part, in order. |
| ContentDetector.SemanticProposals | universal_scraper.py:78-84 | Pass 1 proposes, tagged `semantic`, exactly the elements some content selector matches, each with its score. |
| ContentDetector.SemanticProposalsAppend | universal_scraper.py:79-84 | Pass 1 takes the selectors in list order: a split selector list gives the two partial passes in sequence. |
| ContentDetector.DensityProposals | universal_scraper.py:86-92 | The density pass proposes, tagged `density`, exactly the containers that pass `_is_likely_content_container` (no excluded class word, text longer than 100), each with its score. |
| ContentDetector.DensityProposalsAppend | universal_scraper.py:87-92 | The density pass keeps document order: a split container list gives the two partial passes in sequence. |
| ContentDetector.ParagraphProposals | universal_scraper.py:94-101 | The paragraph pass proposes, tagged `paragraphs`, exactly the containers with at least 3 descendant `p` elements, each with its score. |
| ContentDetector.ParagraphProposalsAppend | universal_scraper.py:96-101 | The paragraph pass keeps document order: a split container list gives the two partial passes in sequence. |
| ContentDetector.Proposals | universal_scraper.py:76-101 | Every element matching one of the nine content selectors, every likely content container and every container with at least 3 `p` elements is proposed by its pass, with its score. |
| ContentDetector.ProposalsSound | universal_scraper.py:76-101 | Nothing else is proposed: each proposal is a page element matching a content selector (semantic), a `div`/`section`/`article` passing the container test (density), or one with at least 3 `p` elements (paragraphs). |
| ContentDetector.ProposalsInPassOrder | universal_scraper.py:76-101 | Discovery order across passes: every semantic proposal precedes every density proposal, which precedes every paragraph proposal. |
| ContentDetector.PositiveEmptyIff | universal_scraper.py:83-104 | No candidate survives the `score > 0` filter exactly when every proposed candidate scores 0. |
| ContentDetector.SelectBest | universal_scraper.py:106-110 | The stable descending sort picks a maximum-score candidate. Every earlier candidate scores strictly less, so the earliest maximum wins ties. Nothing is picked only from an empty list. |
| ContentDetector.FindMainContentArea | universal_scraper.py:74-110 | Returns None exactly when no candidate from the three passes scores above 0. Otherwise it returns the first maximum-scoring positive candidate. |
| Title.MetaTitle | universal_scraper.py:370-376 | When `og:title` yields a title, it is the result; otherwise the `name="title"` result is. Each yields exactly when the first matching meta tag has a `content` whose stripped form is longer than 5, and then gives that stripped content. |
| Title.MetaTitleFrom | universal_scraper.py:371-376 | A title is found exactly when the first meta tag with the attribute value has a `content` whose stripped text is longer than 5; the title is that stripped text. |
| Title.FirstCutAt | universal_scraper.py:383 | The suffix search stops at the first separator with no vertical bar after it, provided no separator character comes earlier. |
| Title.CutSiteSuffix | universal_scraper.py:383 | The cut keeps a prefix of the text. With no cut site the text is unchanged. Otherwise the cut ends where the whitespace run ends before the leftmost vertical bar, `-` or `–` that has no vertical bar after it. |
| Title.CutStepByStep | universal_scraper.py:383 | `Step-by-step guide` is cut to `Step`: the first hyphen already qualifies. |
| Title.CutExampleBlog | universal_scraper.py:383 | `My Post - Example Blog` is cut to `My Post`. |
| Title.TagTitle | universal_scraper.py:378-385 | A `<title>` title is found exactly when the page has a `title` element whose text, with its site suffix cut, is longer than 5; the title is that cut text, a prefix of the element's text. |
| Title.ContentH1s | universal_scraper.py:388-395 | Keeps exactly the `h1`s whose text is longer than 10 and that are not site titles (inside `header`/`nav`, shorter than 10, a site word, or a bare domain). |
| Title.BestH1 | universal_scraper.py:397-402 | Returns None only for an empty list. Otherwise it returns the text of the first longest `h1`, which is longer than 10. |
| Title.H1Title | universal_scraper.py:387-402 | The `h1` strategy answers exactly when some content `h1` exists, and then gives the first longest one's text. |
| Title.ExtractTitle | universal_scraper.py:368-404 | Every title is longer than 5 characters. It comes from one of the three strategies or is the placeholder. |
| Title.TitleCascadeOrder | universal_scraper.py:368-404 | The strategies are tried in order: a meta title wins, then the `<title>` text (however long any `h1` is), then the `h1`, then the placeholder. |
| ContentFormat.ByLeadIsMetadata | universal_scraper.py:1197 | Any text whose first two letters are "by", in any case, is metadata. |
| ContentFormat.CategoryLabelIsNotMetadata | universal_scraper.py:1195-1209 | A text starting with "category:" is not metadata: the classification pattern needs "categorie", which "category" lacks. |
| ContentFormat.SingleReplyIsNotMetadata | universal_scraper.py:1195-1209 | "1 reply…" is not metadata: the count pattern needs "replies". |
| ContentFormat.CommentCountIsMetadata | universal_scraper.py:1201 | A number followed by " comments" is metadata. |
| ContentFormat.HeadingLevel | universal_scraper.py:444-445 | A tag has a positive level at most 6 exactly when it is a heading tag. |
| ContentFormat.Render | universal_scraper.py:433-458 | An element emits a part exactly when its text has at least 10 characters, fails the metadata test, and its kind emits: not `ul`/`ol`, and `li` only under `ul`/`ol`. The part is the kind's marker followed by the text. |
| ContentFormat.HeadingRendering | universal_scraper.py:444-446 | A heading's part is `level` hashes, one space, then the text. |
| ContentFormat.PartsExactly | universal_scraper.py:430-458 | Every collected part is the rendering of some element of the area. Every element that renders contributes its part. |
| ContentFormat.PartsAppend | universal_scraper.py:433-458 | Collection distributes over concatenation, so parts keep document order. |
| ContentFormat.JoinedHoldsParts | universal_scraper.py:460 | Every rendered part occurs in the `"\n\n"`-joined body. |
| Text.JoinAppend | universal_scraper.py:460 | Appending a part to a non-empty list appends the separator and the part, so the join places the separator exactly between consecutive parts. |
| ContentFormat.ExtractContentFromArea | universal_scraper.py:428-460 | The body is the area's rendered parts, in document order, joined by a blank line. It is empty exactly when no element renders, and it contains every rendered part. |
| AuthorName.ReasonableAuthorIff | universal_scraper.py:551-594 | Accepts exactly when all of these hold: the pre-strip length is 2 to 80; no blocklisted phrase occurs in the lower-cased stripped name; every character is a letter, whitespace, `.`, `-`, `'` or U+00C0–U+017F; an ASCII capital occurs; accented characters are at most half. |
| AuthorName.NameRulesIff | universal_scraper.py:553-594 | The same equivalence for any blocklist: the source's test order agrees with the conjunction. |
| AuthorName.BlocklistedPhraseRejects | universal_scraper.py:575-576 | A name containing any blocklisted phrase, in any case, is rejected. |
| AuthorName.AcceptedIsNameShaped | universal_scraper.py:551-594 | Stripping an accepted name gives a stripped, name-shaped string of at most 80 characters. |
| AuthorClean.StripBylineWord | universal_scraper.py:1015 | Removes the leading "by"/"author"/"written by"/… word and the whitespace after it. Text without one is unchanged. |
| AuthorClean.FirstTailMatch | universal_scraper.py:1016-1017 | Finds the leftmost position where the tail pattern matches, up to the end or a final newline. No earlier position matches. |
| AuthorClean.LeftmostMatch | universal_scraper.py:1016-1017 | If a position matches and none before it does, it is where the cut happens. A match reaching the end leaves exactly the text before it. |
| AuthorClean.CutTail | universal_scraper.py:1016-1017 | Without a match the text is unchanged. Otherwise the text before the leftmost match is kept, followed by the final newline when the match stopped before one. |
| AuthorClean.CleanAuthorText | universal_scraper.py:1015-1020 | The cleaned text is the byline-word removal, then the separator-tail cut, then the date-tail cut, collapsed to single spaces and stripped. It is no longer than the input, stripped, and its only whitespace is single spaces. |
| AuthorClean.CleanPlainName | universal_scraper.py:1015-1020 | A text that is already clean (no byline word, no vertical bar, `-` or `–`, no "on", single-spaced and stripped) is left unchanged. |
| AuthorClean.ExtractCleanAuthorName | universal_scraper.py:994-1026 | The result is `""` or name-shaped. An element with empty text gives `""`. An acceptable `data-author` attribute wins, stripped. Otherwise an acceptable `title` attribute wins, stripped. Otherwise the result is the cleaned text when the validator accepts it, and `""` when not. |
| AuthorClean.CleanBylineWithRole | universal_scraper.py:1015-1020 | "By Jane Doe", a vertical bar, then " Staff", is cleaned to "Jane Doe". |
| AuthorClean.CleanNameEndingInOn | universal_scraper.py:1017 | The date pattern needs no word boundary before "on", so "Jason 12/3" is cleaned to "Jas". |
| AuthorClean.NoSeparatorNoMatch | universal_scraper.py:1016 | Text without a vertical bar, `-` or `–` has no separator tail. |
| AuthorClean.NoSeparatorTailBefore | universal_scraper.py:1016 | With no separator up to a non-space position, no separator tail starts at or before it. |
| AuthorClean.NoOnNoMatch | universal_scraper.py:1017 | Text that never spells "on" has no date tail. |
| AuthorClean.NoOnPairNoOn | universal_scraper.py:1017 | Text in which no `o` is followed by an `n`, in any case, never spells "on". |
| AuthorCascade.AuthorField | universal_scraper.py:833-847 | The author value is the `name` of an author object, an author string, or the `name` or string of an author list's first element, and each of these shapes does yield its value. The `@type == Person` branch adds nothing. |
| AuthorCascade.JsonLdObjectAuthor | universal_scraper.py:831-849 | The lookup raises exactly on inputs whose `'author' in data` test fails with a type error or falls through to a non-dict: a list holding the string "author", a string containing "author", or a scalar. An object with an `author` key yields that value's author field; an object without one yields `""`. |
| AuthorCascade.ItemsAuthorIsFirstDecisive | universal_scraper.py:817-821 | A list's result is the outcome of the first item that raises or gives a truthy author, every earlier item having given a falsy one. It is `""` exactly when no item decides. |
| AuthorCascade.JsonLdAuthorIsFirstDecisive | universal_scraper.py:805-829 | The JSON-LD result is the outcome of the first decodable script that raises or gives a truthy author, every earlier script having given none. It is `""` exactly when no script decides. |
| AuthorCascade.ReasonableJson | universal_scraper.py:551-553 | A string value is validated as a name, and only a string can be accepted. A falsy value is rejected without raising. It raises exactly for a non-zero number, `true`, or a list or dict of length 2 to 80. |
| AuthorCascade.NumericJsonLdNameRaises | universal_scraper.py:519-520 | A non-zero number as the author's `name` reaches the validator and raises. |
| AuthorCascade.FirstAccepted | universal_scraper.py:495-501 | The first candidate that passes the validator, or None exactly when none passes. |
| AuthorCascade.MetaCandidates | universal_scraper.py:504-516 | Holds exactly the stripped non-empty `content` values of the given author meta selectors: each candidate comes from a selector, and each selector with content contributes one. |
| AuthorCascade.MetaContent | universal_scraper.py:510-513 | A selector yields exactly when its first matching meta tag has a non-empty `content`, and then yields that content stripped. |
| AuthorCascade.MetaCandidatesAppend | universal_scraper.py:504-516 | The candidates of two selector lists in sequence are the first list's candidates followed by the second's, so candidates keep selector order. |
| AuthorCascade.FallbackAuthor | universal_scraper.py:608-628 | An empty domain gives `""`. Otherwise a domain in the configured table gets its entry and any other domain gets `""`. When the table cannot be read, the built-in four-entry table applies in the same way. |
| AuthorCascade.Attempt | universal_scraper.py:469-541 | Every name a strategy contributes passes the validator. Only the JSON-LD strategy can raise. |
| AuthorCascade.ExtractAuthor | universal_scraper.py:462-549 | A returned author passes the validator or is the fallback value. The cascade raises only when the JSON-LD step raises. |
| AuthorCascade.ExtractAuthorIsOrderedRun | universal_scraper.py:462-549 | The cascade is the short-circuit run of the strategies in order: credits first for `interviewing.io` domains; then CSS, meta, JSON-LD, text pattern and page areas; then credits for other domains. Failing all of them it returns the unvalidated fallback. |
| AuthorCascade.OrElseAssociates | universal_scraper.py:462-549 | Short-circuit combination is associative, so the run can be split at any strategy. |
| AuthorCascade.InterviewingIoCreditsFirst | universal_scraper.py:469-473 | On an `interviewing.io` domain, an acceptable credits name is returned before any other strategy runs. |
| AuthorCascade.CssShortCircuits | universal_scraper.py:495-501 | Once a CSS match yields an acceptable name, the meta tags, JSON-LD and later strategies cannot change the result. |
| AuthorCascade.CssDecides | universal_scraper.py:495-501 | When the credits rule does not fire and the CSS strategy finds a name, that name is the author. |
| Links.LinkFilterIff | universal_scraper.py:1112-1147 | An href is rejected exactly when it starts with `#`, `mailto:`, `tel:`, `javascript:` or `data:`; ends in a listed extension; contains a skip pattern anywhere, ignoring case; or starts with `http` and names another host than the base URL. |
| Links.SkipPathAnywhereRejects | universal_scraper.py:1123-1136 | A skip pattern anywhere in the href, in any case, rejects it. |
| Links.AboutUsAndTaggedRejected | universal_scraper.py:1123-1136 | `/about-us` and `/tagged` are rejected: the patterns are unanchored. |
| Links.ExternalHostRejected | universal_scraper.py:1139-1144 | An absolute href on another host than a non-empty base URL is rejected. |
| Links.ScoreArticleLink | universal_scraper.py:1149-1191 | The score lies in [0, 85]. It is 0 exactly when no rewarded signal is present. A link inside a heading scores at least 15. |
| Links.SortByScore | universal_scraper.py:360 | The sort is a permutation into non-increasing score order. |
| Links.SortIsStable | universal_scraper.py:360 | Candidates of equal score keep their relative order. |
| Links.Ranking | universal_scraper.py:359-360 | The de-duplicated, sorted list is distinct, sorted, and holds exactly the input candidates. |
| Links.SliceTo | universal_scraper.py:363 | Python's `[:k]`, including a negative `k` that drops from the end. |
| Links.RankUrls | universal_scraper.py:358-363 | The URLs of the best `max_urls` distinct candidates (or all of them when fewer), in non-increasing score order: no candidate left out scores above one returned, and a limit at least the number of candidates returns every candidate's URL. A negative limit drops that many from the end of the ranking, as Python's `[:k]` does. |
| Links.TopOfRanking | universal_scraper.py:358-363 | Any prefix of the ranking is distinct, sorted, drawn from the candidates, and holds the best-scoring ones. |
| Links.SameUrlTwice | universal_scraper.py:359-363 | De-duplication is on (URL, score) pairs, so one URL found with two scores is returned twice. |
| Links.PairsWithDistinctScoresSurvive | universal_scraper.py:359 | The same URL with two different scores gives two distinct pairs. |
| Links.SortSwapsPair | universal_scraper.py:360 | The higher score comes first. |
| Links.Candidates | universal_scraper.py:330-341 | Every candidate has a positive score. There are no more candidates than links. |
| Links.CandidatesExactly | universal_scraper.py:327-341 | The candidates are exactly the resolved URLs and scores of the anchors that pass the filter and score above 0. The filter and scorer see the raw href, not the resolved URL. |
| Links.DiscoverAsWritten | universal_scraper.py:300-366 | As written, discovery raises exactly after a network failure when no rendering service is configured. |
| Links.DiscoverArticleUrls | universal_scraper.py:300-366 | At most `max_urls` URLs. A failed fetch with no usable retry gives `[]`. A fetched page with candidates gives the ranking of its own candidates; one without gives the ranking of the retry page's candidates, or `[]` with no retry. After a network failure the rendered page's candidates are ranked. |
| Links.UnboundPageRaises | universal_scraper.py:304-320 | The as-written discovery raises on a network failure without a rendering service, where the corrected one returns `[]`. |
| Links.DiscoverAgrees | universal_scraper.py:300-366 | In every other case the two agree. |
| Links.ListingSegmentVetoes | universal_scraper.py:1663-1668 | A listing segment such as `/tag/` anywhere in the href vetoes it as a post URL. |
| Links.BlogPostIff | universal_scraper.py:1661-1681 | Without a listing segment, an href is a post URL exactly when it contains a post segment or a `/dddd/` year segment. |
| UniversalScrape.FirstPage | universal_scraper.py:220-242 | A fetched page is processed. A network failure uses the rendering service's page when one is configured. Any other failure ends the scrape. |
| UniversalScrape.AreaStage | universal_scraper.py:249-262 | The area found is always the detector's answer on the page it came from. The first page is used when it has an area. Without an area and without a rendering service there is none. |
| UniversalScrape.ContentStage | universal_scraper.py:264-279 | Content that passes is always at least 50 characters and is the formatted area of the page it came from. Without a rendering service, it passes exactly when the first page's content is long enough. |
| UniversalScrape.Finish | universal_scraper.py:281-294 | A record is built exactly when the author cascade does not raise. It holds the title, the content, the URL, the author and an empty user id. |
| UniversalScrape.ScrapeUrl | universal_scraper.py:216-298 | A record has content of at least 50 characters, an empty user id, the requested URL and the first page's title. Its content and author come from one page. On a fetched page with no rendering service, a record is produced exactly when the content is long enough and the cascade does not raise. |
| UniversalScrape.NoAreaNoRecord | universal_scraper.py:250-262 | A page on which every candidate scores 0 gives no record without a rendering service. |
| Config.StrField | config_loader.py:119-130 | A missing key gives the default. A string value is taken as is. |
| Config.StrListField | config_loader.py:31-39 | A missing or null list gives `[]`. A list of strings is kept in order. |
| Config.RealField | config_loader.py:144 | An integer or real value is read as a real. A missing key gives the default. |
| Config.DictField | config_loader.py:110-114 | A missing dictionary gives `{}`. A null one gives the `__post_init__` default. A mapping is kept. |
| Config.ParseTarget | config_loader.py:119-135 | Missing keys take the declared defaults: type `blog`, enabled, `title_selector` `h1`, `content_min_length` 50, empty name and url. Present values are kept. |
| Config.ParseTargets | config_loader.py:117-136 | Target count and order are kept. |
| Config.ParseConfig | config_loader.py:106-153 | Targets are parsed in order. A missing `settings` gives the defaults `aline123`, 3 workers, `output.json`, delay 0.2, timeout 15, `Books_PDF`. A missing `headers` gives `{}`. A null one gives the default User-Agent. |
| Config.MissingAndNullHeadersDiffer | config_loader.py:57-61 | A missing `headers` key and a null one give different headers. |
| Config.EnabledTargets | config_loader.py:156-158 | Holds exactly the enabled targets. |
| Config.EnabledTargetsAppend | config_loader.py:156-158 | The filter distributes over concatenation, so target order is kept. |
| Config.TargetByName | config_loader.py:161-166 | The first target whose name matches ignoring case, or None exactly when none matches. |
| Config.GlobalErrors | config_loader.py:176-188 | Empty exactly when `team_id` and `output_file` are non-empty, `max_workers` ≥ 1 and `request_delay` ≥ 0. There are at most four messages. |
| Config.TargetErrorsOf | config_loader.py:190-198 | Empty exactly when the target has a non-empty name, url and type. There are at most three messages. |
| Config.TargetErrorsEmptyIff | config_loader.py:190-198 | No target message is produced exactly when every target has a name, url and type. |
| Config.TargetErrorsAppend | config_loader.py:190-198 | Target messages follow target order, each numbered by the target's position. |
| Config.ValidateConfig | config_loader.py:169-200 | Empty exactly when the configuration is valid. Global errors come first. |
| Config.DefaultsAreValid | config_loader.py:106-200 | A document without `settings` whose targets all have a name, url and type validates without error. |
| TargetExtraction.ExtractTitle | generic_scraper.py:198-203 | The selected element's text, or `No Title Found` when the selector matches nothing. |
| TargetExtraction.ProcessContentElement | generic_scraper.py:245-256 | `h2`–`h4` become exactly the level's hashes, a space and the text. `li` becomes exactly `• ` and the text. Every other element gives its text unchanged. |
| TargetExtraction.ShouldExclude | generic_scraper.py:258-264 | True exactly when some lower-cased pattern occurs in the lower-cased text. |
| TargetExtraction.ExclusionEdgeCases | generic_scraper.py:258-264 | No patterns exclude nothing. An empty pattern excludes everything. |
| TargetExtraction.KeptTexts | generic_scraper.py:216-220 | Keeps exactly the texts that are non-empty, long enough and not excluded. |
| TargetExtraction.KeptTextsAppend | generic_scraper.py:216-220 | The content loop keeps element order: filtering a split list filters each part, in order. |
| TargetExtraction.SelectorParts | generic_scraper.py:210-228 | Every part from a selector is long enough, prefix included, and not excluded. Every kept element of the container contributes its part. |
| TargetExtraction.SelectorStage | generic_scraper.py:209-232 | Empty exactly when no selector yields a part. Otherwise it is one selector's parts. |
| TargetExtraction.FirstProductiveSelectorWins | generic_scraper.py:209-232 | The first selector that yields a part decides the content. |
| TargetExtraction.FallbackParts | generic_scraper.py:234-241 | Every fallback part is an unformatted page-wide `p` text of at least twice the minimum length, not excluded. Every such text is included. |
| TargetExtraction.FallbackWhenNoSelectorYields | generic_scraper.py:234-243 | When no selector yields a part, the fallback decides and every part has twice the minimum length. |
| TargetExtraction.ExtractContent | generic_scraper.py:205-243 | The body is the parts joined by a blank line, in order. It is empty exactly when there are no parts, and every part occurs in it. |
| TargetExtraction.SelectedAuthor | generic_scraper.py:278-284 | A `meta` element gives its `content`. Any other element gives its text. |
| TargetExtraction.FirstByline | generic_scraper.py:296 | The first text node matching `By\s+`, or None when no text node does. |
| TargetExtraction.BylineAuthor | generic_scraper.py:297-304 | Without `By ` the result is `""`. With `By ` and a vertical bar, it is stripped and holds no vertical bar. With `By ` alone, it is a single word. |
| TargetExtraction.BylineBranches | generic_scraper.py:299-303 | With a vertical bar the result is the segment after the first `By ` cut at that bar and stripped. Without it, the result is the first word of that segment. |
| TargetExtraction.BylineWithBar | generic_scraper.py:299-300 | "By ", a name, a vertical bar and any rest give the stripped name. |
| TargetExtraction.BylineWithoutBar | generic_scraper.py:301-303 | "By name" gives the name's first word. |
| TargetExtraction.BylineFirstNameOnly | generic_scraper.py:301-303 | "By Jane Doe" gives "Jane". |
| TargetExtraction.SecondFieldUpToBar | generic_scraper.py:300 | `split("By ")[1]` runs from after the first `By ` to the next one, so it reaches past the first vertical bar. |
| TargetExtraction.ExtractAuthorByline | generic_scraper.py:294-304 | The byline split of the first `By` text node, or `""` without one. |
| TargetExtraction.FirstPresent | generic_scraper.py:266-292 | The first present source wins. With none present the fallback applies. |
| TargetExtraction.ExtractAuthor | generic_scraper.py:266-292 | A non-empty `default_author` wins. Otherwise byline mode uses the byline split. |
| TargetExtraction.ExtractAuthorIsFirstPresent | generic_scraper.py:266-292 | The author is the first present of: default author, byline, `author_selector` (meta content or text), the two author meta tags; else `""`. |
| TargetExtraction.BylineModeIgnoresSelectors | generic_scraper.py:273-274 | In byline mode the CSS selectors play no part. |
| TargetExtraction.AcceptedHrefs | zenrows_scraper.py:133-143 | Every kept href is non-empty and contains the filter when one is set. Every passing link's href is kept. |
| TargetExtraction.RepeatedLinkKept | zenrows_scraper.py:130-146 | Links are not de-duplicated: a repeated passing link appears twice. |
| TargetExtraction.ResolveAll | zenrows_scraper.py:140-143 | Each href is resolved against the page URL, in link order. |
| GenericScraper.ZenRowsKey | generic_scraper.py:29-40 | A key is available exactly when ZenRows is enabled and a non-empty string key is configured. |
| GenericScraper.SearchUrls | generic_scraper.py:73-77 | The discovery pages when given, else the target URL. Never empty. |
| GenericScraper.PageUrls | generic_scraper.py:80-115 | Every URL is some non-empty href, passing the filter, resolved against the search page. On a loaded page, every link whose href passes contributes its resolved URL. After a request failure: nothing without a ZenRows key or with `fallback_for_discovery` off, else the ZenRows discovery of the page. |
| GenericScraper.DiscoverArticleUrls | generic_scraper.py:69-117 | Distinct URLs, exactly those found on any search page, directly or through the ZenRows discovery fallback. |
| GenericScraper.DiscoveredUrlsPassFilter | generic_scraper.py:88-97 | Every discovered URL comes from a non-empty href that contains the filter when one is set. |
| GenericScraper.SharedLinkDiscoveredOnce | generic_scraper.py:71-117 | A URL linked from several pages is returned once. |
| GenericScraper.ArticleFallback | generic_scraper.py:157-191 | A fallback record exists only with a key and the fallback flag on (default true). It is marked as scraped with ZenRows. |
| GenericScraper.ScrapeSingleArticle | generic_scraper.py:143-196 | A record has non-empty content, the target's type, the URL and an empty user id. A direct record carries the page's title, content and author. Without ZenRows, a record exists exactly when the page loads with non-empty content. |
| GenericScraper.Collect | generic_scraper.py:119-141 | Exactly the records `_scrape_single_article` produces for the given URLs: every URL that yields a record contributes it, and every record is one of those. Each has content and the target's type. |
| GenericScraper.ScrapeTarget | generic_scraper.py:42-67 | A disabled target gives `[]`. Every record comes from a discovered URL. |
| GenericScraper.DisabledTargetIsNotFetched | generic_scraper.py:52-54 | A disabled target's result does not depend on the network at all. |
| ZenRows.RequestParams | zenrows_scraper.py:44-55 | Always `url` and `apikey`. Exactly when premium: also `js_render`, `premium_proxy` and `wait`. |
| ZenRows.ArticleParams | zenrows_scraper.py:44-55 | Article requests wait 2000 ms when premium. |
| ZenRows.DiscoveryParams | zenrows_scraper.py:111-121 | Discovery requests wait 3000 ms when premium. |
| ZenRows.ParamsDifferOnlyInWait | zenrows_scraper.py:44-121 | The two parameter maps are equal exactly when not premium. Otherwise they differ only in `wait`. |
| ZenRows.ScrapeUrl | zenrows_scraper.py:29-95 | None exactly when the service fails or the content is empty. A record has the target's type, an empty user id and `scraped_with = zenrows`, with the rendered page's title, content and author. |
| ZenRows.ScrapeArticlesFromPage | zenrows_scraper.py:97-150 | `[]` on a service failure. Otherwise one resolved URL per passing link, in link order, with no de-duplication. |
| ZenRows.DiscoveredUrlsPassFilter | zenrows_scraper.py:133-143 | Every returned URL resolves a non-empty href that contains the filter when one is set. |
| PdfChapters.TitleOf | pdf_processor.py:47-53 | A page's title is its first stripped line matching `^Chapter\s+\d+[:\s]`. None exactly when no line matches. |
| PdfChapters.BareChapterNumberIsNoTitle | pdf_processor.py:31 | A bare "Chapter 3" never starts a chapter. |
| PdfChapters.ChapterItem | pdf_processor.py:56-63 | A chapter record has the title, the stripped text, type `book`, author `Aline` and an empty user id. |
| PdfChapters.Emit | pdf_processor.py:55 | A chapter is emitted exactly when both its title and its accumulated text are non-empty. |
| PdfChapters.StepPage | pdf_processor.py:39-80 | One page adds at most one chapter title, and the count never passes the limit. |
| PdfChapters.Chapters | pdf_processor.py:39-80 | Reference segmentation: every chapter starts at a titled page and collects the untitled pages after it. Pages before the first title are ignored. |
| PdfChapters.ChapterTitles | pdf_processor.py:47-53 | Every reference chapter title matches the chapter pattern and is non-empty. |
| PdfChapters.Expected | pdf_processor.py:36-92 | Reference output: fewer items than the chapter budget. |
| PdfChapters.EighthTitle | pdf_processor.py:40-42 | Processing stops at the page after the 8th title. That chapter's text is still empty, so it is never emitted. |
| PdfChapters.SegmentationMatchesReference | pdf_processor.py:25-95 | The loop produces exactly the reference output: chapters in order, each with the stripped accumulation of its untitled pages, the 8th and later dropped. |
| PdfChapters.RecordsAreBookChapters | pdf_processor.py:20-99 | At most 7 items. Every one has a chapter-pattern title, type `book`, author `Aline`, an empty user id and the file's URL. |
| PdfChapters.ProcessBookChapters | pdf_processor.py:20-23 | A missing or unreadable file gives `[]`. |
| PdfChapters.AccumulateAppend | pdf_processor.py:79-80 | Accumulated text distributes over page concatenation. |

## Left out

- Text is ASCII only: whitespace is the six ASCII whitespace characters, and lower-casing and digits are ASCII. Python's Unicode tables are not modelled.
- The credits-section search, the regular-expression byline search over the page text, and the header-area search (`_extract_author_from_credits`, `_extract_author_by_improved_pattern`, `_extract_author_from_page_areas`) enter the author cascade as their results. They depend on BeautifulSoup sibling navigation and regex backtracking over whole pages.
- The general CSS selector engine is not modelled. What `select_one` and `select` answer is given per page. The nine semantic content selectors, the meta selectors and the `h1`/`a`/`title` lookups are computed from the tree. The CSS author selectors are given as their matched elements.
- `urljoin` and `urlparse(...).netloc` (RFC 3986 section 5.2 reference resolution) are function parameters.
- Exceptions from the selector engine and from URL parsing are not modelled: `select`, `select_one` and `resolve` are total and never raise. In the source, soupsieve raises `SelectorSyntaxError` on an empty or invalid selector, and `article_link_selector` defaults to `""` (config_loader.py:19 and :124). `urljoin` raises `ValueError` on a malformed IPv6 href such as `http://[::1`. Neither is caught in discovery (generic_scraper.py:87 and :96, universal_scraper.py:333), so both escape `scrape_target` and `discover_article_urls`. In `_scrape_single_article` and the ZenRows methods, `except Exception` turns the same errors into "no result".
- Network I/O, the HTTP session, `scrape_with_zenrows` and the ZenRows HTTP calls are inputs: fetch outcomes, or functions from URL or parameter map to response. Timeouts and status codes only matter through those outcomes.
- `check_api_status` is left out: it is a network call whose result only reports service health.
- Concurrency and rate limiting (`_scrape_articles_parallel`, thread pools, `time.sleep`) are left out. `GenericScraper.Collect` scrapes sequentially in URL order, where the source keeps completion order.
- `list(set(...))` has hash order in Python. The model keeps first-occurrence order, and every stated property holds for any order.
- markdownify and PyMuPDF are not modelled. A PDF page is given as its lines and its text. The file's absolute path is the `sourceUrl` parameter. A missing file or any exception is the `None` page list.
- `load_config` file and YAML reading, and the `config.yml` read in `_get_fallback_author`, are left out. The loaded document is a value map, and the fallback table is a parameter, with `None` for an unreadable file.
- Config.ParseConfig: requires a well-typed document, meaning every field of the declared dataclass type, so these source behaviours are not modelled: a null `settings` raises `AttributeError` at config_loader.py:140; a null `targets` raises `TypeError` at config_loader.py:118; a null target `name`, `url` or `type` is stored and later reported by `validate_config` (config_loader.py:191-198); a null `max_workers` is stored and makes `validate_config` raise `TypeError` at config_loader.py:184.
- Floating-point scores are integers scaled by 100. `request_delay` is a real.
- GenericScraper.ZenRowsKey: a truthy non-string `api_key` is treated as absent. The source would pass it on to the request parameters.
- PdfChapters.ProcessBookChapters: its own contract only covers the missing file. The segmentation is stated by `PdfChapters.SegmentationMatchesReference`. The per-page title search is computed once per page (`ScanPages`). The `chapters_found > 8` exit inside the line loop is dead, because the loop already stops at 8.
- `_validate_author_thoroughly`, `_find_author_context`, `_looks_like_real_name` and `_is_valid_author_name` are not modelled: nothing on the live path calls them.
- AuthorName.ReasonableAuthorIff: the concrete acceptance of "John Smith" is not proved separately. The blocklist scan over about fifty phrases makes that literal proof too costly.
- The `ComprehensiveScraper` site crawlers, summary printing, `scrapers.py`, `cli.py`, `main.py` and JSON output writing are not part of this model.

## Findings

| source | as written | input that shows it | evidently intended | confidence | as-written member | corrected member |
|---|---|---|---|---|---|---|
| universal_scraper.py:304-320 | `soup` is bound only inside the `try`, yet the `RequestException` handler tests `if not soup` when no rendering service is configured. The resulting `UnboundLocalError` escapes `discover_article_urls`. | A base URL whose fetch raises a network error, with ZenRows not configured | Return `[]`, as the handler's own message says ("All discovery methods failed"), and as `scrape_url` does by initialising `soup = None` | not executed | Links.DiscoverAsWritten | Links.DiscoverArticleUrls |

=== FILE: author_cascade.dfy ===
/**
 The author cascade of the heuristic scraper (`_extract_author`): a fixed
 order of strategies, each proposing a name that must pass the author
 validator, and a per-domain fallback table when all of them fail.

 Three strategies depend on parts of the page this model does not compute and
 enter as their results: the credits-section search, the regular-expression
 byline search over the page text, and the search in header areas. The
 elements matched by the CSS author selectors are given in selector order,
 and the domain is the lower-cased network location of the page URL.
 */
module AuthorCascade {
  import opened Text
  import opened Common
  import opened Dom
  import opened AuthorName
  import opened AuthorClean

  /** A value as `json.loads` returns it; numbers are kept as integers. */
  datatype Json =
    | JNull
    | JBool(b: bool)
    | JNum(n: int)
    | JStr(s: string)
    | JArr(items: seq<Json>)
    | JObj(fields: map<string, Json>)

  /** Python truthiness of a JSON value. */
  predicate Truthy(j: Json) {
    match j
    case JNull => false
    case JBool(b) => b
    case JNum(n) => n != 0
    case JStr(s) => s != []
    case JArr(xs) => xs != []
    case JObj(m) => m != map[]
  }

  const NoAuthor: Json := JStr("")

  /** The value of an `author` field: a dict's `name`, a string, or the first element of a list. */
  function AuthorField(a: Json): (r: Json)
    ensures r != NoAuthor ==>
      (a.JObj? && "name" in a.fields && r == a.fields["name"])
      || (a.JStr? && r == a)
      || (a.JArr? && a.items != [] &&
           ((a.items[0].JObj? && "name" in a.items[0].fields && r == a.items[0].fields["name"])
            || (a.items[0].JStr? && r == a.items[0])))
    ensures a.JObj? && "name" in a.fields ==> r == a.fields["name"]
    ensures a.JStr? ==> r == a
    ensures a.JArr? && a.items != [] && a.items[0].JObj? && "name" in a.items[0].fields ==> r == a.items[0].fields["name"]
    ensures a.JArr? && a.items != [] && a.items[0].JStr? ==> r == a.items[0]
  {
    match a
    case JObj(f) => if "name" in f then f["name"] else NoAuthor
    case JStr(_) => a
    case JArr(xs) =>
      if xs == [] then NoAuthor
      else
        (match xs[0]
         case JObj(g) => if "name" in g then g["name"] else NoAuthor
         case JStr(_) => xs[0]
         case _ => NoAuthor)
    case _ => NoAuthor
  }

  /**
   `_extract_author_from_jsonld_object`, applied to any value a script or a
   list element holds. Only a dict is looked into, and only at its own
   `author` key. For anything else `'author' in data` is evaluated first:
   on a string it is a substring test and on a list a membership test, and
   when either holds the subscript `data['author']` raises; on a number, a
   boolean or null the test itself raises.
   */
  function JsonLdObjectAuthor(data: Json): (r: Outcome<Json>)
    ensures r.Raised? <==>
      match data
      case JObj(_) => false
      case JArr(xs) => JStr("author") in xs
      case JStr(s) => Contains(s, "author")
      case _ => true
    ensures r.Returned? && r.value != NoAuthor ==>
      data.JObj? && "author" in data.fields && r.value == AuthorField(data.fields["author"])
    ensures data.JObj? && "author" in data.fields ==> r == Returned(AuthorField(data.fields["author"]))
    ensures data.JObj? && "author" !in data.fields ==> r == Returned(NoAuthor)
  {
    match data
    case JObj(f) => Returned(if "author" in f then AuthorField(f["author"]) else NoAuthor)
    case JArr(xs) => if JStr("author") in xs then Raised else Returned(NoAuthor)
    case JStr(s) => if Contains(s, "author") then Raised else Returned(NoAuthor)
    case _ => Raised
  }

  /** An outcome that ends a search: a raise or a truthy author. */
  predicate Decisive(o: Outcome<Json>) {
    o.Raised? || Truthy(o.value)
  }

  /** `r` is the outcome at `i` and no outcome before `i` ends the search. */
  predicate FirstDecisiveAt(outs: seq<Outcome<Json>>, i: int, r: Outcome<Json>) {
    0 <= i < |outs| && outs[i] == r && forall j :: 0 <= j < i ==> !Decisive(outs[j])
  }

  /** The outcome of every list element, in order. */
  function ItemOutcomes(items: seq<Json>): (r: seq<Outcome<Json>>)
    ensures |r| == |items| && forall i :: 0 <= i < |items| ==> r[i] == JsonLdObjectAuthor(items[i])
  {
    seq(|items|, i requires 0 <= i < |items| => JsonLdObjectAuthor(items[i]))
  }

  /**
   The first truthy author among list elements, or the first raise; when no
   element decides, the empty author.
   */
  function ItemsAuthor(items: seq<Json>): (r: Outcome<Json>)
    ensures r.Returned? ==> Truthy(r.value) || r.value == NoAuthor
  {
    if items == [] then Returned(NoAuthor)
    else
      var here := JsonLdObjectAuthor(items[0]);
      if Decisive(here) then here else ItemsAuthor(items[1..])
  }

  /**
   The list search stops at the first element whose outcome is a raise or a
   truthy author and returns that outcome; it comes back empty exactly when no
   element decides.
   */
  lemma {:induction false} ItemsAuthorIsFirstDecisive(items: seq<Json>)
    ensures Decisive(ItemsAuthor(items)) ==> exists i :: FirstDecisiveAt(ItemOutcomes(items), i, ItemsAuthor(items))
    ensures !Decisive(ItemsAuthor(items)) <==> forall i :: 0 <= i < |items| ==> !Decisive(JsonLdObjectAuthor(items[i]))
  {
    if items != [] {
      var r := ItemsAuthor(items);
      var here := JsonLdObjectAuthor(items[0]);
      if Decisive(here) {
        assert FirstDecisiveAt(ItemOutcomes(items), 0, r);
      } else {
        ItemsAuthorIsFirstDecisive(items[1..]);
        assert forall i :: 1 <= i < |items| ==> items[i] == items[1..][i - 1];
        if Decisive(r) {
          var k :| FirstDecisiveAt(ItemOutcomes(items[1..]), k, r);
          assert FirstDecisiveAt(ItemOutcomes(items), k + 1, r);
        }
      }
    }
  }

  /** One decoded script: a list is searched element by element, a dict directly, anything else is skipped. */
  function DocumentAuthor(d: Json): (r: Outcome<Json>)
    ensures r.Returned? ==> Truthy(r.value) || r.value == NoAuthor
  {
    match d
    case JArr(xs) => ItemsAuthor(xs)
    case JObj(_) =>
      var a := JsonLdObjectAuthor(d);
      if a.Returned? && !Truthy(a.value) then Returned(NoAuthor) else a
    case _ => Returned(NoAuthor)
  }

  /** One script as the search sees it: skipped when it is empty or does not decode. */
  function ScriptAuthor(script: Option<Json>): Outcome<Json> {
    if script.Some? then DocumentAuthor(script.value) else Returned(NoAuthor)
  }

  /** The outcome of every script, in document order. */
  function ScriptOutcomes(scripts: seq<Option<Json>>): (r: seq<Outcome<Json>>)
    ensures |r| == |scripts| && forall i :: 0 <= i < |scripts| ==> r[i] == ScriptAuthor(scripts[i])
  {
    seq(|scripts|, i requires 0 <= i < |scripts| => ScriptAuthor(scripts[i]))
  }

  /**
   `_extract_author_from_jsonld`: the first truthy author over the
   `application/ld+json` scripts in document order, or the first raise. A
   script that is empty or does not decode is `None` and skipped.
   */
  function JsonLdAuthor(scripts: seq<Option<Json>>): (r: Outcome<Json>)
    ensures r.Returned? ==> Truthy(r.value) || r.value == NoAuthor
  {
    if scripts == [] then Returned(NoAuthor)
    else
      var here := ScriptAuthor(scripts[0]);
      if Decisive(here) then here else JsonLdAuthor(scripts[1..])
  }

  /**
   The script search stops at the first script whose outcome is a raise or a
   truthy author and returns that outcome; it comes back empty exactly when no
   script decides.
   */
  lemma {:induction false} JsonLdAuthorIsFirstDecisive(scripts: seq<Option<Json>>)
    ensures Decisive(JsonLdAuthor(scripts)) ==>
      exists i :: FirstDecisiveAt(ScriptOutcomes(scripts), i, JsonLdAuthor(scripts))
    ensures !Decisive(JsonLdAuthor(scripts)) <==> forall i :: 0 <= i < |scripts| ==> !Decisive(ScriptAuthor(scripts[i]))
  {
    if scripts != [] {
      var r := JsonLdAuthor(scripts);
      var here := ScriptAuthor(scripts[0]);
      if Decisive(here) {
        assert FirstDecisiveAt(ScriptOutcomes(scripts), 0, r);
      } else {
        JsonLdAuthorIsFirstDecisive(scripts[1..]);
        assert forall i :: 1 <= i < |scripts| ==> scripts[i] == scripts[1..][i - 1];
        if Decisive(r) {
          var k :| FirstDecisiveAt(ScriptOutcomes(scripts[1..]), k, r);
          assert FirstDecisiveAt(ScriptOutcomes(scripts), k + 1, r);
        }
      }
    }
  }

  /**
   `_is_reasonable_author` applied to a JSON value. A falsy value is rejected
   by `not author_name`; a string is judged as usual; a list or dict is
   rejected by the length test when its length is outside 2 to 80 and
   otherwise reaches `.strip()`, which raises; `len` of a non-zero number or
   of `true` raises.
   */
  function ReasonableJson(j: Json): (r: Outcome<bool>)
    ensures r == Returned(true) ==> j.JStr? && IsReasonableAuthor(j.s)
    ensures j.JStr? ==> r == Returned(IsReasonableAuthor(j.s))
    ensures !Truthy(j) ==> r == Returned(false)
    ensures r.Raised? <==>
      Truthy(j) && (j.JNum? || j.JBool? || (j.JArr? && 2 <= |j.items| <= 80) || (j.JObj? && 2 <= |j.fields| <= 80))
  {
    match j
    case JStr(s) => Returned(IsReasonableAuthor(s))
    case JArr(xs) => if |xs| < 2 || |xs| > 80 then Returned(false) else Raised
    case JObj(m) => if |m| < 2 || |m| > 80 then Returned(false) else Raised
    case JNull => Returned(false)
    case JNum(n) => if n == 0 then Returned(false) else Raised
    case JBool(b) => if b then Raised else Returned(false)
  }

  /** Strategy 3 as the cascade sees it: an accepted name, nothing, or a raise. */
  function JsonLdStep(scripts: seq<Option<Json>>): (r: Outcome<Option<string>>)
    ensures r.Returned? && r.value.Some? ==> IsReasonableAuthor(r.value.value)
  {
    match JsonLdAuthor(scripts)
    case Raised => Raised
    case Returned(j) =>
      if !Truthy(j) then Returned(None)
      else
        match ReasonableJson(j)
        case Raised => Raised
        case Returned(ok) => if ok then Returned(Some(j.s)) else Returned(None)
  }

  /** The first candidate the validator accepts. */
  function FirstAccepted(cs: seq<string>): (r: Option<string>)
    ensures r.Some? ==> IsReasonableAuthor(r.value)
    ensures r.Some? ==> exists i :: 0 <= i < |cs| && cs[i] == r.value
                                   && forall j :: 0 <= j < i ==> !IsReasonableAuthor(cs[j])
    ensures r.None? <==> forall i :: 0 <= i < |cs| ==> !IsReasonableAuthor(cs[i])
  {
    match FirstWhere(cs, IsReasonableAuthor)
    case Some(i) => Some(cs[i])
    case None => None
  }

  /** `_extract_clean_author_name` of every matched element, in order. */
  function CleanNames(els: seq<Located>): (r: seq<string>)
    requires forall e :: e in els ==> e.node.Element?
    ensures |r| == |els|
    ensures forall i :: 0 <= i < |els| ==> r[i] == ExtractCleanAuthorName(els[i])
  {
    seq(|els|, i requires 0 <= i < |els| => ExtractCleanAuthorName(els[i]))
  }

  /** The six meta selectors of strategy 2, as (attribute, value) pairs. */
  const MetaAuthorSelectors: seq<(string, string)> := [
    ("name", "author"), ("property", "article:author"), ("name", "article:author"),
    ("property", "og:article:author"), ("name", "twitter:creator"), ("property", "author")]

  /**
   `select_one('meta[<attr>="<value>"]')` followed by the `content` test: the
   stripped `content` of the first matching meta tag, when it is non-empty
   before stripping.
   */
  function MetaContent(doc: Node, sel: (string, string)): (r: Option<string>)
    ensures r.Some? ==> exists m :: FirstMeta(Elements(doc), sel.0, sel.1) == Some(m)
                                 && Attr(m, "content").Some? && Attr(m, "content").value != []
                                 && r.value == Strip(Attr(m, "content").value)
    ensures forall m :: (FirstMeta(Elements(doc), sel.0, sel.1) == Some(m) && Attr(m, "content").Some?
                         && Attr(m, "content").value != []) ==> r == Some(Strip(Attr(m, "content").value))
  {
    match FirstMeta(Elements(doc), sel.0, sel.1)
    case None => None
    case Some(m) =>
      match Attr(m, "content")
      case None => None
      case Some(c) => if c != [] then Some(Strip(c)) else None
  }

  /** The meta candidates, selector by selector. */
  function MetaCandidates(doc: Node, sels: seq<(string, string)>): (r: seq<string>)
    ensures |r| <= |sels|
    ensures forall c :: c in r ==> exists i :: 0 <= i < |sels| && MetaContent(doc, sels[i]) == Some(c)
    ensures forall i :: 0 <= i < |sels| && MetaContent(doc, sels[i]).Some? ==> MetaContent(doc, sels[i]).value in r
  {
    if sels == [] then []
    else
      var here := MetaContent(doc, sels[0]);
      var rest := MetaCandidates(doc, sels[1..]);
      assert forall i :: 1 <= i < |sels| ==> sels[i] == sels[1..][i - 1];
      (if here.Some? then [here.value] else []) + rest
  }

  /**
   The candidates of consecutive selector lists follow one another: the
   candidates keep the order of the selectors that produced them.
   */
  lemma {:induction false} MetaCandidatesAppend(doc: Node, a: seq<(string, string)>, b: seq<(string, string)>)
    ensures MetaCandidates(doc, a + b) == MetaCandidates(doc, a) + MetaCandidates(doc, b)
  {
    if a == [] {
      assert a + b == b;
    } else {
      assert (a + b)[0] == a[0];
      assert (a + b)[1..] == a[1..] + b;
      MetaCandidatesAppend(doc, a[1..], b);
    }
  }

  const HardcodedFallbacks: map<string, string> := map[
    "interviewing.io" := "interviewing.io team",
    "nilmamano.com" := "Nil Mamano",
    "quill.co" := "Quill team",
    "shreycation.substack.com" := "Shrey G"]

  /**
   `_get_fallback_author`: the table entry for the domain, or `""`. The table
   is the configured `fallback_authors` map; `None` stands for a configuration
   that could not be read, in which case the built-in table applies.
   */
  function FallbackAuthor(domain: string, table: Option<map<string, string>>): (r: string)
    ensures domain == [] ==> r == []
    ensures r != [] && table.Some? ==> domain in table.value && r == table.value[domain]
    ensures r != [] && table.None? ==> domain in HardcodedFallbacks && r == HardcodedFallbacks[domain]
    ensures domain != [] && table.None? && domain in HardcodedFallbacks ==> r == HardcodedFallbacks[domain]
    ensures domain != [] && table.Some? && domain in table.value ==> r == table.value[domain]
  {
    if domain == [] then []
    else
      var t := if table.Some? then table.value else HardcodedFallbacks;
      if domain in t then t[domain] else []
  }

  /** Everything the cascade reads besides the document. */
  datatype AuthorSources = AuthorSources(
    domain: string,
    credits: string,                   // result of the credits-section search
    cssMatches: seq<Located>,          // elements matched by the CSS author selectors, selector by selector
    jsonLd: seq<Option<Json>>,         // decoded `application/ld+json` scripts
    pattern: string,                   // result of the text-pattern search
    pageAreas: string,                 // result of the header-area search
    fallbackTable: Option<map<string, string>>)

  predicate WellFormedSources(src: AuthorSources) {
    forall e :: e in src.cssMatches ==> e.node.Element?
  }

  predicate IsInterviewingIo(domain: string) { Contains(domain, "interviewing.io") }

  datatype Strategy = Credits | Css | Meta | JsonLd | TextPattern | PageAreas

  /**
   What one strategy contributes: an accepted name, nothing, or a raise. The
   credits, text-pattern and header-area results are validated once more
   here, as the cascade does with every strategy's result.
   */
  function Attempt(s: Strategy, doc: Node, src: AuthorSources): (r: Outcome<Option<string>>)
    requires WellFormedSources(src)
    ensures r.Returned? && r.value.Some? ==> IsReasonableAuthor(r.value.value)
    ensures r.Raised? ==> s == JsonLd && JsonLdStep(src.jsonLd).Raised?
  {
    match s
    case Credits => Returned(if IsReasonableAuthor(src.credits) then Some(src.credits) else None)
    case Css => Returned(FirstAccepted(CleanNames(src.cssMatches)))
    case Meta => Returned(FirstAccepted(MetaCandidates(doc, MetaAuthorSelectors)))
    case JsonLd => JsonLdStep(src.jsonLd)
    case TextPattern => Returned(if IsReasonableAuthor(src.pattern) then Some(src.pattern) else None)
    case PageAreas => Returned(if IsReasonableAuthor(src.pageAreas) then Some(src.pageAreas) else None)
  }

  /** `first`, unless it came back empty; then `second`. Python's early `return` between strategies. */
  function OrElse(first: Outcome<Option<string>>, second: Outcome<Option<string>>): Outcome<Option<string>> {
    if first == Returned(None) then second else first
  }

  /**
   `_extract_author`: the credits search first when the domain mentions
   interviewing.io, then CSS selectors, meta tags, JSON-LD, the text pattern,
   the header areas and, for other domains, the credits search; the first
   accepted name wins. When none is accepted the fallback table's entry is
   returned without validation. Only the JSON-LD step can raise, and it is
   reached only when every earlier strategy came back empty.
   */
  function ExtractAuthor(doc: Node, src: AuthorSources): (r: Outcome<string>)
    requires WellFormedSources(src)
    ensures r.Returned? ==> IsReasonableAuthor(r.value) || r.value == FallbackAuthor(src.domain, src.fallbackTable)
    ensures r.Raised? ==> JsonLdStep(src.jsonLd).Raised?
  {
    var credits := Attempt(Credits, doc, src);
    var middle :=
      OrElse(Attempt(Css, doc, src),
      OrElse(Attempt(Meta, doc, src),
      OrElse(Attempt(JsonLd, doc, src),
      OrElse(Attempt(TextPattern, doc, src),
             Attempt(PageAreas, doc, src)))));
    var run := if IsInterviewingIo(src.domain) then OrElse(credits, middle) else OrElse(middle, credits);
    match run
    case Raised => Raised
    case Returned(Some(a)) => Returned(a)
    case Returned(None) => Returned(FallbackAuthor(src.domain, src.fallbackTable))
  }

  // A reference formulation: the strategies as a list, run in order.

  /** The strategy order for a domain. */
  function StrategyOrder(domain: string): seq<Strategy> {
    if IsInterviewingIo(domain) then [Credits, Css, Meta, JsonLd, TextPattern, PageAreas]
    else [Css, Meta, JsonLd, TextPattern, PageAreas, Credits]
  }

  /** Runs the strategies in order and stops at the first name or raise; `None` when all came back empty. */
  function RunStrategies(ss: seq<Strategy>, doc: Node, src: AuthorSources): Outcome<Option<string>>
    requires WellFormedSources(src)
  {
    if ss == [] then Returned(None)
    else
      match Attempt(ss[0], doc, src)
      case Raised => Raised
      case Returned(Some(a)) => Returned(Some(a))
      case Returned(None) => RunStrategies(ss[1..], doc, src)
  }

  /** One step of the run: the head strategy, then the rest if it came back empty. */
  lemma RunStep(ss: seq<Strategy>, doc: Node, src: AuthorSources)
    requires WellFormedSources(src)
    requires ss != []
    ensures RunStrategies(ss, doc, src) == OrElse(Attempt(ss[0], doc, src), RunStrategies(ss[1..], doc, src))
  {
    var a := Attempt(ss[0], doc, src);
    assert RunStrategies(ss, doc, src) ==
      match a
      case Raised => Raised
      case Returned(Some(n)) => Returned(Some(n))
      case Returned(None) => RunStrategies(ss[1..], doc, src);
  }

  lemma OrElseAssociates(a: Outcome<Option<string>>, b: Outcome<Option<string>>, c: Outcome<Option<string>>)
    ensures OrElse(OrElse(a, b), c) == OrElse(a, OrElse(b, c))
  {
  }

  /** The cascade is exactly the ordered run of strategies, followed by the fallback table. */
  lemma ExtractAuthorIsOrderedRun(doc: Node, src: AuthorSources)
    requires WellFormedSources(src)
    ensures ExtractAuthor(doc, src) ==
      match RunStrategies(StrategyOrder(src.domain), doc, src)
      case Raised => Raised
      case Returned(Some(a)) => Returned(a)
      case Returned(None) => Returned(FallbackAuthor(src.domain, src.fallbackTable))
  {
    var ss := StrategyOrder(src.domain);
    var c, a1, a2, a3, a4, a5 :=
      Attempt(Credits, doc, src), Attempt(Css, doc, src), Attempt(Meta, doc, src),
      Attempt(JsonLd, doc, src), Attempt(TextPattern, doc, src), Attempt(PageAreas, doc, src);
    var middle := OrElse(a1, OrElse(a2, OrElse(a3, OrElse(a4, a5))));
    RunOfSix(ss, doc, src);
    var run := RunStrategies(ss, doc, src);
    if IsInterviewingIo(src.domain) {
      assert run == OrElse(c, OrElse(a1, OrElse(a2, OrElse(a3, OrElse(a4, OrElse(a5, Returned(None)))))));
      assert run == OrElse(c, middle);
    } else {
      assert run == OrElse(a1, OrElse(a2, OrElse(a3, OrElse(a4, OrElse(a5, OrElse(c, Returned(None)))))));
      OrElseAssociates(a4, a5, c);
      OrElseAssociates(a3, OrElse(a4, a5), c);
      OrElseAssociates(a2, OrElse(a3, OrElse(a4, a5)), c);
      OrElseAssociates(a1, OrElse(a2, OrElse(a3, OrElse(a4, a5))), c);
      assert run == OrElse(middle, c);
    }
  }

  /** A run of six strategies, spelled out. */
  lemma RunOfSix(ss: seq<Strategy>, doc: Node, src: AuthorSources)
    requires WellFormedSources(src) && |ss| == 6
    ensures RunStrategies(ss, doc, src) ==
      OrElse(Attempt(ss[0], doc, src), OrElse(Attempt(ss[1], doc, src), OrElse(Attempt(ss[2], doc, src),
      OrElse(Attempt(ss[3], doc, src), OrElse(Attempt(ss[4], doc, src), OrElse(Attempt(ss[5], doc, src), Returned(None)))))))
  {
    RunStep(ss, doc, src);
    RunStep(ss[1..], doc, src);
    RunStep(ss[2..], doc, src);
    RunStep(ss[3..], doc, src);
    RunStep(ss[4..], doc, src);
    RunStep(ss[5..], doc, src);
    assert ss[1..][1..] == ss[2..];
    assert ss[2..][1..] == ss[3..];
    assert ss[3..][1..] == ss[4..];
    assert ss[4..][1..] == ss[5..];
    assert ss[5..][1..] == [];
  }

  /**
   Short-circuit: once an element matched by a CSS selector yields an
   accepted name (and the interviewing.io credits rule did not fire), no
   later input matters, so later strategies can neither change the result
   nor raise.
   */
  lemma CssShortCircuits(doc: Node, src: AuthorSources, other: AuthorSources, i: nat)
    requires WellFormedSources(src) && WellFormedSources(other)
    requires other.domain == src.domain && other.credits == src.credits && other.cssMatches == src.cssMatches
    requires !(IsInterviewingIo(src.domain) && IsReasonableAuthor(src.credits))
    requires i < |src.cssMatches| && IsReasonableAuthor(ExtractCleanAuthorName(src.cssMatches[i]))
    ensures ExtractAuthor(doc, src).Returned?
    ensures ExtractAuthor(doc, other) == ExtractAuthor(doc, src)
  {
    CssFinds(doc, src, i);
    var css := Attempt(Css, doc, src);
    assert Attempt(Css, doc, other) == css;
    CssDecides(doc, src);
    CssDecides(doc, other);
  }

  /** A name from the CSS strategy is the result whenever the credits rule does not fire first. */
  lemma CssDecides(doc: Node, src: AuthorSources)
    requires WellFormedSources(src)
    requires !(IsInterviewingIo(src.domain) && IsReasonableAuthor(src.credits))
    requires Attempt(Css, doc, src).Returned? && Attempt(Css, doc, src).value.Some?
    ensures ExtractAuthor(doc, src) == Returned(Attempt(Css, doc, src).value.value)
  {
  }

  /** An element whose cleaned text is accepted makes the CSS strategy succeed. */
  lemma CssFinds(doc: Node, src: AuthorSources, i: nat)
    requires WellFormedSources(src)
    requires i < |src.cssMatches| && IsReasonableAuthor(ExtractCleanAuthorName(src.cssMatches[i]))
    ensures Attempt(Css, doc, src).Returned? && Attempt(Css, doc, src).value.Some?
  {
    var names := CleanNames(src.cssMatches);
    assert IsReasonableAuthor(names[i]);
    assert FirstAccepted(names).Some?;
    assert Attempt(Css, doc, src) == Returned(FirstAccepted(names));
  }

  /** With the interviewing.io domain and acceptable credits, nothing else is consulted. */
  lemma InterviewingIoCreditsFirst(doc: Node, src: AuthorSources)
    requires WellFormedSources(src)
    requires IsInterviewingIo(src.domain) && IsReasonableAuthor(src.credits)
    ensures ExtractAuthor(doc, src) == Returned(src.credits)
  {
  }

  /**
   A JSON-LD author whose `name` is a non-zero number is truthy, so it reaches
   the validator, where `len` raises.
   */
  lemma NumericJsonLdNameRaises(n: int)
    requires n != 0
    ensures JsonLdStep([Some(JObj(map["author" := JObj(map["name" := JNum(n)])]))]) == Raised
  {
    var d := JObj(map["author" := JObj(map["name" := JNum(n)])]);
    assert JsonLdObjectAuthor(d) == Returned(JNum(n));
    assert DocumentAuthor(d) == Returned(JNum(n));
  }
}

=== FILE: author_clean.dfy ===
/**
 `_extract_clean_author_name`: turns an element into a candidate author name.
 Reliable attributes are tried first; otherwise the element's text loses a
 leading byline word, a trailing `| ...`/`- ...` part and a trailing
 `on 12/3...` date, has its whitespace collapsed, and must then pass the
 author validator.

 The three substitutions are regular expressions in the source. Each is
 modelled by the search the regular-expression engine performs: try every
 start position from the left, let `\s*` take the whole whitespace run, and
 require the rest of the pattern to match there. Python's `$` matches at the
 end of the text and also just before a final newline, and `.` does not match
 a newline, so `.*$` succeeds only when no newline comes before the last
 character.
 */
module AuthorClean {
  import opened Text
  import opened Common
  import opened Dom
  import opened AuthorName
  import Title

  /**
   The length of the byline word `^(by|author:?|written by|posted by|published by)`
   matched case-insensitively at the start of `t`, or 0. The alternatives are
   tried in the source's order, and the optional colon is taken when present.
   */
  function BylineWordLength(t: string): (n: nat)
    ensures n <= |t|
  {
    var l := Lower(t);
    if StartsWith(l, "by") then 2
    else if StartsWith(l, "author") then (if |t| > 6 && t[6] == ':' then 7 else 6)
    else if StartsWith(l, "written by") then 10
    else if StartsWith(l, "posted by") then 9
    else if StartsWith(l, "published by") then 12
    else 0
  }

  /** The first substitution: a leading byline word and the whitespace after it are removed. */
  function StripBylineWord(t: string): (r: string)
    ensures |r| <= |t| && r == t[|t| - |r|..]
    ensures BylineWordLength(t) == 0 ==> r == t
    ensures BylineWordLength(t) > 0 ==>
      |r| <= |t| - BylineWordLength(t)
      && AllSpace(t[BylineWordLength(t)..|t| - |r|])
      && (r == [] || !IsSpace(r[0]))
  {
    var n := BylineWordLength(t);
    if n == 0 then t else t[SkipSpace(t, n)..]
  }

  /** The first newline at or after `k`, or the end of the text. */
  function LineEnd(t: string, k: nat): (p: nat)
    requires k <= |t|
    ensures k <= p <= |t|
    ensures p == |t| || t[p] == '\n'
    ensures forall i :: k <= i < p ==> t[i] != '\n'
    decreases |t| - k
  {
    if k == |t| || t[k] == '\n' then k else LineEnd(t, k + 1)
  }

  /** `.*$` starting at `k`: where it ends, if it can reach the end of the text. */
  function RestOfText(t: string, k: nat): (r: Option<nat>)
    requires k <= |t|
    ensures r.Some? ==> k <= r.value && (r.value == |t| || (r.value == |t| - 1 && t[r.value] == '\n'))
    ensures r.Some? ==> forall i :: k <= i < r.value ==> t[i] != '\n'
  {
    var p := LineEnd(t, k);
    if p == |t| || p == |t| - 1 then Some(p) else None
  }

  predicate IsDateSeparator(c: char) { c == '/' || c == '-' }

  /** The two trailing parts the cleaner removes. */
  datatype TailPattern =
    | SeparatorTail  // `\s*[\|\-\–]\s*.*$`
    | DateTail       // `\s*on\s+\d{1,2}[\/\-]\d{1,2}.*$`, case-insensitive

  /** `\d{1,2}[\/\-]\d{1,2}.*$` at `k`: where the match ends, if it matches. */
  function DateAt(t: string, k: nat): (r: Option<nat>)
    requires k <= |t|
    ensures r.Some? ==> k + 3 <= r.value <= |t| && IsDigit(t[k])
  {
    if k < |t| && IsDigit(t[k]) then
      var s :=
        if k + 1 < |t| && IsDateSeparator(t[k + 1]) then k + 1
        else if k + 2 < |t| && IsDigit(t[k + 1]) && IsDateSeparator(t[k + 2]) then k + 2
        else 0;
      if s > 0 && s + 1 < |t| && IsDigit(t[s + 1]) then RestOfText(t, s + 2) else None
    else None
  }

  /** The two characters at `j` are "on" in some mix of cases. */
  predicate SpellsOn(t: string, j: nat) {
    j + 2 <= |t| && Lower(t[j..j + 2]) == "on"
  }

  /** The pattern after its leading `\s*`, tried at `j`: where the match ends, if it matches. */
  function BodyMatch(pat: TailPattern, t: string, j: nat): (r: Option<nat>)
    requires j <= |t|
    ensures r.Some? ==> j < r.value <= |t|
    ensures r.Some? ==> r.value == |t| || (r.value == |t| - 1 && t[r.value] == '\n')
  {
    match pat
    case SeparatorTail =>
      if j < |t| && Title.IsSuffixSeparator(t[j]) then RestOfText(t, SkipSpace(t, j + 1)) else None
    case DateTail =>
      if SpellsOn(t, j) then
        var k := SkipSpace(t, j + 2);
        if k == j + 2 then None else DateAt(t, k)
      else None
  }

  /** The leftmost match at or after `i`, as (start, end). */
  function FirstTailMatch(pat: TailPattern, t: string, i: nat): (r: Option<(nat, nat)>)
    requires i <= |t|
    ensures r.Some? ==> i <= r.value.0 < r.value.1 <= |t|
    ensures r.Some? ==> BodyMatch(pat, t, SkipSpace(t, r.value.0)) == Some(r.value.1)
    ensures r.Some? ==> r.value.1 == |t| || (r.value.1 == |t| - 1 && t[r.value.1] == '\n')
    ensures forall k :: i <= k <= |t| && (r.None? || k < r.value.0) ==> NoMatchAt(pat, t, k)
    ensures r.Some? ==> !NoMatchAt(pat, t, r.value.0)
    decreases |t| - i
  {
    var m := BodyMatch(pat, t, SkipSpace(t, i));
    if m.Some? then Some((i, m.value))
    else if i == |t| then None
    else FirstTailMatch(pat, t, i + 1)
  }

  /** A match at `s` with none before it is the leftmost match. */
  lemma LeftmostMatch(pat: TailPattern, t: string, s: nat)
    requires s <= |t| && !NoMatchAt(pat, t, s)
    requires forall k :: 0 <= k < s ==> NoMatchAt(pat, t, k)
    ensures FirstTailMatch(pat, t, 0) == Some((s, BodyMatch(pat, t, SkipSpace(t, s)).value))
    ensures BodyMatch(pat, t, SkipSpace(t, s)) == Some(|t|) ==> CutTail(pat, t) == t[..s]
  {
  }

  /** The pattern, with its leading `\s*`, does not match at `k`. */
  predicate NoMatchAt(pat: TailPattern, t: string, k: nat)
    requires k <= |t|
  {
    BodyMatch(pat, t, SkipSpace(t, k)).None?
  }

  /**
   `re.sub(pattern, '', t)` for a trailing pattern: the leftmost match runs to
   the end of the text (or to a final newline, which survives), so there is
   at most one match and everything from its start on is removed.
   */
  function CutTail(pat: TailPattern, t: string): (r: string)
    ensures FirstTailMatch(pat, t, 0).None? ==> r == t
    ensures FirstTailMatch(pat, t, 0).Some? ==>
      var s := FirstTailMatch(pat, t, 0).value.0;
      |r| >= s && r[..s] == t[..s]
      && (r == t[..s] || (r == t[..s] + "\n" && t[|t| - 1] == '\n'))
  {
    match FirstTailMatch(pat, t, 0)
    case None => t
    case Some((s, e)) => CutAt(t, s, e)
  }

  /** `t` without the part from `s` to `e`, where `e` ends the text or precedes its final newline. */
  function CutAt(t: string, s: nat, e: nat): (r: string)
    requires s <= e <= |t| && (e == |t| || (e == |t| - 1 && t[e] == '\n'))
    ensures |r| >= s && r[..s] == t[..s]
    ensures r == t[..s] || (e < |t| && r == t[..s] + "\n" && t[|t| - 1] == '\n')
  {
    if e == |t| then t[..s] else t[..s] + "\n"
  }

  /**
   The text-cleaning steps, in the source's order: the byline word goes, then
   the separator tail, then the date tail; the rest has its whitespace runs
   collapsed to single spaces and is stripped.
   */
  function CleanAuthorText(t: string): (r: string)
    ensures |r| <= |t|
    ensures IsStripped(r) && SingleSpaced(r)
    ensures r == Strip(CollapseSpaces(CutTail(DateTail, CutTail(SeparatorTail, StripBylineWord(t)))))
  {
    var cut := CutTail(DateTail, CutTail(SeparatorTail, StripBylineWord(t)));
    var collapsed := CollapseSpaces(cut);
    CollapseSingleSpaced(cut);
    StripKeepsSingleSpaced(collapsed);
    Strip(collapsed)
  }

  /**
   A text that is already a clean name (no leading byline word, no `|`, `-`
   or `–`, no "on" in any case, single-spaced and stripped) is left as it is.
   */
  lemma CleanPlainName(t: string)
    requires BylineWordLength(t) == 0
    requires forall k :: 0 <= k < |t| ==> !Title.IsSuffixSeparator(t[k])
    requires forall k :: 0 <= k <= |t| ==> !SpellsOn(t, k)
    requires SingleSpaced(t) && IsStripped(t)
    ensures CleanAuthorText(t) == t
  {
    NoSeparatorNoMatch(t, 0);
    NoOnNoMatch(t, 0);
    CollapseFixed(t);
    StripStripped(t);
  }

  /**
   `_extract_clean_author_name`: empty text gives `""`; otherwise an
   acceptable `data-author`, then an acceptable `title` attribute, is returned
   stripped; otherwise the cleaned text if the validator accepts it, else
   `""`. Whatever is returned is empty or name-shaped.
   */
  function ExtractCleanAuthorName(e: Located): (r: string)
    requires e.node.Element?
    ensures r == [] || NameShaped(r)
    ensures GetText(e) == [] ==> r == []
    ensures (GetText(e) != [] && Attr(e.node, "data-author").Some?
             && IsReasonableAuthor(Attr(e.node, "data-author").value))
            ==> r == Strip(Attr(e.node, "data-author").value)
    ensures (GetText(e) != [] && !(Attr(e.node, "data-author").Some? && IsReasonableAuthor(Attr(e.node, "data-author").value))
             && Attr(e.node, "title").Some? && IsReasonableAuthor(Attr(e.node, "title").value))
            ==> r == Strip(Attr(e.node, "title").value)
    ensures GetText(e) != [] && !AttributeNames(e) ==>
      r == (if IsReasonableAuthor(CleanAuthorText(GetText(e))) then CleanAuthorText(GetText(e)) else [])
  {
    var text := GetText(e);
    if text == [] then []
    else
      var dataAuthor := Attr(e.node, "data-author");
      var titleAttr := Attr(e.node, "title");
      if dataAuthor.Some? && IsReasonableAuthor(dataAuthor.value) then
        AcceptedIsNameShaped(dataAuthor.value);
        Strip(dataAuthor.value)
      else if titleAttr.Some? && IsReasonableAuthor(titleAttr.value) then
        AcceptedIsNameShaped(titleAttr.value);
        Strip(titleAttr.value)
      else
        var cleaned := CleanAuthorText(text);
        if IsReasonableAuthor(cleaned) then
          AcceptedIsNameShaped(cleaned);
          StripStripped(cleaned);
          cleaned
        else []
  }

  /** One of the element's `data-author` or `title` attributes is an acceptable name. */
  predicate AttributeNames(e: Located)
    requires e.node.Element?
  {
    (Attr(e.node, "data-author").Some? && IsReasonableAuthor(Attr(e.node, "data-author").value))
    || (Attr(e.node, "title").Some? && IsReasonableAuthor(Attr(e.node, "title").value))
  }

  // ---------------------------------------------------------------------------
  // General lemmas about the tail patterns.

  /** A text without `|`, `-` or `–` has no separator tail to cut. */
  lemma {:induction false} NoSeparatorNoMatch(t: string, i: nat)
    requires i <= |t|
    requires forall k :: 0 <= k < |t| ==> !Title.IsSuffixSeparator(t[k])
    ensures FirstTailMatch(SeparatorTail, t, i).None?
    decreases |t| - i
  {
    if i < |t| {
      NoSeparatorNoMatch(t, i + 1);
    }
  }

  /**
   No separator tail starts at or before a non-space `e` when no separator
   occurs up to `e`.
   */
  lemma NoSeparatorTailBefore(t: string, e: nat)
    requires e < |t| && !IsSpace(t[e])
    requires forall j :: 0 <= j <= e ==> !Title.IsSuffixSeparator(t[j])
    ensures forall k :: 0 <= k <= e ==> NoMatchAt(SeparatorTail, t, k)
  {
    forall k | 0 <= k <= e
      ensures NoMatchAt(SeparatorTail, t, k)
    {
      NoSeparatorUpTo(t, k, e);
    }
  }

  /** No separator tail starts at `k` when no separator occurs from `k` up to a non-space at `e`. */
  lemma NoSeparatorUpTo(t: string, k: nat, e: nat)
    requires k <= e < |t| && !IsSpace(t[e])
    requires forall j :: k <= j <= e ==> !Title.IsSuffixSeparator(t[j])
    ensures NoMatchAt(SeparatorTail, t, k)
  {
    SkipSpaceStopsAt(t, k, e);
  }

  /** A text in which no `o` is followed by an `n`, in any case, never spells "on". */
  lemma NoOnPairNoOn(t: string)
    requires forall k :: 0 <= k < |t| - 1 ==> !(LowerChar(t[k]) == 'o' && LowerChar(t[k + 1]) == 'n')
    ensures forall k :: 0 <= k <= |t| ==> !SpellsOn(t, k)
  {
    forall k | 0 <= k <= |t| ensures !SpellsOn(t, k) {
      if k + 2 <= |t| {
        assert Lower(t[k..k + 2]) == [LowerChar(t[k]), LowerChar(t[k + 1])];
      }
    }
  }

  /** A text in which no two adjacent characters spell "on", in any case, has no date tail to cut. */
  lemma {:induction false} NoOnNoMatch(t: string, i: nat)
    requires i <= |t|
    requires forall k :: 0 <= k <= |t| ==> !SpellsOn(t, k)
    ensures FirstTailMatch(DateTail, t, i).None?
    decreases |t| - i
  {
    if i < |t| {
      NoOnNoMatch(t, i + 1);
    }
  }

  /** No date tail starts at a non-space `k` whose next character is no `n`. */
  lemma NoOnAt(t: string, k: nat)
    requires k + 1 < |t| && !IsSpace(t[k]) && LowerChar(t[k + 1]) != 'n'
    ensures NoMatchAt(DateTail, t, k)
  {
    assert SkipSpace(t, k) == k;
    assert Lower(t[k..k + 2])[1] == LowerChar(t[k + 1]);
  }

  /** Any text starting with "By" has the two-letter byline word. */
  lemma StartsWithBy(t: string)
    requires |t| >= 2 && t[0] == 'B' && t[1] == 'y'
    ensures BylineWordLength(t) == 2
  {
    assert Lower(t)[..2] == [LowerChar(t[0]), LowerChar(t[1])];
  }

  // ---------------------------------------------------------------------------
  // Worked examples: two concrete bylines, each cleaned step by step. The
  // single-literal lemmas below only discharge one step of one example.

  /** The byline word and the part after `|` both go. */
  lemma CleanBylineWithRole()
    ensures CleanAuthorText("By Jane Doe | Staff") == "Jane Doe"
  {
    BylineWordOfExample();
    SeparatorCutOfExample();
    var v := "Jane Doe";
    JaneDoeHasNoOn();
    NoOnNoMatch(v, 0);
    JaneDoeIsCollapsed();
    StripStripped(v);
  }

  lemma BylineWordOfExample()
    ensures StripBylineWord("By Jane Doe | Staff") == "Jane Doe | Staff"
  {
    var t := "By Jane Doe | Staff";
    ExampleStartsWithBy();
    ExampleSpaceRun();
    assert t[3..] == "Jane Doe | Staff";
  }

  lemma ExampleStartsWithBy()
    ensures BylineWordLength("By Jane Doe | Staff") == 2
  {
    StartsWithBy("By Jane Doe | Staff");
  }

  lemma ExampleSpaceRun()
    ensures SkipSpace("By Jane Doe | Staff", 2) == 3
  {
    var t := "By Jane Doe | Staff";
    assert IsSpace(t[2]) && !IsSpace(t[3]);
  }

  lemma SeparatorCutOfExample()
    ensures CutTail(SeparatorTail, "Jane Doe | Staff") == "Jane Doe"
  {
    var u := "Jane Doe | Staff";
    SeparatorBodyOfExample();
    assert forall j :: 0 <= j <= 7 ==> !Title.IsSuffixSeparator(u[j]);
    NoSeparatorTailBefore(u, 7);
    assert SkipSpace(u, 8) == 9 && |u| == 16 && u[..8] == "Jane Doe";
    LeftmostMatch(SeparatorTail, u, 8);
  }

  lemma SeparatorBodyOfExample()
    ensures BodyMatch(SeparatorTail, "Jane Doe | Staff", 9) == Some(16)
  {
    var u := "Jane Doe | Staff";
    assert SkipSpace(u, 10) == 11;
    assert LineEnd(u, 11) == 16;
  }

  lemma JaneDoeHasNoOn()
    ensures forall k :: 0 <= k <= |"Jane Doe"| ==> !SpellsOn("Jane Doe", k)
  {
    var v := "Jane Doe";
    assert forall k :: 0 <= k < |v| ==> LowerChar(v[k]) == "jane doe"[k];
    NoOnPairNoOn(v);
  }

  lemma JaneDoeIsCollapsed()
    ensures CollapseSpaces("Jane Doe") == "Jane Doe"
  {
    var v := "Jane Doe";
    assert forall i :: 0 <= i < |v| && IsSpace(v[i]) ==> i == 4;
    CollapseFixed(v);
  }

  /**
   The date pattern does not require `on` to be a word of its own, so a name
   ending in "on" followed by a date loses those two letters.
   */
  lemma CleanNameEndingInOn()
    ensures CleanAuthorText("Jason 12/3") == "Jas"
  {
    NoBylineWordInExample();
    NoSeparatorInExample();
    DateCutOfExample();
    JasIsCollapsed();
    StripStripped("Jas");
  }

  lemma NoBylineWordInExample()
    ensures BylineWordLength("Jason 12/3") == 0
  {
    assert Lower("Jason 12/3")[0] == 'j';
  }

  lemma NoSeparatorInExample()
    ensures CutTail(SeparatorTail, "Jason 12/3") == "Jason 12/3"
  {
    NoSeparatorNoMatch("Jason 12/3", 0);
  }

  lemma DateCutOfExample()
    ensures CutTail(DateTail, "Jason 12/3") == "Jas"
  {
    var t := "Jason 12/3";
    DateBodyOfExample();
    assert SkipSpace(t, 3) == 3 && |t| == 10 && t[..3] == "Jas";
    forall k | 0 <= k < 3
      ensures NoMatchAt(DateTail, t, k)
    {
      NoOnAt(t, k);
    }
    LeftmostMatch(DateTail, t, 3);
  }

  lemma DateBodyOfExample()
    ensures BodyMatch(DateTail, "Jason 12/3", 3) == Some(10)
  {
    var t := "Jason 12/3";
    assert Lower(t[3..5]) == "on";
    assert SkipSpace(t, 5) == 6;
    assert DateAt(t, 6) == Some(10);
  }

  lemma JasIsCollapsed()
    ensures CollapseSpaces("Jas") == "Jas"
  {
    CollapseFixed("Jas");
  }
}

=== FILE: author_name.dfy ===
/**
 The author-name validator of the heuristic scraper (`_is_reasonable_author`)
 and the cleaner that turns an element's text into a candidate name
 (`_extract_clean_author_name`).
 */
module AuthorName {
  import opened Text
  import opened Common
  import opened Dom

  /** Phrases whose presence, case-insensitively, disqualifies a name. */
  const ObviousNonNames: seq<string> := [
    "published", "updated", "posted", "edited", "created", "modified",
    "tags:", "category:", "share", "follow", "subscribe", "comments",
    "read more", "continue reading", "view all", "see more",
    "admin", "administrator", "editor", "moderator", "staff",
    "guest author", "guest writer", "contributing writer",
    "hash map", "array", "algorithm", "function", "method", "variable",
    "parameter", "return", "loop", "iteration", "binary search",
    "sliding window", "dynamic programming", "data structure",
    "complexity", "big o", "leetcode", "coding interview",
    "character", "string", "integer", "boolean", "given range",
    "occurrences", "intensity", "scanning", "counting"]

  /** Latin-1 Supplement and Latin Extended-A letters, U+00C0 to U+017F. */
  predicate IsAccented(c: char) { '\U{00C0}' <= c <= '\U{017F}' }

  /** `[A-Za-z\s\.\-\']`: the characters the punctuation test does not count. */
  predicate IsBasicNameChar(c: char) {
    IsLetter(c) || IsSpace(c) || c == '.' || c == '-' || c == '\''
  }

  /** `[A-Za-z\s\.\-\'À-ſ]`: the characters a name may consist of. */
  predicate IsNameChar(c: char) { IsBasicNameChar(c) || IsAccented(c) }

  // Scans in the order the source's regular expressions search.

  /** `re.search(r'[A-Za-z]', s)`. */
  predicate HasLetter(s: string) {
    if s == [] then false else IsLetter(s[0]) || HasLetter(s[1..])
  }

  /** `re.search(r'[A-Z]', s)`. */
  predicate HasUpper(s: string) {
    if s == [] then false else IsUpper(s[0]) || HasUpper(s[1..])
  }

  /** `re.match(r'^[...]+$', s)` for the name class, on a string with no trailing newline issue. */
  predicate AllNameChars(s: string) {
    if s == [] then true else IsNameChar(s[0]) && AllNameChars(s[1..])
  }

  /** `len(re.sub(r'[A-Za-z\s\.\-\']', '', s))`. */
  function CountNonBasic(s: string): (r: nat)
    ensures r <= |s|
  {
    if s == [] then 0 else (if IsBasicNameChar(s[0]) then 0 else 1) + CountNonBasic(s[1..])
  }

  function CountAccented(s: string): (r: nat)
    ensures r <= |s|
  {
    if s == [] then 0 else (if IsAccented(s[0]) then 1 else 0) + CountAccented(s[1..])
  }

  /**
   `_is_reasonable_author`, test by test in the source's order. The length
   bounds apply to the name before stripping; every other test to the stripped
   name. The punctuation test compares `len(...) > len(name) * 0.5` as
   `2 * count > len`.
   */
  predicate IsReasonableAuthor(a: string) {
    PassesNameRules(a, ObviousNonNames)
  }

  /** The tests of `_is_reasonable_author` against a given blocklist. */
  predicate PassesNameRules(a: string, blocklist: seq<string>) {
    if a == [] || |a| < 2 || |a| > 80 then false
    else PassesNameRulesOn(Strip(a), blocklist)
  }

  /** The tests after the length check, applied to an already-stripped name. */
  predicate PassesNameRulesOn(name: string, blocklist: seq<string>) {
    if MentionsAny(Lower(name), blocklist) then false
    else if !HasLetter(name) then false
    else if 2 * CountNonBasic(name) > |name| then false
    else if !(name != [] && AllNameChars(name)) then false
    else HasUpper(name)
  }
  /**
   The acceptance rule stated as one conjunction: length 2 to 80 before
   stripping, no blocklisted phrase, only name characters, an ASCII capital,
   and accented characters at most half of the stripped name.
   */
  predicate ReasonableAuthorSpec(a: string) {
    NameRuleSpec(a, ObviousNonNames)
  }

  predicate NameRuleSpec(a: string, blocklist: seq<string>) {
    var name := Strip(a);
    2 <= |a| <= 80
    && (forall k :: 0 <= k < |blocklist| ==> !Contains(Lower(name), blocklist[k]))
    && (forall i :: 0 <= i < |name| ==> IsNameChar(name[i]))
    && (exists i :: 0 <= i < |name| && IsUpper(name[i]))
    && 2 * CountAccented(name) <= |name|
  }
  lemma {:induction false} HasUpperIff(s: string)
    ensures HasUpper(s) <==> exists i :: 0 <= i < |s| && IsUpper(s[i])
  {
    if s != [] {
      HasUpperIff(s[1..]);
      if HasUpper(s[1..]) {
        var i :| 0 <= i < |s[1..]| && IsUpper(s[1..][i]);
        assert IsUpper(s[i + 1]);
      }
      if exists i :: 0 <= i < |s| && IsUpper(s[i]) {
        var i :| 0 <= i < |s| && IsUpper(s[i]);
        if i > 0 { assert s[1..][i - 1] == s[i]; }
      }
    }
  }

  /** An ASCII capital is a letter, so the letter test never rejects a name with a capital. */
  lemma {:induction false} UpperGivesLetter(s: string)
    requires HasUpper(s)
    ensures HasLetter(s)
  {
    if !IsUpper(s[0]) {
      UpperGivesLetter(s[1..]);
    }
  }

  lemma {:induction false} AllNameCharsIff(s: string)
    ensures AllNameChars(s) <==> forall i :: 0 <= i < |s| ==> IsNameChar(s[i])
  {
    if s != [] {
      AllNameCharsIff(s[1..]);
      assert forall i :: 1 <= i < |s| ==> s[i] == s[1..][i - 1];
    }
  }

  /** Among name characters, the ones the punctuation test counts are exactly the accented ones. */
  lemma {:induction false} NonBasicIsAccented(s: string)
    requires AllNameChars(s)
    ensures CountNonBasic(s) == CountAccented(s)
  {
    if s != [] {
      NonBasicIsAccented(s[1..]);
    }
  }

  /** The source's sequence of tests accepts exactly what the conjunction describes, for any blocklist. */
  lemma NameRulesIff(a: string, blocklist: seq<string>)
    ensures PassesNameRules(a, blocklist) <==> NameRuleSpec(a, blocklist)
  {
    var name := Strip(a);
    MentionsAnyIff(Lower(name), blocklist);
    HasUpperIff(name);
    AllNameCharsIff(name);
    if AllNameChars(name) {
      NonBasicIsAccented(name);
    }
    if HasUpper(name) {
      UpperGivesLetter(name);
    }
  }

  /** `_is_reasonable_author` accepts exactly the names the five-part rule describes. */
  lemma ReasonableAuthorIff(a: string)
    ensures IsReasonableAuthor(a) <==> ReasonableAuthorSpec(a)
  {
    NameRulesIff(a, ObviousNonNames);
  }

  /** A name whose stripped, lower-cased form holds a blocklisted phrase is rejected, whatever else it holds. */
  lemma BlocklistedPhraseRejects(a: string, k: nat)
    requires k < |ObviousNonNames|
    requires Contains(Lower(Strip(a)), ObviousNonNames[k])
    ensures !IsReasonableAuthor(a)
  {
    NameRulesIff(a, ObviousNonNames);
  }

  /**
   What every accepted name looks like once stripped: at most 80 characters,
   no surrounding whitespace, no blocklisted phrase, only name characters, an
   ASCII capital, and accented characters at most half of it.
   */
  predicate NameShaped(n: string) {
    1 <= |n| <= 80 && IsStripped(n)
    && (forall k :: 0 <= k < |ObviousNonNames| ==> !Contains(Lower(n), ObviousNonNames[k]))
    && (forall i :: 0 <= i < |n| ==> IsNameChar(n[i]))
    && (exists i :: 0 <= i < |n| && IsUpper(n[i]))
    && 2 * CountAccented(n) <= |n|
  }

  /** Stripping an accepted name gives a name-shaped string. */
  lemma AcceptedIsNameShaped(a: string)
    requires IsReasonableAuthor(a)
    ensures NameShaped(Strip(a))
  {
    NameRulesIff(a, ObviousNonNames);
  }
}

=== FILE: common.dfy ===
/** Types shared by the scrapers: an optional value and the output record. */
module Common {

  datatype Option<+T> = None | Some(value: T)

  /** A call that either returns a value or raises an exception nothing catches on the way. */
  datatype Outcome<+T> = Returned(value: T) | Raised

  /**
   One scraped record as it is handed to the JSON writer. Records built by the
   heuristic scraper carry no `content_type`; only ZenRows records carry
   `scraped_with`.
   */
  datatype Item = Item(
    title: string,
    content: string,
    contentType: Option<string>,
    sourceUrl: string,
    author: string,
    userId: string,
    scrapedWith: Option<string>)

  /**
   The index Python's `max(xs, key=...)` and a stable descending sort both pick:
   a maximal weight that no earlier position reaches.
   */
  function FirstMax(ws: seq<int>): (i: nat)
    requires ws != []
    ensures i < |ws|
    ensures forall j :: 0 <= j < |ws| ==> ws[j] <= ws[i]
    ensures forall j :: 0 <= j < i ==> ws[j] < ws[i]
  {
    if |ws| == 1 then 0
    else
      var k := FirstMax(ws[..|ws| - 1]);
      if ws[|ws| - 1] > ws[k] then |ws| - 1 else k
  }

  /** The position of the first element that satisfies `p`, if any. */
  function FirstWhere<T>(xs: seq<T>, p: T -> bool): (r: Option<nat>)
    ensures r.Some? ==> r.value < |xs| && p(xs[r.value]) && forall j :: 0 <= j < r.value ==> !p(xs[j])
    ensures r.None? <==> forall i :: 0 <= i < |xs| ==> !p(xs[i])
  {
    if xs == [] then None
    else if p(xs[0]) then Some(0)
    else
      var r := FirstWhere(xs[1..], p);
      assert forall i :: 1 <= i < |xs| ==> xs[1..][i - 1] == xs[i];
      if r.Some? then Some(r.value + 1) else None
  }

  predicate NoDuplicates<T(==)>(s: seq<T>) {
    forall i, j :: 0 <= i < j < |s| ==> s[i] != s[j]
  }

  /**
   `list(set(xs))` with the set's iteration order fixed to first occurrence:
   the same members, each once.
   */
  function Dedup<T(==,!new)>(xs: seq<T>): (r: seq<T>)
    ensures NoDuplicates(r)
    ensures forall x :: x in r <==> x in xs
    ensures |r| <= |xs|
  {
    if xs == [] then []
    else
      var rest := Dedup(xs[..|xs| - 1]);
      var last := xs[|xs| - 1];
      assert forall x :: x in xs <==> x in xs[..|xs| - 1] || x == last;
      if last in rest then rest else rest + [last]
  }

  lemma AppendAssociates<T>(a: seq<T>, b: seq<T>, c: seq<T>)
    ensures a + b + c == a + (b + c)
  {
  }

  /** A non-empty sequence is its head before its tail, also in front of `b`. */
  lemma ConsSplit<T>(a: seq<T>, b: seq<T>)
    requires a != []
    ensures a == [a[0]] + a[1..]
    ensures a + b == [a[0]] + (a[1..] + b)
  {
  }

  lemma ConsParts<T>(h: T, t: seq<T>)
    ensures ([h] + t)[0] == h && ([h] + t)[1..] == t
  {
  }
}

=== FILE: config.dfy ===
/**
 The configuration of the config-driven scrapers: the target and scraper
 records with their defaults, the parse from a loaded YAML document, target
 lookup and validation.
 */
module Config {
  import opened Text
  import opened Common

  /** A loaded YAML value. */
  datatype Value =
    | Null
    | Bool(b: bool)
    | Int(i: int)
    | Real(r: real)
    | Str(s: string)
    | List(items: seq<Value>)
    | Map(entries: map<string, Value>)

  /** One scraping target; `kind` is the source's `type` field. */
  datatype Target = Target(
    name: string,
    url: string,
    kind: string,
    enabled: bool,
    articleLinkSelector: string,
    articleLinkFilter: string,
    titleSelector: string,
    contentSelectors: seq<string>,
    authorSelector: string,
    authorExtraction: string,
    defaultAuthor: string,
    contentElements: seq<string>,
    contentMinLength: int,
    excludeContentPatterns: seq<string>,
    discoveryPages: seq<string>)

  datatype ScraperConfig = ScraperConfig(
    outputFile: string,
    teamId: string,
    pdfDirectory: string,
    maxWorkers: int,
    requestDelay: real,
    timeout: int,
    headers: map<string, Value>,
    targets: seq<Target>,
    siteConfigs: map<string, Value>,
    pdfProcessing: map<string, Value>,
    zenrowsConfig: map<string, Value>)

  const DefaultUserAgent: string :=
    "Mozilla/5.0 (Windows NT 10.0; Win64; x64) AppleWebKit/537.36 (KHTML, like Gecko) Chrome/91.0.4472.124 Safari/537.36"

  // ---------------------------------------------------------------------------
  // Well-typed documents: the field types the dataclasses declare.

  predicate IsStr(v: Value) { v.Str? }
  predicate IsStrList(v: Value) { v.Null? || (v.List? && forall i :: 0 <= i < |v.items| ==> v.items[i].Str?) }
  predicate IsDict(v: Value) { v.Null? || v.Map? }
  predicate IsNumber(v: Value) { v.Int? || v.Real? }
  predicate IsBool(v: Value) { v.Bool? }
  predicate IsInt(v: Value) { v.Int? }

  predicate HasType(m: map<string, Value>, key: string, ok: Value -> bool) {
    key in m ==> ok(m[key])
  }

  const TargetStrKeys: seq<string> := [
    "name", "url", "type", "article_link_selector", "article_link_filter", "title_selector",
    "author_selector", "author_extraction", "default_author"]
  const TargetListKeys: seq<string> := [
    "content_selectors", "content_elements", "exclude_content_patterns", "discovery_pages"]

  predicate WellTypedTarget(v: Value) {
    v.Map?
    && (forall k :: 0 <= k < |TargetStrKeys| ==> HasType(v.entries, TargetStrKeys[k], IsStr))
    && (forall k :: 0 <= k < |TargetListKeys| ==> HasType(v.entries, TargetListKeys[k], IsStrList))
    && HasType(v.entries, "enabled", IsBool)
    && HasType(v.entries, "content_min_length", IsInt)
  }

  predicate WellTypedSettings(m: map<string, Value>) {
    HasType(m, "output_file", IsStr) && HasType(m, "team_id", IsStr) && HasType(m, "pdf_directory", IsStr)
    && HasType(m, "max_workers", IsInt)
    && HasType(m, "request_delay", IsNumber)
    && HasType(m, "timeout", IsInt)
  }

  predicate IsSettings(v: Value) { v.Map? && WellTypedSettings(v.entries) }
  predicate IsTargetList(v: Value) { v.List? && forall i :: 0 <= i < |v.items| ==> v.items[i].Map? && WellTypedTarget(v.items[i]) }

  /**
   The document shapes `_parse_config` can read without raising: `settings` a
   mapping, `targets` a list of mappings, the dictionaries mappings or null,
   and every field of the type its dataclass declares.
   */
  predicate WellTypedDocument(doc: map<string, Value>) {
    HasType(doc, "settings", IsSettings)
    && HasType(doc, "targets", IsTargetList)
    && (forall k :: 0 <= k < |DictKeys| ==> HasType(doc, DictKeys[k], IsDict))
  }

  const DictKeys: seq<string> := ["headers", "site_configs", "pdf_processing", "zenrows"]

  // ---------------------------------------------------------------------------
  // Reading fields.

  /** `m.get(key, default)` for a string field. */
  function StrField(m: map<string, Value>, key: string, default: string): (r: string)
    ensures key !in m ==> r == default
    ensures key in m && m[key].Str? ==> r == m[key].s
  {
    if key in m && m[key].Str? then m[key].s else default
  }

  function Strings(vs: seq<Value>): (r: seq<string>)
    ensures |r| <= |vs|
    ensures (forall i :: 0 <= i < |vs| ==> vs[i].Str?) ==> |r| == |vs| && forall i :: 0 <= i < |vs| ==> r[i] == vs[i].s
  {
    if vs == [] then []
    else (if vs[0].Str? then [vs[0].s] else []) + Strings(vs[1..])
  }

  /** A list field after `__post_init__`: missing and null both become the empty list. */
  function StrListField(m: map<string, Value>, key: string): (r: seq<string>)
    ensures key !in m || m[key].Null? ==> r == []
    ensures key in m && m[key].List? && IsStrList(m[key]) ==>
      |r| == |m[key].items| && forall i :: 0 <= i < |r| ==> r[i] == m[key].items[i].s
  {
    if key in m && m[key].List? then Strings(m[key].items) else []
  }

  function BoolField(m: map<string, Value>, key: string, default: bool): (r: bool)
    ensures key !in m ==> r == default
    ensures key in m && m[key].Bool? ==> r == m[key].b
  {
    if key in m && m[key].Bool? then m[key].b else default
  }

  function IntField(m: map<string, Value>, key: string, default: int): (r: int)
    ensures key !in m ==> r == default
    ensures key in m && m[key].Int? ==> r == m[key].i
  {
    if key in m && m[key].Int? then m[key].i else default
  }

  function RealField(m: map<string, Value>, key: string, default: real): (r: real)
    ensures key !in m ==> r == default
    ensures key in m && m[key].Int? ==> r == m[key].i as real
    ensures key in m && m[key].Real? ==> r == m[key].r
  {
    if key in m && m[key].Int? then m[key].i as real
    else if key in m && m[key].Real? then m[key].r
    else default
  }

  /**
   A dictionary field: `get(key, {})` gives `{}` for a missing key, while an
   explicit null reaches `__post_init__` and is replaced by `onNull`.
   */
  function DictField(m: map<string, Value>, key: string, onNull: map<string, Value>): (r: map<string, Value>)
    ensures key !in m ==> r == map[]
    ensures key in m && m[key].Null? ==> r == onNull
    ensures key in m && m[key].Map? ==> r == m[key].entries
  {
    if key !in m then map[]
    else if m[key].Map? then m[key].entries
    else onNull
  }

  // ---------------------------------------------------------------------------
  // `_parse_config`.

  /** One `ScrapingTarget(...)` built from a target mapping, with the documented defaults. */
  function ParseTarget(m: map<string, Value>): (r: Target)
    ensures "type" !in m ==> r.kind == "blog"
    ensures "enabled" !in m ==> r.enabled
    ensures "title_selector" !in m ==> r.titleSelector == "h1"
    ensures "content_min_length" !in m ==> r.contentMinLength == 50
    ensures "name" !in m ==> r.name == ""
    ensures "url" !in m ==> r.url == ""
    ensures "name" in m && m["name"].Str? ==> r.name == m["name"].s
    ensures "type" in m && m["type"].Str? ==> r.kind == m["type"].s
    ensures "enabled" in m && m["enabled"].Bool? ==> r.enabled == m["enabled"].b
  {
    Target(
      StrField(m, "name", ""),
      StrField(m, "url", ""),
      StrField(m, "type", "blog"),
      BoolField(m, "enabled", true),
      StrField(m, "article_link_selector", ""),
      StrField(m, "article_link_filter", ""),
      StrField(m, "title_selector", "h1"),
      StrListField(m, "content_selectors"),
      StrField(m, "author_selector", ""),
      StrField(m, "author_extraction", ""),
      StrField(m, "default_author", ""),
      StrListField(m, "content_elements"),
      IntField(m, "content_min_length", 50),
      StrListField(m, "exclude_content_patterns"),
      StrListField(m, "discovery_pages"))
  }

  function ParseTargets(vs: seq<Value>): (r: seq<Target>)
    requires forall i :: 0 <= i < |vs| ==> vs[i].Map? && WellTypedTarget(vs[i])
    ensures |r| == |vs|
    ensures forall i :: 0 <= i < |vs| ==> r[i] == ParseTarget(vs[i].entries)
  {
    seq(|vs|, i requires 0 <= i < |vs| => ParseTarget(vs[i].entries))
  }

  const DefaultHeaders: map<string, Value> := map["User-Agent" := Str(DefaultUserAgent)]

  /**
   `_parse_config` followed by `__post_init__`: targets in document order, one
   per entry, and the documented defaults for missing settings.
   */
  function ParseConfig(doc: map<string, Value>): (r: ScraperConfig)
    requires WellTypedDocument(doc)
    ensures "targets" !in doc ==> r.targets == []
    ensures "targets" in doc ==>
      |r.targets| == |doc["targets"].items|
      && forall i :: 0 <= i < |r.targets| ==> r.targets[i] == ParseTarget(doc["targets"].items[i].entries)
    ensures "settings" !in doc ==>
      r.teamId == "aline123" && r.maxWorkers == 3 && r.outputFile == "output.json"
      && r.requestDelay == 0.2 && r.timeout == 15 && r.pdfDirectory == "Books_PDF"
    ensures "headers" !in doc ==> r.headers == map[]
    ensures "headers" in doc && doc["headers"].Null? ==> r.headers == DefaultHeaders
  {
    var settings := if "settings" in doc then doc["settings"].entries else map[];
    var targets := if "targets" in doc then ParseTargets(doc["targets"].items) else [];
    ScraperConfig(
      StrField(settings, "output_file", "output.json"),
      StrField(settings, "team_id", "aline123"),
      StrField(settings, "pdf_directory", "Books_PDF"),
      IntField(settings, "max_workers", 3),
      RealField(settings, "request_delay", 0.2),
      IntField(settings, "timeout", 15),
      DictField(doc, "headers", DefaultHeaders),
      targets,
      DictField(doc, "site_configs", map[]),
      DictField(doc, "pdf_processing", map["enabled" := Bool(true)]),
      DictField(doc, "zenrows", map["enabled" := Bool(false)]))
  }

  /**
   A `headers` key that is present but null gets the default User-Agent, while
   a missing `headers` key leaves the headers empty: the two are not the same.
   */
  lemma MissingAndNullHeadersDiffer(doc: map<string, Value>)
    requires WellTypedDocument(doc) && "headers" !in doc
    ensures ParseConfig(doc).headers != ParseConfig(doc["headers" := Null]).headers
  {
    var doc2 := doc["headers" := Null];
    assert forall k :: 0 <= k < |DictKeys| && DictKeys[k] != "headers" ==> HasType(doc2, DictKeys[k], IsDict);
    assert WellTypedDocument(doc2);
    assert "User-Agent" in ParseConfig(doc2).headers;
  }

  // ---------------------------------------------------------------------------
  // Lookup and validation.

  /** `get_enabled_targets`. */
  function EnabledTargets(ts: seq<Target>): (r: seq<Target>)
    ensures forall t :: t in r <==> t in ts && t.enabled
    ensures |r| <= |ts|
  {
    if ts == [] then []
    else (if ts[0].enabled then [ts[0]] else []) + EnabledTargets(ts[1..])
  }

  /** The enabled targets of a concatenation are those of each side, so the order is the configuration's. */
  lemma {:induction false} EnabledTargetsAppend(a: seq<Target>, b: seq<Target>)
    ensures EnabledTargets(a + b) == EnabledTargets(a) + EnabledTargets(b)
  {
    if a == [] {
      assert a + b == b;
    } else {
      assert (a + b)[1..] == a[1..] + b;
      EnabledTargetsAppend(a[1..], b);
    }
  }

  predicate NameMatches(t: Target, name: string) { Lower(t.name) == Lower(name) }

  /** `get_target_by_name`: the first target whose name matches ignoring case. */
  function TargetByName(ts: seq<Target>, name: string): (r: Option<Target>)
    ensures r.None? <==> forall i :: 0 <= i < |ts| ==> !NameMatches(ts[i], name)
    ensures r.Some? ==>
      exists i :: 0 <= i < |ts| && ts[i] == r.value && NameMatches(ts[i], name)
        && forall j :: 0 <= j < i ==> !NameMatches(ts[j], name)
  {
    if ts == [] then None
    else if NameMatches(ts[0], name) then Some(ts[0])
    else
      var r := TargetByName(ts[1..], name);
      assert forall i :: 1 <= i < |ts| ==> ts[i] == ts[1..][i - 1];
      if r.Some? then
        var i :| 0 <= i < |ts[1..]| && ts[1..][i] == r.value && NameMatches(ts[1..][i], name)
          && forall j :: 0 <= j < i ==> !NameMatches(ts[1..][j], name);
        assert ts[i + 1] == r.value;
        r
      else r
  }

  /** The global checks, in the source's order. */
  function GlobalErrors(c: ScraperConfig): (r: seq<string>)
    ensures r == [] <==> c.teamId != "" && c.outputFile != "" && c.maxWorkers >= 1 && c.requestDelay >= 0.0
    ensures |r| <= 4
  {
    (if c.teamId == "" then ["team_id is required in settings"] else [])
    + (if c.outputFile == "" then ["output_file is required in settings"] else [])
    + (if c.maxWorkers < 1 then ["max_workers must be at least 1"] else [])
    + (if c.requestDelay < 0.0 then ["request_delay must be non-negative"] else [])
  }

  /** The checks of one target, numbered `n` from 1. */
  function TargetErrorsOf(t: Target, n: nat): (r: seq<string>)
    ensures r == [] <==> t.name != "" && t.url != "" && t.kind != ""
    ensures |r| <= 3
  {
    (if t.name == "" then ["Target " + NatToString(n) + ": name is required"] else [])
    + (if t.url == "" then ["Target '" + t.name + "': url is required"] else [])
    + (if t.kind == "" then ["Target '" + t.name + "': type is required"] else [])
  }

  /** The per-target checks of `ts`, the first numbered `n`. */
  function TargetErrors(ts: seq<Target>, n: nat): (r: seq<string>)
    ensures |r| <= 3 * |ts|
  {
    if ts == [] then [] else TargetErrorsOf(ts[0], n) + TargetErrors(ts[1..], n + 1)
  }

  /** No per-target message exactly when every target names a name, a URL and a type. */
  lemma {:induction false} TargetErrorsEmptyIff(ts: seq<Target>, n: nat)
    ensures TargetErrors(ts, n) == [] <==> forall t :: t in ts ==> t.name != "" && t.url != "" && t.kind != ""
  {
    if ts != [] {
      TargetErrorsEmptyIff(ts[1..], n + 1);
      assert forall t :: t in ts <==> t == ts[0] || t in ts[1..];
    }
  }

  /** The per-target messages follow target order. */
  lemma {:induction false} TargetErrorsAppend(a: seq<Target>, b: seq<Target>, n: nat)
    ensures TargetErrors(a + b, n) == TargetErrors(a, n) + TargetErrors(b, n + |a|)
  {
    if a == [] {
      assert a + b == b;
    } else {
      var x, y, z := TargetErrorsOf(a[0], n), TargetErrors(a[1..], n + 1), TargetErrors(b, n + |a|);
      assert (a + b)[1..] == a[1..] + b;
      assert (a + b)[0] == a[0];
      TargetErrorsAppend(a[1..], b, n + 1);
      assert TargetErrors(a[1..] + b, n + 1) == y + z by {
        assert n + 1 + |a[1..]| == n + |a|;
      }
      assert TargetErrors(a + b, n) == x + TargetErrors(a[1..] + b, n + 1);
      AppendAssociates(x, y, z);
    }
  }

  /** Every required field present and every bound met. */
  predicate ConfigValid(c: ScraperConfig) {
    c.teamId != "" && c.outputFile != "" && c.maxWorkers >= 1 && c.requestDelay >= 0.0
    && forall t :: t in c.targets ==> t.name != "" && t.url != "" && t.kind != ""
  }

  /**
   `validate_config`: empty exactly when the configuration is valid; the global
   messages come first, then each target's, in target order.
   */
  function ValidateConfig(c: ScraperConfig): (r: seq<string>)
    ensures r == [] <==> ConfigValid(c)
    ensures |r| <= 4 + 3 * |c.targets|
    ensures |GlobalErrors(c)| <= |r| && r[..|GlobalErrors(c)|] == GlobalErrors(c)
  {
    TargetErrorsEmptyIff(c.targets, 1);
    GlobalErrors(c) + TargetErrors(c.targets, 1)
  }

  /** The defaults alone make a valid configuration whose targets all name a URL and a type. */
  lemma DefaultsAreValid(doc: map<string, Value>)
    requires WellTypedDocument(doc)
    requires "settings" !in doc
    requires "targets" in doc ==> forall i :: 0 <= i < |doc["targets"].items| ==>
      var t := ParseTarget(doc["targets"].items[i].entries); t.name != "" && t.url != "" && t.kind != ""
    ensures ValidateConfig(ParseConfig(doc)) == []
  {
    var c := ParseConfig(doc);
    forall t | t in c.targets
      ensures t.name != "" && t.url != "" && t.kind != ""
    {
      var i :| 0 <= i < |c.targets| && c.targets[i] == t;
    }
  }
}

=== FILE: content_detector.dfy ===
/**
 The content-area detector: scores candidate subtrees of a page by text
 density and structure, and selects the best-scoring one as the page's main
 content.

 Scores are kept as integers scaled by 100, so the source's
 `min(len / 100, 50)` becomes `min(len, 5000)` and its `1.5` per list becomes
 `150`.
 */
module ContentDetector {
  import opened Text
  import opened Common
  import opened Dom

  const ParagraphTags: set<string> := {"p"}
  const HeadingTags: set<string> := {"h1", "h2", "h3", "h4", "h5", "h6"}
  const ListTags: set<string> := {"ul", "ol"}
  const ContainerTags: set<string> := {"div", "section", "article"}
  const ExcludeTags: set<string> := {"nav", "footer", "header", "aside", "script", "style", "noscript"}
  const ExcludeClassWords: seq<string> := [
    "nav", "navigation", "menu", "sidebar", "footer", "header", "advertisement",
    "ads", "social", "share", "comment", "related", "recommended", "popup"]
  const NavIndicators: seq<string> := ["nav", "menu", "navigation", "sidebar", "breadcrumb"]
  const ContentClassWords: seq<string> := ["content", "post", "article", "blog", "entry"]

  /** Some class token, lower-cased, contains one of `words`. */
  predicate ClassMentions(classes: seq<string>, words: seq<string>) {
    exists i, k :: 0 <= i < |classes| && 0 <= k < |words| && Contains(Lower(classes[i]), words[k])
  }

  /**
   The navigation test: a navigation word in a class token or in the lower-cased
   id, or else more than 0.7 links per non-blank string (`10 * links > 7 * texts`).
   */
  predicate IsLikelyNavigation(l: Located)
    requires l.node.Element?
  {
    var e := l.node;
    if ClassMentions(e.classes, NavIndicators)
       || (exists k :: 0 <= k < |NavIndicators| && Contains(Lower(e.id), NavIndicators[k]))
    then true
    else
      var links := |FindAll(l, {"a"})|;
      var texts := NonEmptyTextCount(Descendants(l));
      links > 0 && texts > 0 && 10 * links > 7 * texts
  }

  /**
   The density-pass filter. It looks at the element's own tag and class tokens
   only (never at its ancestors), so for the `div`/`section`/`article`
   elements it is applied to, the tag test never rejects.
   */
  predicate IsLikelyContentContainer(l: Located)
    requires l.node.Element?
  {
    l.node.tag !in ExcludeTags
    && !ClassMentions(l.node.classes, ExcludeClassWords)
    && |GetText(l)| > 100
  }

  /** The measurements a score is computed from. */
  datatype Signals = Signals(
    textLength: nat,
    paragraphs: nat,
    headings: nat,
    lists: nat,
    links: nat,
    navigation: bool,
    semantic: bool,
    contentClass: bool)

  function SignalsOf(l: Located): Signals
    requires l.node.Element?
  {
    Signals(
      |GetText(l)|,
      |FindAll(l, ParagraphTags)|,
      |FindAll(l, HeadingTags)|,
      |FindAll(l, ListTags)|,
      |FindAll(l, {"a"})|,
      IsLikelyNavigation(l),
      l.node.tag in {"article", "main"},
      ClassMentions(l.node.classes, ContentClassWords))
  }

  function Min(a: int, b: int): int { if a <= b then a else b }

  /** The raw weighted sum, before the floor at 0. */
  function Weighted(g: Signals): int {
    Min(g.textLength, 5000)
    + 200 * g.paragraphs
    + 300 * g.headings
    + 150 * g.lists
    - (if g.navigation then 2000 else 0)
    - (if g.links > g.paragraphs && g.links > 5 then 1000 else 0)
    + (if g.semantic then 1000 else 0)
    + (if g.contentClass then 500 else 0)
  }

  /**
   `_score_content_area`: the weighted sum floored at 0. The bound is the
   largest value the positive terms allow: capped text, paragraphs, headings,
   lists and the two bonuses, each bonus counted at most once.
   */
  function Score(l: Located): (r: nat)
    requires l.node.Element?
    ensures r <= 5000 + 200 * SignalsOf(l).paragraphs + 300 * SignalsOf(l).headings
                 + 150 * SignalsOf(l).lists + 1500
    ensures r > 0 ==> r == Weighted(SignalsOf(l))
    ensures Weighted(SignalsOf(l)) > 0 ==> r == Weighted(SignalsOf(l))
    ensures Weighted(SignalsOf(l)) <= 0 ==> r == 0
  {
    var w := Weighted(SignalsOf(l));
    if w > 0 then w else 0
  }

  /**
   An element whose class names a navigation word loses 2000 (20 points)
   against the same measurements without the navigation verdict, unless the
   floor at 0 absorbs the penalty.
   */
  lemma NavigationClassPenalty(l: Located, i: nat, k: nat)
    requires l.node.Element?
    requires i < |l.node.classes| && k < |NavIndicators|
    requires Contains(Lower(l.node.classes[i]), NavIndicators[k])
    ensures IsLikelyNavigation(l)
    ensures Score(l) == 0 || Score(l) == Weighted(SignalsOf(l).(navigation := false)) - 2000
  {
    assert ClassMentions(l.node.classes, NavIndicators);
  }

  /** The selectors of the semantic pass; each is a tag, one class, or `role="main"`. */
  datatype Selector = TagSel(tag: string) | ClassSel(cls: string) | RoleMain

  const ContentIndicators: seq<Selector> := [
    TagSel("article"), TagSel("main"), RoleMain, ClassSel("content"), ClassSel("post-content"),
    ClassSel("article-content"), ClassSel("blog-content"), ClassSel("entry-content"), ClassSel("post-body")]

  predicate Matches(s: Selector, n: Node) {
    n.Element? &&
    match s
    case TagSel(t) => n.tag == t
    case ClassSel(c) => c in n.classes
    case RoleMain => "role" in n.attrs && n.attrs["role"] == "main"
  }

  datatype Provenance = Semantic | Density | Paragraphs

  /** A subtree the passes propose, with its score and the pass that found it. */
  datatype Candidate = Candidate(loc: Located, score: nat, via: Provenance)

  /** The elements of `ls` matching `s`, scored, in document order. */
  function SelectorProposals(ls: seq<Located>, s: Selector): (r: seq<Candidate>)
    ensures forall c :: c in r ==> c.loc.node.Element? && c.loc in ls && Matches(s, c.loc.node) && c.score == Score(c.loc)
                                   && c.via == Semantic
    ensures forall l :: l in ls && Matches(s, l.node) ==> Candidate(l, Score(l), Semantic) in r
  {
    if ls == [] then []
    else
      (if Matches(s, ls[0].node) then [Candidate(ls[0], Score(ls[0]), Semantic)] else [])
      + SelectorProposals(ls[1..], s)
  }

  /** Some selector of `sels` matches `n`. */
  predicate MatchesSome(sels: seq<Selector>, n: Node) {
    exists k :: 0 <= k < |sels| && Matches(sels[k], n)
  }

  /** Pass 1: every match of every semantic selector, selector by selector. */
  function SemanticProposals(ls: seq<Located>, sels: seq<Selector>): (r: seq<Candidate>)
    ensures forall c :: c in r ==> c.loc.node.Element? && c.loc in ls && c.score == Score(c.loc)
                                   && c.via == Semantic && MatchesSome(sels, c.loc.node)
    ensures forall l, k :: l in ls && 0 <= k < |sels| && Matches(sels[k], l.node) ==> Candidate(l, Score(l), Semantic) in r
  {
    if sels == [] then [] else SelectorProposals(ls, sels[0]) + SemanticProposals(ls, sels[1..])
  }

  /** Pass 2: `div`/`section`/`article` elements that look like content containers. */
  function DensityProposals(cs: seq<Located>): (r: seq<Candidate>)
    requires forall x :: x in cs ==> x.node.Element?
    ensures forall c :: c in r ==> c.loc.node.Element? && c.loc in cs && IsLikelyContentContainer(c.loc) && c.score == Score(c.loc)
                                   && c.via == Density
    ensures forall l :: l in cs && IsLikelyContentContainer(l) ==> Candidate(l, Score(l), Density) in r
  {
    if cs == [] then []
    else
      (if IsLikelyContentContainer(cs[0]) then [Candidate(cs[0], Score(cs[0]), Density)] else [])
      + DensityProposals(cs[1..])
  }

  /** The element holds at least three `p` descendants. */
  predicate HasParagraphs(l: Located) {
    |FindAll(l, ParagraphTags)| >= 3
  }

  /** Pass 3: `div`/`section`/`article` elements holding at least three `p` descendants. */
  function ParagraphProposals(cs: seq<Located>): (r: seq<Candidate>)
    requires forall x :: x in cs ==> x.node.Element?
    ensures forall c :: c in r ==> c.loc.node.Element? && c.loc in cs && HasParagraphs(c.loc) && c.score == Score(c.loc)
                                   && c.via == Paragraphs
    ensures forall l :: l in cs && HasParagraphs(l) ==> Candidate(l, Score(l), Paragraphs) in r
  {
    if cs == [] then []
    else
      (if HasParagraphs(cs[0]) then [Candidate(cs[0], Score(cs[0]), Paragraphs)] else [])
      + ParagraphProposals(cs[1..])
  }

  /** Everything the three passes consider, in discovery order, before the `score > 0` test. */
  function Proposals(doc: Node): (r: seq<Candidate>)
    ensures forall c :: c in r ==> c.loc.node.Element? && c.score == Score(c.loc)
    ensures forall l, k :: l in Elements(doc) && 0 <= k < |ContentIndicators| && Matches(ContentIndicators[k], l.node)
                           ==> Candidate(l, Score(l), Semantic) in r
    ensures forall l :: l in FindAll(Root(doc), ContainerTags) && IsLikelyContentContainer(l)
                        ==> Candidate(l, Score(l), Density) in r
    ensures forall l :: l in FindAll(Root(doc), ContainerTags) && HasParagraphs(l)
                        ==> Candidate(l, Score(l), Paragraphs) in r
  {
    var containers := FindAll(Root(doc), ContainerTags);
    SemanticProposals(Elements(doc), ContentIndicators)
    + DensityProposals(containers)
    + ParagraphProposals(containers)
  }

  /** `c` is a proposal one of the three passes can make on `doc`. */
  predicate ProposedBy(doc: Node, c: Candidate) {
    match c.via
    case Semantic => c.loc in Elements(doc) && MatchesSome(ContentIndicators, c.loc.node)
    case Density => c.loc in FindAll(Root(doc), ContainerTags) && IsLikelyContentContainer(c.loc)
    case Paragraphs => c.loc in FindAll(Root(doc), ContainerTags) && HasParagraphs(c.loc)
  }

  /** The position of a pass in the discovery order. */
  function PassRank(v: Provenance): nat {
    match v
    case Semantic => 0
    case Density => 1
    case Paragraphs => 2
  }

  /** Nothing but what one of the three passes can propose is proposed. */
  lemma ProposalsSound(doc: Node)
    ensures forall c :: c in Proposals(doc) ==> ProposedBy(doc, c)
  {
    var containers := FindAll(Root(doc), ContainerTags);
    var a := SemanticProposals(Elements(doc), ContentIndicators);
    var b := DensityProposals(containers);
    var c := ParagraphProposals(containers);
    assert Proposals(doc) == a + b + c;
    forall x | x in a + b + c
      ensures ProposedBy(doc, x)
    {
      if x in a {
      } else if x in b {
      } else {
        assert x in c;
      }
    }
  }

  /** The passes' ranks never decrease along `r`. */
  predicate InPassOrder(r: seq<Candidate>) {
    forall i, j :: 0 <= i < j < |r| ==> PassRank(r[i].via) <= PassRank(r[j].via)
  }

  /** Three blocks, each from one pass, concatenated in pass order, are in pass order. */
  lemma BlocksInPassOrder(a: seq<Candidate>, b: seq<Candidate>, c: seq<Candidate>)
    requires forall x :: x in a ==> x.via == Semantic
    requires forall x :: x in b ==> x.via == Density
    requires forall x :: x in c ==> x.via == Paragraphs
    ensures InPassOrder(a + b + c)
  {
    var r := a + b + c;
    forall i | 0 <= i < |r|
      ensures PassRank(r[i].via) == (if i < |a| then 0 else if i < |a| + |b| then 1 else 2)
    {
      if i < |a| {
        assert r[i] == a[i];
      } else if i < |a| + |b| {
        assert r[i] == b[i - |a|];
      } else {
        assert r[i] == c[i - |a| - |b|];
      }
    }
  }

  /**
   Discovery order across passes: every semantic proposal comes before every
   density proposal, which comes before every paragraph proposal.
   */
  lemma ProposalsInPassOrder(doc: Node)
    ensures InPassOrder(Proposals(doc))
  {
    var containers := FindAll(Root(doc), ContainerTags);
    BlocksInPassOrder(SemanticProposals(Elements(doc), ContentIndicators),
                      DensityProposals(containers), ParagraphProposals(containers));
  }

  /** The semantic pass over a split element list is the pass over each part, in order. */
  lemma {:induction false} SelectorProposalsAppend(a: seq<Located>, b: seq<Located>, s: Selector)
    ensures SelectorProposals(a + b, s) == SelectorProposals(a, s) + SelectorProposals(b, s)
  {
    if a == [] {
      assert a + b == b;
    } else {
      assert (a + b)[0] == a[0];
      assert (a + b)[1..] == a[1..] + b;
      SelectorProposalsAppend(a[1..], b, s);
    }
  }

  /** Pass 1 takes the selectors in order: a split selector list gives the two passes in sequence. */
  lemma {:induction false} SemanticProposalsAppend(ls: seq<Located>, a: seq<Selector>, b: seq<Selector>)
    ensures SemanticProposals(ls, a + b) == SemanticProposals(ls, a) + SemanticProposals(ls, b)
  {
    if a == [] {
      assert a + b == b;
    } else {
      assert (a + b)[0] == a[0];
      assert (a + b)[1..] == a[1..] + b;
      SemanticProposalsAppend(ls, a[1..], b);
    }
  }

  /** The density pass keeps document order. */
  lemma {:induction false} DensityProposalsAppend(a: seq<Located>, b: seq<Located>)
    requires forall x :: x in a ==> x.node.Element?
    requires forall x :: x in b ==> x.node.Element?
    ensures DensityProposals(a + b) == DensityProposals(a) + DensityProposals(b)
  {
    if a == [] {
      assert a + b == b;
    } else {
      var h, t := a[0], a[1..];
      ConsSplit(a, b);
      calc {
        DensityProposals(a + b);
      == { DensityCons(h, t + b); }
        DensityHead(h) + DensityProposals(t + b);
      == { DensityProposalsAppend(t, b); }
        DensityHead(h) + (DensityProposals(t) + DensityProposals(b));
      == { AppendAssociates(DensityHead(h), DensityProposals(t), DensityProposals(b)); }
        (DensityHead(h) + DensityProposals(t)) + DensityProposals(b);
      == { DensityCons(h, t); }
        DensityProposals(a) + DensityProposals(b);
      }
    }
  }

  /** What the density pass proposes for one element. */
  function DensityHead(h: Located): seq<Candidate>
    requires h.node.Element?
  {
    if IsLikelyContentContainer(h) then [Candidate(h, Score(h), Density)] else []
  }

  lemma DensityCons(h: Located, t: seq<Located>)
    requires h.node.Element? && forall x :: x in t ==> x.node.Element?
    ensures DensityProposals([h] + t) == DensityHead(h) + DensityProposals(t)
  {
    ConsParts(h, t);
  }

  /** The paragraph pass keeps document order. */
  lemma {:induction false} ParagraphProposalsAppend(a: seq<Located>, b: seq<Located>)
    requires forall x :: x in a ==> x.node.Element?
    requires forall x :: x in b ==> x.node.Element?
    ensures ParagraphProposals(a + b) == ParagraphProposals(a) + ParagraphProposals(b)
  {
    if a == [] {
      assert a + b == b;
    } else {
      var h, t := a[0], a[1..];
      ConsSplit(a, b);
      calc {
        ParagraphProposals(a + b);
      == { ParagraphCons(h, t + b); }
        ParagraphHead(h) + ParagraphProposals(t + b);
      == { ParagraphProposalsAppend(t, b); }
        ParagraphHead(h) + (ParagraphProposals(t) + ParagraphProposals(b));
      == { AppendAssociates(ParagraphHead(h), ParagraphProposals(t), ParagraphProposals(b)); }
        (ParagraphHead(h) + ParagraphProposals(t)) + ParagraphProposals(b);
      == { ParagraphCons(h, t); }
        ParagraphProposals(a) + ParagraphProposals(b);
      }
    }
  }

  /** What the paragraph pass proposes for one element. */
  function ParagraphHead(h: Located): seq<Candidate>
    requires h.node.Element?
  {
    if HasParagraphs(h) then [Candidate(h, Score(h), Paragraphs)] else []
  }

  lemma ParagraphCons(h: Located, t: seq<Located>)
    requires h.node.Element? && forall x :: x in t ==> x.node.Element?
    ensures ParagraphProposals([h] + t) == ParagraphHead(h) + ParagraphProposals(t)
  {
    ConsParts(h, t);
  }

  /** The candidate list: the proposals that score above 0, in discovery order. */
  function Positive(ps: seq<Candidate>): (r: seq<Candidate>)
    ensures forall c :: c in r <==> c in ps && c.score > 0
    ensures |r| <= |ps|
  {
    if ps == [] then []
    else (if ps[0].score > 0 then [ps[0]] else []) + Positive(ps[1..])
  }

  function Scores(cs: seq<Candidate>): (r: seq<int>)
    ensures |r| == |cs| && forall j :: 0 <= j < |cs| ==> r[j] == cs[j].score
  {
    if cs == [] then [] else [cs[0].score] + Scores(cs[1..])
  }

  lemma PositiveEmptyIff(ps: seq<Candidate>)
    ensures Positive(ps) == [] <==> forall c :: c in ps ==> c.score == 0
  {
    if Positive(ps) != [] { assert Positive(ps)[0] in Positive(ps); }
  }

  /** The sort-and-take-first step: the earliest candidate of maximal score. */
  function SelectBest(cs: seq<Candidate>): (r: Option<Located>)
    ensures r.None? <==> cs == []
    ensures r.Some? ==>
      exists i :: 0 <= i < |cs| && cs[i].loc == r.value
        && (forall j :: 0 <= j < |cs| ==> cs[j].score <= cs[i].score)
        && (forall j :: 0 <= j < i ==> cs[j].score < cs[i].score)
  {
    if cs == [] then None else Some(cs[FirstMax(Scores(cs))].loc)
  }

  /**
   `find_main_content_area`: None exactly when no proposal scores above 0;
   otherwise a candidate of maximal score, the earliest-discovered one on a tie.
   */
  function FindMainContentArea(doc: Node): (r: Option<Located>)
    ensures r.None? <==> forall c :: c in Proposals(doc) ==> c.score == 0
    ensures r.Some? ==>
      var cs := Positive(Proposals(doc));
      exists i :: 0 <= i < |cs| && cs[i].loc == r.value
        && (forall j :: 0 <= j < |cs| ==> cs[j].score <= cs[i].score)
        && (forall j :: 0 <= j < i ==> cs[j].score < cs[i].score)
  {
    var ps := Proposals(doc);
    PositiveEmptyIff(ps);
    SelectBest(Positive(ps))
  }
}

=== FILE: content_format.dfy ===
/**
 The body formatter of the heuristic scraper (`_extract_content_from_area`):
 walks the chosen content area in document order, drops short and
 metadata-looking texts, and renders each kept element as a Markdown-flavoured
 paragraph; the paragraphs are joined with blank lines.
 */
module ContentFormat {
  import opened Text
  import opened Common
  import opened Dom

  const HeadingTags: set<string> := {"h1", "h2", "h3", "h4", "h5", "h6"}
  const ListTags: set<string> := {"ul", "ol"}
  /** The tags the formatter asks `find_all` for. */
  const FormattedTags: set<string> := {"p", "h1", "h2", "h3", "h4", "h5", "h6", "ul", "ol", "li", "blockquote"}
  const MinPartLength := 10
  const PartSeparator: string := "\n\n"

  // ---------------------------------------------------------------------------
  // `_is_likely_metadata`: six anchored patterns tried on the lower-cased text.

  predicate AllDigits(s: string) {
    forall i :: 0 <= i < |s| ==> IsDigit(s[i])
  }

  /** The date shape with `a` digits of month and `b` digits of day. */
  predicate DateShape(t: string, a: nat, b: nat) {
    a + b + 6 <= |t|
    && AllDigits(t[..a]) && t[a] == '/'
    && AllDigits(t[a + 1..a + 1 + b]) && t[a + 1 + b] == '/'
    && AllDigits(t[a + b + 2..a + b + 6])
  }

  /** `^\d{1,2}/\d{1,2}/\d{4}`. */
  predicate StartsWithDate(t: string) {
    exists a: nat, b: nat :: 1 <= a <= 2 && 1 <= b <= 2 && DateShape(t, a, b)
  }

  /**
   `^(published|updated|posted|by):?\s*`. The optional colon and the spaces may
   match nothing, so the pattern holds exactly when one of the words is a prefix.
   */
  const MetadataLabels: seq<string> := ["published", "updated", "posted", "by"]

  /** `^(tags?|categories?|filed under):?\s*`, reduced the same way: "category" does not qualify. */
  const ClassificationLabels: seq<string> := ["tag", "categorie", "filed under"]

  /** `^(read more|continue reading)`. */
  const ReadOnLabels: seq<string> := ["read more", "continue reading"]

  /** `^share\s*(this|on)`. */
  predicate ShareLead(t: string) {
    StartsWith(t, "share")
    && var j := SkipSpace(t, 5);
       StartsWith(t[j..], "this") || StartsWith(t[j..], "on")
  }

  /** `^\d+\s*(comments?|replies?)`: digits, spaces, then "comment" or "replie". */
  predicate CountLead(t: string) {
    var k := DigitRun(t, 0);
    k > 0
    && var j := SkipSpace(t, k);
       StartsWith(t[j..], "comment") || StartsWith(t[j..], "replie")
  }

  predicate IsLikelyMetadata(text: string) {
    var t := Lower(text);
    StartsWithDate(t)
    || StartsWithAny(t, MetadataLabels)
    || StartsWithAny(t, ClassificationLabels)
    || ShareLead(t)
    || StartsWithAny(t, ReadOnLabels)
    || CountLead(t)
  }

  // ---------------------------------------------------------------------------
  // Examples: families of texts the metadata test does and does not drop,
  // with the helper lemmas their proofs need.

  /**
   Any text whose first two letters are "by", in any case, is taken for a byline
   and never reaches the body: "Bypassing the cache" is dropped too.
   */
  lemma ByLeadIsMetadata(text: string)
    requires StartsWith(Lower(text), "by")
    ensures IsLikelyMetadata(text)
  {
    assert StartsWith(Lower(text), MetadataLabels[3]);
  }

  /** The singular "category:" label is not recognised, whatever follows it. */
  lemma CategoryLabelIsNotMetadata(rest: string)
    ensures !IsLikelyMetadata("category:" + rest)
  {
    var text := "category:" + rest;
    var t := Lower(text);
    assert text[0] == 'c' && text[1] == 'a' && text[8] == ':';
    assert t[0] == 'c' && t[1] == 'a' && t[8] == ':';
    forall k | 0 <= k < |MetadataLabels| ensures !StartsWith(t, MetadataLabels[k]) {
      DiffersAt(t, MetadataLabels[k], 0);
    }
    DiffersAt(t, "tag", 0);
    DiffersAt(t, "categorie", 8);
    DiffersAt(t, "filed under", 0);
    DiffersAt(t, "read more", 0);
    DiffersAt(t, "continue reading", 1);
    DiffersAt(t, "share", 0);
    assert DigitRun(t, 0) == 0;
  }

  /** The singular "reply" is not recognised after a count, whatever follows it. */
  lemma SingleReplyIsNotMetadata(rest: string)
    ensures !IsLikelyMetadata("1 reply" + rest)
  {
    var t := Lower("1 reply" + rest);
    assert t[..7] == "1 reply";
    assert DigitRun(t, 1) == 1;
    assert SkipSpace(t, 2) == 2;
    assert t[2] == 'r' && t[6] == 'y';
    assert !StartsWith(t[2..], "replie") && !StartsWith(t[2..], "comment");
    assert forall a: nat, b: nat :: 1 <= a <= 2 && 1 <= b <= 2 ==> !DateShape(t, a, b);
  }

  /** A count followed by " comments" is metadata, for every count. */
  lemma CommentCountIsMetadata(n: nat, rest: string)
    ensures IsLikelyMetadata(NatToString(n) + " comments" + rest)
  {
    var d := NatToString(n);
    var text := d + " comments" + rest;
    var t := Lower(text);
    forall i | 0 <= i < |d|
      ensures IsDigit(t[i])
    {
      assert text[i] == d[i];
    }
    assert text[|d|] == ' ';
    assert text[|d| + 1..|d| + 8] == "comment";
    assert t[|d| + 1..|d| + 8] == Lower("comment");
    CountLeadShape(t, |d|);
  }

  /** Digits, one space and "comment" make a count lead. */
  lemma CountLeadShape(t: string, k: nat)
    requires 0 < k && k + 8 <= |t|
    requires forall j :: 0 <= j < k ==> IsDigit(t[j])
    requires t[k] == ' ' && t[k + 1..k + 8] == "comment"
    ensures CountLead(t)
  {
    DigitRunFrom(t, 0, k);
    assert DigitRun(t, k) == k;
    assert t[k + 1] == 'c';
    assert SkipSpace(t, k + 1) == k + 1;
    assert t[k + 1..][..7] == "comment";
  }

  /** A run of digits reaching `k` lets the digit run from `i` end where the one from `k` ends. */
  lemma {:induction false} DigitRunFrom(t: string, i: nat, k: nat)
    requires i <= k <= |t|
    requires forall j :: i <= j < k ==> IsDigit(t[j])
    ensures DigitRun(t, i) == DigitRun(t, k)
    decreases k - i
  {
    if i < k {
      DigitRunFrom(t, i + 1, k);
    }
  }

  // ---------------------------------------------------------------------------
  // Rendering.

  /** The heading level of `h1`..`h6`, 0 for any other tag. */
  function HeadingLevel(tag: string): (n: nat)
    ensures n <= 6
    ensures n > 0 <==> tag in HeadingTags
  {
    if tag == "h1" then 1 else if tag == "h2" then 2 else if tag == "h3" then 3
    else if tag == "h4" then 4 else if tag == "h5" then 5 else if tag == "h6" then 6
    else 0
  }

  /** The prefix put before an element's text: `#`s for a heading, a bullet for a list item, `>` for a quote. */
  function Marker(tag: string): string {
    if tag in HeadingTags then Repeat('#', HeadingLevel(tag)) + " "
    else if tag == "li" then "• "
    else if tag == "blockquote" then "> "
    else ""
  }

  /** Whether an element of this kind and position ever yields a part: lists never, list items only under a list. */
  predicate KindEmits(l: Located)
    requires l.node.Element?
  {
    l.node.tag !in ListTags && (l.node.tag == "li" ==> ParentTag(l) in ListTags)
  }

  /**
   One element of the loop: skipped when its text is shorter than 10 or looks
   like metadata, then formatted by tag in the source's branch order.
   */
  function Render(l: Located): (r: Option<string>)
    requires l.node.Element?
    ensures r.Some? <==> |GetText(l)| >= MinPartLength && !IsLikelyMetadata(GetText(l)) && KindEmits(l)
    ensures r.Some? ==> r.value == Marker(l.node.tag) + GetText(l)
    ensures r.Some? ==> |r.value| >= MinPartLength
  {
    var text := GetText(l);
    var tag := l.node.tag;
    if text == [] || |text| < MinPartLength then None
    else if IsLikelyMetadata(text) then None
    else if tag in HeadingTags then
      assert Marker(tag) == Repeat('#', HeadingLevel(tag)) + " ";
      Some(Repeat('#', HeadingLevel(tag)) + " " + text)
    else if tag == "li" then
      assert Marker(tag) == "• ";
      (if ParentTag(l) in ListTags then Some("• " + text) else None)
    else if tag in ListTags then None
    else if tag == "blockquote" then
      assert Marker(tag) == "> ";
      Some("> " + text)
    else
      assert Marker(tag) == [];
      Some(text)
  }

  /** A heading of level `n` renders as `n` hashes, a space and its text. */
  lemma HeadingRendering(l: Located)
    requires l.node.Element? && l.node.tag in HeadingTags
    requires Render(l).Some?
    ensures Render(l).value[..HeadingLevel(l.node.tag)] == Repeat('#', HeadingLevel(l.node.tag))
    ensures Render(l).value[HeadingLevel(l.node.tag)] == ' '
    ensures Render(l).value[HeadingLevel(l.node.tag) + 1..] == GetText(l)
  {
  }

  /** The rendered parts of `els`, in order. */
  function Parts(els: seq<Located>): (r: seq<string>)
    requires forall e :: e in els ==> e.node.Element?
    ensures |r| <= |els|
    ensures forall i :: 0 <= i < |r| ==> |r[i]| >= MinPartLength
  {
    if els == [] then []
    else
      var rest := Parts(els[1..]);
      match Render(els[0])
      case Some(p) => [p] + rest
      case None => rest
  }

  /** `p` is what some element of `els` renders to. */
  predicate RenderedFrom(els: seq<Located>, p: string) {
    exists e :: e in els && e.node.Element? && Render(e) == Some(p)
  }

  /** The parts are exactly the renderings of the elements that yield one. */
  lemma PartsExactly(els: seq<Located>)
    requires forall e :: e in els ==> e.node.Element?
    ensures forall i :: 0 <= i < |Parts(els)| ==> RenderedFrom(els, Parts(els)[i])
    ensures forall e :: e in els && Render(e).Some? ==> Render(e).value in Parts(els)
  {
    PartsSound(els);
    PartsComplete(els);
  }

  /** Every part is the rendering of an element. */
  lemma {:induction false} PartsSound(els: seq<Located>)
    requires forall e :: e in els ==> e.node.Element?
    ensures forall i :: 0 <= i < |Parts(els)| ==> RenderedFrom(els, Parts(els)[i])
  {
    if els != [] {
      assert forall e :: e in els[1..] ==> e in els;
      PartsSound(els[1..]);
      RenderedFromTail(els, Parts(els[1..]));
      if Render(els[0]).Some? {
        assert RenderedFrom(els, Render(els[0]).value) by { assert els[0] in els; }
      }
    }
  }

  /** Every element that yields a rendering contributes it. */
  lemma {:induction false} PartsComplete(els: seq<Located>)
    requires forall e :: e in els ==> e.node.Element?
    ensures forall e :: e in els && Render(e).Some? ==> Render(e).value in Parts(els)
  {
    if els != [] {
      assert forall e :: e in els[1..] ==> e in els;
      PartsComplete(els[1..]);
      assert forall e :: e in els && e != els[0] ==> e in els[1..];
    }
  }

  lemma RenderedFromTail(els: seq<Located>, ps: seq<string>)
    requires els != []
    requires forall i :: 0 <= i < |ps| ==> RenderedFrom(els[1..], ps[i])
    ensures forall i :: 0 <= i < |ps| ==> RenderedFrom(els, ps[i])
  {
    forall i | 0 <= i < |ps| ensures RenderedFrom(els, ps[i]) {
      var e :| e in els[1..] && e.node.Element? && Render(e) == Some(ps[i]);
      assert e in els;
    }
  }

  /** The parts of a concatenation are the parts of each side, in order. */
  lemma {:induction false} PartsAppend(a: seq<Located>, b: seq<Located>)
    requires forall e :: e in a ==> e.node.Element?
    requires forall e :: e in b ==> e.node.Element?
    ensures Parts(a + b) == Parts(a) + Parts(b)
  {
    if a != [] {
      assert (a + b)[1..] == a[1..] + b;
      PartsAppend(a[1..], b);
    } else {
      assert a + b == b;
    }
  }

  /** Every part occurs in the joined text. */
  lemma JoinedHoldsParts(els: seq<Located>)
    requires forall e :: e in els ==> e.node.Element?
    ensures forall e :: e in els && Render(e).Some? ==> Contains(Join(Parts(els), PartSeparator), Render(e).value)
  {
    var parts := Parts(els);
    PartsExactly(els);
    forall e | e in els && Render(e).Some?
      ensures Contains(Join(parts, PartSeparator), Render(e).value)
    {
      var i :| 0 <= i < |parts| && parts[i] == Render(e).value;
      JoinContainsPart(parts, PartSeparator, i);
    }
  }

  /**
   `_extract_content_from_area`: the parts of the area's formatted elements,
   in document order, joined by a blank line. Empty exactly when no element
   of the area yields a part; otherwise every part occurs in the result.
   */
  function ExtractContentFromArea(area: Located): (r: string)
    ensures r == Join(Parts(FindAll(area, FormattedTags)), PartSeparator)
    ensures r == [] <==> forall e :: e in FindAll(area, FormattedTags) ==> Render(e).None?
    ensures forall e :: e in FindAll(area, FormattedTags) && Render(e).Some? ==> Contains(r, Render(e).value)
  {
    var els := FindAll(area, FormattedTags);
    var parts := Parts(els);
    PartsExactly(els);
    JoinEmptyIff(parts, PartSeparator);
    JoinedHoldsParts(els);
    Join(parts, PartSeparator)
  }
}

=== FILE: dom.dfy ===
/**
 An already-parsed HTML document as an immutable tree, and the few tree
 queries the scrapers use: a pre-order walk over descendants (`find_all`),
 ancestor tests (`find_parent`) and `get_text(strip=True)`.
 */
module Dom {
  import opened Text
  import opened Common

  /**
   An element keeps its tag name, its `class` tokens, its `id` (`""` when the
   attribute is absent) and every other attribute in `attrs`. A text node holds
   one parser string.
   */
  datatype Node =
    | Element(tag: string, classes: seq<string>, id: string, attrs: map<string, string>, children: seq<Node>)
    | TextNode(text: string)

  /** The tag name of the document root, which matches no tag test. */
  const DocumentTag: string := "[document]"

  /**
   A node reached by a walk, with the chain of its ancestors from the document
   root down to its parent. `ancestors[|ancestors| - 1]` is `node.parent`.
   */
  datatype Located = Located(node: Node, ancestors: seq<Node>)

  /** Pre-order walk over `cs` and all their descendants, each located under `anc`. */
  function Walk(cs: seq<Node>, anc: seq<Node>): (r: seq<Located>)
    ensures |r| >= |cs|
    decreases cs
  {
    if cs == [] then []
    else
      var inner := if cs[0].Element? then Walk(cs[0].children, anc + [cs[0]]) else [];
      [Located(cs[0], anc)] + inner + Walk(cs[1..], anc)
  }

  /** Every descendant of `l.node` in document order, the node itself excluded. */
  function Descendants(l: Located): seq<Located> {
    if l.node.Element? then Walk(l.node.children, l.ancestors + [l.node]) else []
  }

  /** The document root as a located node with no ancestors. */
  function Root(doc: Node): Located {
    Located(doc, [])
  }

  predicate IsElementWithTag(n: Node, tags: set<string>) {
    n.Element? && n.tag in tags
  }

  /** `find_all(tags)`: the descendants whose tag is one of `tags`, in document order. */
  function FindAll(l: Located, tags: set<string>): (r: seq<Located>)
    ensures forall x :: x in r ==> IsElementWithTag(x.node, tags)
    ensures |r| <= |Descendants(l)|
  {
    Filter(Descendants(l), tags)
  }

  function Filter(ls: seq<Located>, tags: set<string>): (r: seq<Located>)
    ensures forall x :: x in r ==> x in ls && IsElementWithTag(x.node, tags)
    ensures forall x :: x in ls && IsElementWithTag(x.node, tags) ==> x in r
    ensures |r| <= |ls|
  {
    if ls == [] then []
    else (if IsElementWithTag(ls[0].node, tags) then [ls[0]] else []) + Filter(ls[1..], tags)
  }

  /** `find_parent(tags)` is not None: some proper ancestor carries one of `tags`. */
  predicate HasAncestorTag(l: Located, tags: set<string>) {
    exists i :: 0 <= i < |l.ancestors| && IsElementWithTag(l.ancestors[i], tags)
  }

  /** The tag of `l.node.parent`, or `""` at the root. */
  function ParentTag(l: Located): string {
    if l.ancestors == [] then ""
    else
      var p := l.ancestors[|l.ancestors| - 1];
      if p.Element? then p.tag else ""
  }

  /** The concatenation of the stripped text nodes among `ls`. */
  function StrippedTexts(ls: seq<Located>): string {
    if ls == [] then []
    else (if ls[0].node.TextNode? then Strip(ls[0].node.text) else []) + StrippedTexts(ls[1..])
  }

  /** `get_text(strip=True)`: every descendant string stripped, joined with no separator. */
  function GetText(l: Located): string {
    if l.node.TextNode? then Strip(l.node.text) else StrippedTexts(Descendants(l))
  }

  /** The number of descendant strings that are not blank (`find_all(text=True)` kept if `t.strip()`). */
  function NonEmptyTextCount(ls: seq<Located>): (r: nat)
    ensures r <= |ls|
  {
    if ls == [] then 0
    else (if ls[0].node.TextNode? && Strip(ls[0].node.text) != [] then 1 else 0) + NonEmptyTextCount(ls[1..])
  }

  /** `element.get(name)` for an attribute other than `class`. */
  function Attr(n: Node, name: string): (r: Option<string>)
    ensures r.Some? ==> n.Element? && name in n.attrs && r.value == n.attrs[name]
  {
    if n.Element? && name in n.attrs then Some(n.attrs[name]) else None
  }

  /** Every element below the root, in document order. */
  function Elements(doc: Node): (r: seq<Located>)
    ensures forall x :: x in r ==> x.node.Element?
  {
    ElementsOf(Descendants(Root(doc)))
  }

  function ElementsOf(ls: seq<Located>): (r: seq<Located>)
    ensures forall x :: x in r ==> x.node.Element? && x in ls
    ensures forall x :: x in ls && x.node.Element? ==> x in r
  {
    if ls == [] then []
    else (if ls[0].node.Element? then [ls[0]] else []) + ElementsOf(ls[1..])
  }

  /** The first element of `ls` with tag `tag`, as `find(tag)` returns it. */
  function FirstWithTag(ls: seq<Located>, tag: string): (r: Option<Located>)
    ensures r.Some? ==> r.value in ls && IsElementWithTag(r.value.node, {tag})
    ensures r.None? ==> forall x :: x in ls ==> !IsElementWithTag(x.node, {tag})
  {
    if ls == [] then None
    else if IsElementWithTag(ls[0].node, {tag}) then Some(ls[0])
    else FirstWithTag(ls[1..], tag)
  }

  /** `select_one('meta[<attr>="<value>"]')`: the first `meta` whose `attr` equals `value`. */
  function FirstMeta(ls: seq<Located>, attr: string, value: string): (r: Option<Node>)
    ensures r.Some? ==> r.value.Element? && r.value.tag == "meta" && Attr(r.value, attr) == Some(value)
  {
    if ls == [] then None
    else if IsElementWithTag(ls[0].node, {"meta"}) && Attr(ls[0].node, attr) == Some(value) then Some(ls[0].node)
    else FirstMeta(ls[1..], attr, value)
  }
}

=== FILE: generic_scraper.dfy ===
/**
 The configuration-driven scraper (`GenericScraper`): which discovery pages it
 reads, the de-duplicated URL set it gathers, the ZenRows fallbacks it takes,
 the record it builds for one article and the disabled-target check.

 The HTTP session is a function from a URL to a response; the ZenRows service
 is a function from its parameter map to a response; `urljoin` is a
 parameter.
 */
module GenericScraper {
  import opened Text
  import opened Common
  import opened Dom
  import opened Config
  import opened TargetExtraction
  import ZenRows

  /** What the session answers for one URL: a parsed page, or a `RequestException`. */
  datatype Response = Loaded(page: Page) | RequestFailed

  /** Python truthiness of a loaded configuration value. */
  predicate Truthy(v: Value) {
    match v
    case Null => false
    case Bool(b) => b
    case Int(i) => i != 0
    case Real(x) => x != 0.0
    case Str(s) => s != []
    case List(items) => items != []
    case Map(entries) => entries != map[]
  }

  /** `zenrows_config.get(key, default)`, read as a condition. */
  predicate Flag(settings: map<string, Value>, key: string, default: bool) {
    if key in settings then Truthy(settings[key]) else default
  }

  /**
   The key of the ZenRows scraper `__init__` creates: only when the section is
   enabled and names a non-empty string key.
   */
  function ZenRowsKey(c: ScraperConfig): (r: Option<string>)
    ensures r.Some? ==> Flag(c.zenrowsConfig, "enabled", false) && "api_key" in c.zenrowsConfig
                        && c.zenrowsConfig["api_key"] == Str(r.value) && r.value != []
    ensures r.None? ==> !(Flag(c.zenrowsConfig, "enabled", false) && "api_key" in c.zenrowsConfig
                          && c.zenrowsConfig["api_key"].Str? && c.zenrowsConfig["api_key"].s != [])
  {
    if Flag(c.zenrowsConfig, "enabled", false) && "api_key" in c.zenrowsConfig
       && c.zenrowsConfig["api_key"].Str? && c.zenrowsConfig["api_key"].s != []
    then Some(c.zenrowsConfig["api_key"].s)
    else None
  }

  // ---------------------------------------------------------------------------
  // `_discover_article_urls`.

  /** The discovery pages when the target names any, else its own URL. */
  function SearchUrls(t: Target): (r: seq<string>)
    ensures r != []
    ensures t.discoveryPages != [] ==> r == t.discoveryPages
  {
    if t.discoveryPages != [] then t.discoveryPages else [t.url]
  }

  /** The URLs one search page contributes: its passing links, or the ZenRows discovery after a request failure. */
  function PageUrls(c: ScraperConfig, t: Target, searchUrl: string, fetch: string -> Response,
                    api: map<string, string> -> ZenRows.Response, resolve: (string, string) -> string): (r: seq<string>)
    ensures forall u :: u in r ==>
              exists h: string ::
                h != [] && (t.articleLinkFilter == [] || Contains(h, t.articleLinkFilter)) && u == resolve(searchUrl, h)
    ensures fetch(searchUrl).Loaded? ==>
              forall l :: (l in fetch(searchUrl).page.css.select(t.articleLinkSelector)
                           && HrefPasses(LinkHref(l), t.articleLinkFilter)) ==> resolve(searchUrl, LinkHref(l).value) in r
    ensures fetch(searchUrl).RequestFailed? && ZenRowsKey(c).None? ==> r == []
    ensures fetch(searchUrl).RequestFailed? && !Flag(c.zenrowsConfig, "fallback_for_discovery", true) ==> r == []
    ensures fetch(searchUrl).RequestFailed? && ZenRowsKey(c).Some? && Flag(c.zenrowsConfig, "fallback_for_discovery", true) ==>
              r == ZenRows.ScrapeArticlesFromPage(searchUrl, t, Flag(c.zenrowsConfig, "use_premium_for_discovery", false),
                                                  ZenRowsKey(c).value, api, resolve)
  {
    match fetch(searchUrl)
    case Loaded(p) =>
      var hrefs := AcceptedHrefs(p.css.select(t.articleLinkSelector), t.articleLinkFilter);
      var r := ResolveAll(searchUrl, hrefs, resolve);
      assert forall i :: 0 <= i < |r| ==> hrefs[i] in hrefs;
      assert forall h :: h in hrefs ==> resolve(searchUrl, h) in r by {
        forall h | h in hrefs ensures resolve(searchUrl, h) in r {
          var i :| 0 <= i < |hrefs| && hrefs[i] == h;
          assert r[i] == resolve(searchUrl, h);
        }
      }
      r
    case RequestFailed =>
      match ZenRowsKey(c)
      case Some(key) =>
        if Flag(c.zenrowsConfig, "fallback_for_discovery", true) then
          var r := ZenRows.ScrapeArticlesFromPage(searchUrl, t, Flag(c.zenrowsConfig, "use_premium_for_discovery", false), key, api, resolve);
          forall i | 0 <= i < |r| {
            ZenRows.DiscoveredUrlsPassFilter(searchUrl, t, Flag(c.zenrowsConfig, "use_premium_for_discovery", false), key, api, resolve, i);
          }
          r
        else []
      case None => []
  }

  /** Everything gathered over `urls`, in order and with repeats. */
  function Gathered(c: ScraperConfig, t: Target, urls: seq<string>, fetch: string -> Response,
                    api: map<string, string> -> ZenRows.Response, resolve: (string, string) -> string): (r: seq<string>)
    ensures forall u :: u in r <==> exists i :: 0 <= i < |urls| && u in PageUrls(c, t, urls[i], fetch, api, resolve)
  {
    if urls == [] then []
    else
      var rest := Gathered(c, t, urls[1..], fetch, api, resolve);
      assert forall i :: 1 <= i < |urls| ==> urls[1..][i - 1] == urls[i];
      PageUrls(c, t, urls[0], fetch, api, resolve) + rest
  }

  /**
   `_discover_article_urls`: each URL found on some search page, once. The
   set's iteration order is fixed to first discovery.
   */
  function DiscoverArticleUrls(c: ScraperConfig, t: Target, fetch: string -> Response,
                               api: map<string, string> -> ZenRows.Response, resolve: (string, string) -> string): (r: seq<string>)
    ensures NoDuplicates(r)
    ensures forall u :: u in r <==>
              exists i :: 0 <= i < |SearchUrls(t)| && u in PageUrls(c, t, SearchUrls(t)[i], fetch, api, resolve)
  {
    Dedup(Gathered(c, t, SearchUrls(t), fetch, api, resolve))
  }

  /** Every discovered URL resolves, against one of the search pages, an href that contains the filter. */
  lemma DiscoveredUrlsPassFilter(c: ScraperConfig, t: Target, fetch: string -> Response,
                                 api: map<string, string> -> ZenRows.Response, resolve: (string, string) -> string, u: string)
    requires u in DiscoverArticleUrls(c, t, fetch, api, resolve)
    ensures exists i, h: string ::
              0 <= i < |SearchUrls(t)| && h != [] && (t.articleLinkFilter == [] || Contains(h, t.articleLinkFilter))
              && u == resolve(SearchUrls(t)[i], h)
  {
    var i :| 0 <= i < |SearchUrls(t)| && u in PageUrls(c, t, SearchUrls(t)[i], fetch, api, resolve);
    var h: string :| h != [] && (t.articleLinkFilter == [] || Contains(h, t.articleLinkFilter)) && u == resolve(SearchUrls(t)[i], h);
  }

  /** A link that appears on two search pages, or twice on one, is discovered once. */
  lemma SharedLinkDiscoveredOnce(c: ScraperConfig, t: Target, fetch: string -> Response,
                                 api: map<string, string> -> ZenRows.Response, resolve: (string, string) -> string, u: string)
    requires u in DiscoverArticleUrls(c, t, fetch, api, resolve)
    ensures multiset(DiscoverArticleUrls(c, t, fetch, api, resolve))[u] == 1
  {
    var r := DiscoverArticleUrls(c, t, fetch, api, resolve);
    OnceInDistinct(r, u);
  }

  lemma {:induction false} OnceInDistinct(r: seq<string>, u: string)
    requires NoDuplicates(r) && u in r
    ensures multiset(r)[u] == 1
  {
    var k := |r| - 1;
    assert r == r[..k] + [r[k]];
    assert NoDuplicates(r[..k]);
    if r[k] == u {
      assert u !in r[..k];
    } else {
      OnceInDistinct(r[..k], u);
    }
  }

  // ---------------------------------------------------------------------------
  // `_scrape_single_article` and `scrape_target`.

  /** The ZenRows call `_scrape_single_article` makes, when the scraper exists and `fallbackKey` allows it. */
  function ArticleFallback(c: ScraperConfig, t: Target, url: string, fallbackKey: string, premiumKey: string,
                           premiumDefault: bool, api: map<string, string> -> ZenRows.Response): (r: Option<Item>)
    ensures r.Some? ==> ZenRowsKey(c).Some? && Flag(c.zenrowsConfig, fallbackKey, true)
    ensures r.Some? ==> r.value.scrapedWith == Some(ZenRows.ScrapedWith) && r.value.content != []
                        && r.value.contentType == Some(t.kind) && r.value.sourceUrl == url && r.value.userId == []
  {
    match ZenRowsKey(c)
    case Some(key) =>
      if Flag(c.zenrowsConfig, fallbackKey, true)
      then ZenRows.ScrapeUrl(url, t, Flag(c.zenrowsConfig, premiumKey, premiumDefault), key, api)
      else None
    case None => None
  }

  /**
   `_scrape_single_article`: a fetched page with content gives a plain record;
   an empty page or a request failure is retried on ZenRows when configured.
   Every record has content, the target's type and an empty `user_id`.
   */
  function ScrapeSingleArticle(c: ScraperConfig, t: Target, url: string, fetch: string -> Response,
                               api: map<string, string> -> ZenRows.Response): (r: Option<Item>)
    ensures r.Some? ==> r.value.content != [] && r.value.contentType == Some(t.kind)
                        && r.value.sourceUrl == url && r.value.userId == []
    ensures r.Some? && r.value.scrapedWith.None? ==>
              fetch(url).Loaded? && r.value.content == ExtractContent(t, fetch(url).page)
              && r.value.title == ExtractTitle(t, fetch(url).page) && r.value.author == ExtractAuthor(t, fetch(url).page)
    ensures r.Some? && r.value.scrapedWith.Some? ==> r.value.scrapedWith == Some(ZenRows.ScrapedWith) && ZenRowsKey(c).Some?
    ensures ZenRowsKey(c).None? ==> (r.Some? <==> fetch(url).Loaded? && ExtractContent(t, fetch(url).page) != [])
  {
    match fetch(url)
    case Loaded(p) =>
      var content := ExtractContent(t, p);
      if content == [] then ArticleFallback(c, t, url, "fallback_for_articles", "use_premium_for_articles", false, api)
      else Some(Item(ExtractTitle(t, p), content, Some(t.kind), url, ExtractAuthor(t, p), [], None))
    case RequestFailed =>
      ArticleFallback(c, t, url, "fallback_for_network_errors", "use_premium_for_errors", true, api)
  }

  /** The records of `urls` that produced one, in URL order (the pool's completion order is not modelled). */
  function Collect(c: ScraperConfig, t: Target, urls: seq<string>, fetch: string -> Response,
                   api: map<string, string> -> ZenRows.Response): (r: seq<Item>)
    ensures |r| <= |urls|
    ensures forall x :: x in r ==> x.sourceUrl in urls && x.content != [] && x.contentType == Some(t.kind) && x.userId == []
    ensures forall i :: 0 <= i < |urls| && ScrapeSingleArticle(c, t, urls[i], fetch, api).Some? ==>
              ScrapeSingleArticle(c, t, urls[i], fetch, api).value in r
    ensures forall x :: x in r ==> exists i :: 0 <= i < |urls| && ScrapeSingleArticle(c, t, urls[i], fetch, api) == Some(x)
  {
    if urls == [] then []
    else
      var rest := Collect(c, t, urls[1..], fetch, api);
      assert forall i :: 1 <= i < |urls| ==> urls[1..][i - 1] == urls[i];
      match ScrapeSingleArticle(c, t, urls[0], fetch, api)
      case Some(item) => [item] + rest
      case None => rest
  }

  /**
   `scrape_target`: nothing for a disabled target; otherwise one record at most
   per discovered URL, each for a discovered URL.
   */
  function ScrapeTarget(c: ScraperConfig, t: Target, fetch: string -> Response,
                        api: map<string, string> -> ZenRows.Response, resolve: (string, string) -> string): (r: seq<Item>)
    ensures !t.enabled ==> r == []
    ensures |r| <= |DiscoverArticleUrls(c, t, fetch, api, resolve)|
    ensures forall x :: x in r ==> x.sourceUrl in DiscoverArticleUrls(c, t, fetch, api, resolve) && x.content != []
  {
    if !t.enabled then []
    else
      var urls := DiscoverArticleUrls(c, t, fetch, api, resolve);
      if urls == [] then [] else Collect(c, t, urls, fetch, api)
  }

  /** A disabled target gives nothing whatever the network would answer: no page is ever requested. */
  lemma DisabledTargetIsNotFetched(c: ScraperConfig, t: Target, fetch1: string -> Response, fetch2: string -> Response,
                                   api1: map<string, string> -> ZenRows.Response, api2: map<string, string> -> ZenRows.Response,
                                   resolve: (string, string) -> string)
    requires !t.enabled
    ensures ScrapeTarget(c, t, fetch1, api1, resolve) == ScrapeTarget(c, t, fetch2, api2, resolve) == []
  {
  }
}

=== FILE: links.dfy ===
/**
 Article discovery of the heuristic scraper: the link filter
 (`_is_potential_article_link`), the link scorer (`_score_article_link`) and
 the ranking tail of `discover_article_urls`.

 URL resolution (`urljoin`) and host extraction (`urlparse(..).netloc`) belong
 to the standard library and are taken as function parameters.
 */
module Links {
  import opened Text
  import opened Common
  import opened Dom

  const HeadingTags: set<string> := {"h1", "h2", "h3", "h4", "h5", "h6"}

  // ---------------------------------------------------------------------------
  // The filter.

  /** Prefixes that mark fragments and non-HTTP schemes; matched case-sensitively. */
  const SkippedSchemes: seq<string> := ["#", "mailto:", "tel:", "javascript:", "data:"]

  const SkippedExtensions: seq<string> := [
    "jpg", "jpeg", "png", "gif", "pdf", "doc", "docx", "zip", "mp3", "mp4",
    "css", "js", "ico", "svg", "woff", "ttf"]

  /** The literal skip patterns, searched anywhere in the href, ignoring case. */
  const SkipPaths: seq<string> := [
    "/search", "/tag", "/category", "/archive", "/about", "/contact",
    "/privacy", "/terms", "/feed", "/rss", "/sitemap", "/login",
    "/register", "/signup", "/logout", "/admin", "/dashboard",
    "/api/", "/ajax/", "/json", "/xml", "/robots.txt",
    "/favicon", "/static/", "/assets/", "/media/", "/images/",
    "/css/", "/js/", "/fonts/",
    "/comment", "/reply", "/share", "/print", "/email",
    "/subscribe", "/unsubscribe", "/newsletter"]

  /** The one anchored skip pattern, `\.(php|asp|jsp)$`. */
  const ScriptExtensions: seq<string> := ["php", "asp", "jsp"]

  /** `s` without one trailing newline: the other place where `$` matches. */
  function BeforeFinalNewline(s: string): string {
    if |s| > 0 && s[|s| - 1] == '\n' then s[..|s| - 1] else s
  }

  /** `\.(e1|e2|...)$` searched with IGNORECASE. */
  predicate EndsWithExtension(href: string, exts: seq<string>) {
    var t := Lower(href);
    exists k :: 0 <= k < |exts| &&
      (EndsWith(t, "." + exts[k]) || EndsWith(BeforeFinalNewline(t), "." + exts[k]))
  }

  predicate MatchesSkipPattern(href: string) {
    MentionsAny(Lower(href), SkipPaths) || EndsWithExtension(href, ScriptExtensions)
  }

  /**
   `_is_potential_article_link`, test by test. `netloc` stands for
   `urlparse(..).netloc`; the host test applies only to hrefs starting with
   "http" and only when the base URL is non-empty.
   */
  predicate IsPotentialArticleLink(href: string, baseUrl: string, netloc: string -> string) {
    if StartsWithAny(href, SkippedSchemes) then false
    else if EndsWithExtension(href, SkippedExtensions) then false
    else if MatchesSkipPattern(href) then false
    else if StartsWith(href, "http") && baseUrl != [] && netloc(href) != netloc(baseUrl) then false
    else true
  }

  /** The four rejection reasons, stated with quantifiers over the pattern tables. */
  predicate RejectedLinkSpec(href: string, baseUrl: string, netloc: string -> string) {
    (exists k :: 0 <= k < |SkippedSchemes| && StartsWith(href, SkippedSchemes[k]))
    || EndsWithExtension(href, SkippedExtensions)
    || (exists k :: 0 <= k < |SkipPaths| && Contains(Lower(href), SkipPaths[k]))
    || EndsWithExtension(href, ScriptExtensions)
    || (StartsWith(href, "http") && baseUrl != [] && netloc(href) != netloc(baseUrl))
  }

  /** The filter rejects exactly the hrefs with one of the four reasons, and accepts every other href. */
  lemma LinkFilterIff(href: string, baseUrl: string, netloc: string -> string)
    ensures IsPotentialArticleLink(href, baseUrl, netloc) <==> !RejectedLinkSpec(href, baseUrl, netloc)
  {
    MentionsAnyIff(Lower(href), SkipPaths);
  }

  /** A skip pattern anywhere in the href rejects it, even inside a longer word. */
  lemma SkipPathAnywhereRejects(href: string, baseUrl: string, netloc: string -> string, k: nat)
    requires k < |SkipPaths| && Contains(Lower(href), SkipPaths[k])
    ensures !IsPotentialArticleLink(href, baseUrl, netloc)
  {
    LinkFilterIff(href, baseUrl, netloc);
  }

  /** "/about-us" and "/tagged" are rejected through the "/about" and "/tag" patterns. */
  lemma AboutUsAndTaggedRejected(baseUrl: string, netloc: string -> string)
    ensures !IsPotentialArticleLink("/about-us", baseUrl, netloc)
    ensures !IsPotentialArticleLink("/tagged", baseUrl, netloc)
  {
    LowerFixed("/about-us");
    assert StartsWith("/about-us", SkipPaths[4]);
    SkipPathAnywhereRejects("/about-us", baseUrl, netloc, 4);
    LowerFixed("/tagged");
    assert StartsWith("/tagged", SkipPaths[1]);
    SkipPathAnywhereRejects("/tagged", baseUrl, netloc, 1);
  }

  /** An absolute href on another host is rejected whenever a base URL is given. */
  lemma ExternalHostRejected(href: string, baseUrl: string, netloc: string -> string)
    requires StartsWith(href, "http") && baseUrl != [] && netloc(href) != netloc(baseUrl)
    ensures !IsPotentialArticleLink(href, baseUrl, netloc)
  {
  }

  // ---------------------------------------------------------------------------
  // The scorer.

  const SectionSegments: seq<string> := ["/post/", "/article/", "/blog/", "/news/", "/story/"]
  const ParentClassHints: seq<string> := ["post", "article", "entry", "story", "pencraft", "preview"]

  /** `/p/[^/]+` matching at `i`. */
  predicate SubstackPostAt(href: string, i: int) {
    OccursAt(href, "/p/", i) && i + 3 < |href| && href[i + 3] != '/'
  }

  /** `/i/\d+` matching at `i`. */
  predicate SubstackItemAt(href: string, i: int) {
    OccursAt(href, "/i/", i) && i + 3 < |href| && IsDigit(href[i + 3])
  }

  /** `/\d{4}/` somewhere in the href. */
  predicate HasYearSegment(href: string) {
    exists i :: 0 <= i < |href| && YearAt(href, i)
  }

  /** `/\d{4}/` matching at `i`. */
  predicate YearAt(href: string, i: int) {
    0 <= i && i + 6 <= |href| && href[i] == '/' && href[i + 5] == '/'
    && IsDigit(href[i + 1]) && IsDigit(href[i + 2]) && IsDigit(href[i + 3]) && IsDigit(href[i + 4])
  }

  /** The class tokens of the link's parent; none at the root or for the document node. */
  function ParentClasses(l: Located): seq<string> {
    if l.ancestors == [] then []
    else
      var p := l.ancestors[|l.ancestors| - 1];
      if p.Element? then p.classes else []
  }

  /** The `data-testid` filter of the last `find_parent`: a non-empty value containing "post". */
  predicate TestIdMentionsPost(n: Node) {
    match Attr(n, "data-testid")
    case Some(v) => v != [] && Contains(v, "post")
    case None => false
  }

  /** What the scorer looks at. */
  datatype LinkSignals = LinkSignals(
    textLength: nat,
    section: bool,
    substackPost: bool,
    substackItem: bool,
    year: bool,
    parentHint: bool,
    inHeading: bool,
    inPostContainer: bool)

  function SignalsOf(l: Located, href: string): LinkSignals {
    LinkSignals(
      |GetText(l)|,
      exists k :: 0 <= k < |SectionSegments| && Contains(href, SectionSegments[k]),
      exists i :: 0 <= i < |href| && SubstackPostAt(href, i),
      exists i :: 0 <= i < |href| && SubstackItemAt(href, i),
      HasYearSegment(href),
      exists k :: 0 <= k < |ParentClassHints| && Contains(Lower(Join(ParentClasses(l), " ")), ParentClassHints[k]),
      HasAncestorTag(l, HeadingTags),
      exists i :: 0 <= i < |l.ancestors| && TestIdMentionsPost(l.ancestors[i]))
  }

  /** Some signal the scorer rewards. */
  predicate AnySignal(g: LinkSignals) {
    g.textLength > 10 || g.section || g.substackPost || g.substackItem || g.year
    || g.parentHint || g.inHeading || g.inPostContainer
  }

  function Bonus(c: bool, points: nat): nat { if c then points else 0 }

  /**
   `_score_article_link`: a sum of non-negative bonuses, so it lies in
   [0, 85], and it is 0 exactly when no rewarded signal is present.
   */
  function ScoreArticleLink(l: Located, href: string): (r: nat)
    ensures r <= 85
    ensures r == 0 <==> !AnySignal(SignalsOf(l, href))
    ensures SignalsOf(l, href).inHeading ==> r >= 15
  {
    var g := SignalsOf(l, href);
    Bonus(g.textLength > 10, 5)
    + Bonus(g.textLength > 30, 3)
    + Bonus(g.section, 10)
    + Bonus(g.substackPost, 15)
    + Bonus(g.substackItem, 12)
    + Bonus(g.year, 5)
    + Bonus(g.parentHint, 8)
    + Bonus(g.inHeading, 15)
    + Bonus(g.inPostContainer, 12)
  }

  // ---------------------------------------------------------------------------
  // Ranking.

  /** A discovered link: its absolute URL and its score. */
  type Candidate = (string, int)

  // `list(set(candidates))` is `Dedup`. The source's order is the set's
  // iteration order; the model fixes first-occurrence order, and every property
  // below holds for any order because the sort that follows decides the
  // result's score order.

  /** Non-increasing score order. */
  predicate SortedByScore(s: seq<Candidate>) {
    forall i, j :: 0 <= i < j < |s| ==> s[i].1 >= s[j].1
  }

  /** Puts `x` before the first element whose score does not exceed its own. */
  function Insert(x: Candidate, ys: seq<Candidate>): (r: seq<Candidate>)
    ensures multiset(r) == multiset(ys) + multiset{x}
  {
    if ys == [] then [x]
    else if ys[0].1 <= x.1 then [x] + ys
    else
      assert ys == [ys[0]] + ys[1..];
      [ys[0]] + Insert(x, ys[1..])
  }

  lemma {:induction false} InsertSorted(x: Candidate, ys: seq<Candidate>)
    requires SortedByScore(ys)
    ensures SortedByScore(Insert(x, ys))
  {
    if ys != [] && ys[0].1 > x.1 {
      InsertSorted(x, ys[1..]);
      InsertBounded(x, ys[1..], ys[0].1);
      SortedCons(ys[0], Insert(x, ys[1..]));
    }
  }

  /** Inserting keeps every score under a bound that `x` and all of `ys` respect. */
  lemma InsertBounded(x: Candidate, ys: seq<Candidate>, b: int)
    requires x.1 <= b && forall c :: c in ys ==> c.1 <= b
    ensures forall c :: c in Insert(x, ys) ==> c.1 <= b
  {
    forall c | c in Insert(x, ys)
      ensures c.1 <= b
    {
      assert c in multiset(Insert(x, ys));
      assert c in multiset(ys) || c == x;
    }
  }

  /** A sorted list stays sorted under a head that no element outscores. */
  lemma SortedCons(h: Candidate, rest: seq<Candidate>)
    requires SortedByScore(rest) && forall c :: c in rest ==> c.1 <= h.1
    ensures SortedByScore([h] + rest)
  {
    var r := [h] + rest;
    forall i, j | 0 <= i < j < |r|
      ensures r[i].1 >= r[j].1
    {
      if i > 0 {
        assert r[i] == rest[i - 1] && r[j] == rest[j - 1];
      } else {
        assert r[j] in rest;
      }
    }
  }

  /** `sort(key=score, reverse=True)`: a stable sort into non-increasing score order. */
  function SortByScore(s: seq<Candidate>): (r: seq<Candidate>)
    ensures multiset(r) == multiset(s)
    ensures SortedByScore(r)
  {
    if s == [] then []
    else
      assert s == [s[0]] + s[1..];
      var rest := SortByScore(s[1..]);
      InsertSorted(s[0], rest);
      Insert(s[0], rest)
  }

  /** The candidates with score `v`, in order. */
  function WithScore(s: seq<Candidate>, v: int): seq<Candidate> {
    if s == [] then [] else (if s[0].1 == v then [s[0]] else []) + WithScore(s[1..], v)
  }

  lemma {:induction false} InsertWithScore(x: Candidate, ys: seq<Candidate>, v: int)
    ensures WithScore(Insert(x, ys), v) == (if x.1 == v then [x] else []) + WithScore(ys, v)
  {
    if ys == [] {
      WithScoreCons(x, [], v);
      assert [x] + [] == [x];
    } else if ys[0].1 <= x.1 {
      WithScoreCons(x, ys, v);
    } else {
      InsertWithScore(x, ys[1..], v);
      WithScoreCons(ys[0], Insert(x, ys[1..]), v);
      WithScoreCons(ys[0], ys[1..], v);
      assert [ys[0]] + ys[1..] == ys;
    }
  }

  lemma WithScoreCons(h: Candidate, rest: seq<Candidate>, v: int)
    ensures WithScore([h] + rest, v) == (if h.1 == v then [h] else []) + WithScore(rest, v)
  {
    assert ([h] + rest)[1..] == rest;
  }

  /** Stability: among equal scores, the sort keeps the input order. */
  lemma {:induction false} SortIsStable(s: seq<Candidate>, v: int)
    ensures WithScore(SortByScore(s), v) == WithScore(s, v)
  {
    if s != [] {
      SortIsStable(s[1..], v);
      InsertWithScore(s[0], SortByScore(s[1..]), v);
    }
  }

  /** `s[:k]` with Python's reading of a negative `k`. */
  function SliceTo<T>(s: seq<T>, k: int): (r: seq<T>)
    ensures |r| <= |s| && r == s[..|r|]
    ensures k >= 0 ==> |r| == if k < |s| then k else |s|
    ensures k < 0 ==> |r| == if |s| + k > 0 then |s| + k else 0
  {
    if k >= 0 then (if k < |s| then s[..k] else s)
    else (if |s| + k > 0 then s[..|s| + k] else [])
  }

  function Urls(cs: seq<Candidate>): (r: seq<string>)
    ensures |r| == |cs| && forall i :: 0 <= i < |cs| ==> r[i] == cs[i].0
  {
    seq(|cs|, i requires 0 <= i < |cs| => cs[i].0)
  }

  /** The deduplicated candidates in score order. */
  function Ranking(cs: seq<Candidate>): (r: seq<Candidate>)
    ensures SortedByScore(r)
    ensures NoDuplicates(r)
    ensures forall c :: c in r <==> c in cs
    ensures |r| <= |cs|
  {
    var d := Dedup(cs);
    var r := SortByScore(d);
    assert |r| == |d| by { assert |multiset(r)| == |multiset(d)|; }
    assert forall c :: c in r <==> c in multiset(d);
    DistinctPermutation(d, r);
    r
  }

  /** A permutation of a list without duplicates has none either. */
  lemma DistinctPermutation(a: seq<Candidate>, b: seq<Candidate>)
    requires NoDuplicates(a) && multiset(a) == multiset(b)
    ensures NoDuplicates(b)
  {
    forall i, j | 0 <= i < j < |b|
      ensures b[i] != b[j]
    {
      if b[i] == b[j] {
        var x := b[i];
        MultiplicityAtLeastTwo(b, i, j);
        MultiplicityAtMostOne(a, x);
        assert false;
      }
    }
  }

  lemma {:induction false} MultiplicityAtLeastTwo(b: seq<Candidate>, i: nat, j: nat)
    requires i < j < |b| && b[i] == b[j]
    ensures multiset(b)[b[i]] >= 2
  {
    assert b == b[..i] + [b[i]] + b[i + 1..j] + [b[j]] + b[j + 1..];
  }

  lemma {:induction false} MultiplicityAtMostOne(a: seq<Candidate>, x: Candidate)
    requires NoDuplicates(a)
    ensures multiset(a)[x] <= 1
  {
    if a != [] {
      MultiplicityAtMostOne(a[1..], x);
      assert a == [a[0]] + a[1..];
      if a[0] == x {
        assert x !in a[1..];
      }
    }
  }

  /**
   The ranking tail of `discover_article_urls`: the URLs of the best
   `maxUrls` distinct `(url, score)` pairs, in non-increasing score order; a
   negative limit drops that many from the end, as Python's `[:k]` does. No
   pair left out scores above one returned.
   With a limit at least the number of candidates, every candidate's URL is
   returned.
   */
  function RankUrls(cs: seq<Candidate>, maxUrls: int): (r: seq<string>)
    ensures maxUrls >= 0 ==> |r| == if maxUrls < |Ranking(cs)| then maxUrls else |Ranking(cs)|
    ensures maxUrls < 0 ==> |r| == if |Ranking(cs)| + maxUrls > 0 then |Ranking(cs)| + maxUrls else 0
    ensures |r| <= |cs|
    ensures UrlsOf(r, cs)
    ensures exists top: seq<Candidate> ::
              RankedFrom(top, cs) && TopScored(top, cs) && r == Urls(top)
    ensures maxUrls >= |cs| ==> forall c :: c in cs ==> c.0 in r
  {
    var top := SliceTo(Ranking(cs), maxUrls);
    TopOfRanking(cs, maxUrls);
    var r := Urls(top);
    assert UrlsOf(r, cs) by {
      assert forall i :: 0 <= i < |r| ==> top[i] in top;
    }
    assert maxUrls >= |cs| ==> forall c :: c in cs ==> c.0 in r by {
      if maxUrls >= |cs| {
        AllRankedWhenRoomy(cs, maxUrls);
      }
    }
    r
  }

  /** A limit at least the number of candidates keeps every candidate's URL. */
  lemma AllRankedWhenRoomy(cs: seq<Candidate>, maxUrls: int)
    requires maxUrls >= |cs|
    ensures forall c :: c in cs ==> c.0 in Urls(SliceTo(Ranking(cs), maxUrls))
  {
    var top := SliceTo(Ranking(cs), maxUrls);
    assert top == Ranking(cs);
    forall c | c in cs ensures c.0 in Urls(top) {
      var i :| 0 <= i < |top| && top[i] == c;
      assert Urls(top)[i] == c.0;
    }
  }

  /** Every URL is the URL of some candidate. */
  predicate UrlsOf(r: seq<string>, cs: seq<Candidate>) {
    forall i :: 0 <= i < |r| ==> exists c :: c in cs && c.0 == r[i]
  }

  /** Distinct candidates of `cs` in non-increasing score order. */
  predicate RankedFrom(top: seq<Candidate>, cs: seq<Candidate>) {
    SortedByScore(top) && NoDuplicates(top) && (forall c :: c in top ==> c in cs)
  }

  /** No candidate outside `top` scores above a member of `top`. */
  predicate TopScored(top: seq<Candidate>, cs: seq<Candidate>) {
    forall c, t :: c in cs && c !in top && t in top ==> c.1 <= t.1
  }

  /**
   A prefix of the ranking keeps its order, its distinctness and its
   provenance, and holds the best-scoring candidates.
   */
  lemma TopOfRanking(cs: seq<Candidate>, k: int)
    ensures RankedFrom(SliceTo(Ranking(cs), k), cs)
    ensures TopScored(SliceTo(Ranking(cs), k), cs)
    ensures |SliceTo(Ranking(cs), k)| <= |cs|
  {
    var ranked := Ranking(cs);
    var top := SliceTo(ranked, k);
    assert forall i :: 0 <= i < |top| ==> top[i] == ranked[i];
    PrefixHoldsBest(ranked, |top|);
  }

  /** In a score-sorted list, nothing after a prefix scores above anything in it. */
  lemma PrefixHoldsBest(ranked: seq<Candidate>, n: nat)
    requires n <= |ranked| && SortedByScore(ranked)
    ensures forall c, t :: c in ranked && c !in ranked[..n] && t in ranked[..n] ==> c.1 <= t.1
  {
    assert forall m :: 0 <= m < n ==> ranked[..n][m] == ranked[m];
    forall c, t | c in ranked && c !in ranked[..n] && t in ranked[..n]
      ensures c.1 <= t.1
    {
      var j :| 0 <= j < |ranked| && ranked[j] == c;
      var i :| 0 <= i < n && ranked[..n][i] == t;
    }
  }

  /** Deduplication is on pairs: one URL found with two scores is returned twice, higher score first. */
  lemma SameUrlTwice(u: string, low: int, high: int, maxUrls: int)
    requires low < high && maxUrls >= 2
    ensures RankUrls([(u, low), (u, high)], maxUrls) == [u, u]
  {
    var cs := [(u, low), (u, high)];
    var top := [(u, high), (u, low)];
    assert Ranking(cs) == top by {
      PairsWithDistinctScoresSurvive(u, low, high);
      SortSwapsPair(u, low, high);
    }
    assert SliceTo(top, maxUrls) == top;
    assert Urls(top) == [u, u];
  }

  lemma PairsWithDistinctScoresSurvive(u: string, low: int, high: int)
    requires low != high
    ensures Dedup([(u, low), (u, high)]) == [(u, low), (u, high)]
  {
    var cs := [(u, low), (u, high)];
    assert cs[..1] == [(u, low)];
    assert Dedup([(u, low)]) == [(u, low)] by {
      assert [(u, low)][..0] == [];
    }
    assert (u, high) !in [(u, low)];
  }

  lemma SortSwapsPair(u: string, low: int, high: int)
    requires low < high
    ensures SortByScore([(u, low), (u, high)]) == [(u, high), (u, low)]
  {
    var cs := [(u, low), (u, high)];
    assert cs[1..] == [(u, high)];
    assert SortByScore([(u, high)]) == [(u, high)] by {
      assert [(u, high)][1..] == [];
    }
    assert Insert((u, low), [(u, high)]) == [(u, high)] + Insert((u, low), []);
  }

  // ---------------------------------------------------------------------------
  // Discovery over one fetched document.

  /** The value of `href`, for the `find_all('a', href=True)` anchors. */
  function Href(l: Located): Option<string> {
    if IsElementWithTag(l.node, {"a"}) then Attr(l.node, "href") else None
  }

  /** The links that pass the filter and score above 0, as (absolute URL, score), in link order. */
  function Candidates(ls: seq<Located>, baseUrl: string, resolve: (string, string) -> string,
                      netloc: string -> string): (r: seq<Candidate>)
    ensures |r| <= |ls|
    ensures forall c :: c in r ==> c.1 > 0
  {
    if ls == [] then []
    else
      var rest := Candidates(ls[1..], baseUrl, resolve, netloc);
      var l := ls[0];
      if IsCandidate(l, baseUrl, netloc) then
        var href := Href(l).value;
        [(resolve(baseUrl, href), ScoreArticleLink(l, href) as int)] + rest
      else rest
  }

  /** The candidate an anchor that passes contributes: its resolved href and its score. */
  function CandidateOf(l: Located, baseUrl: string, resolve: (string, string) -> string): Candidate
    requires Href(l).Some?
  {
    (resolve(baseUrl, Href(l).value), ScoreArticleLink(l, Href(l).value) as int)
  }

  /** Every candidate comes from an anchor that passes, and every anchor that passes contributes one. */
  lemma CandidatesExactly(ls: seq<Located>, baseUrl: string, resolve: (string, string) -> string,
                          netloc: string -> string)
    ensures forall c :: c in Candidates(ls, baseUrl, resolve, netloc) ==>
      exists l :: l in ls && IsCandidate(l, baseUrl, netloc) && c == CandidateOf(l, baseUrl, resolve)
    ensures forall l :: l in ls && IsCandidate(l, baseUrl, netloc) ==>
      CandidateOf(l, baseUrl, resolve) in Candidates(ls, baseUrl, resolve, netloc)
  {
    CandidatesSound(ls, baseUrl, resolve, netloc);
    CandidatesComplete(ls, baseUrl, resolve, netloc);
  }

  lemma {:induction false} CandidatesSound(ls: seq<Located>, baseUrl: string, resolve: (string, string) -> string,
                                           netloc: string -> string)
    ensures forall c :: c in Candidates(ls, baseUrl, resolve, netloc) ==>
      exists l :: l in ls && IsCandidate(l, baseUrl, netloc) && c == CandidateOf(l, baseUrl, resolve)
  {
    if ls != [] {
      CandidatesSound(ls[1..], baseUrl, resolve, netloc);
      assert forall x :: x in ls[1..] ==> x in ls;
      if IsCandidate(ls[0], baseUrl, netloc) {
        assert Candidates(ls, baseUrl, resolve, netloc)
               == [CandidateOf(ls[0], baseUrl, resolve)] + Candidates(ls[1..], baseUrl, resolve, netloc);
        assert ls[0] in ls;
      }
    }
  }

  lemma {:induction false} CandidatesComplete(ls: seq<Located>, baseUrl: string, resolve: (string, string) -> string,
                                              netloc: string -> string)
    ensures forall l :: l in ls && IsCandidate(l, baseUrl, netloc) ==>
      CandidateOf(l, baseUrl, resolve) in Candidates(ls, baseUrl, resolve, netloc)
  {
    if ls != [] {
      CandidatesComplete(ls[1..], baseUrl, resolve, netloc);
      assert forall x :: x in ls && x != ls[0] ==> x in ls[1..];
    }
  }

  /** An anchor with an href that passes the filter and scores above 0. */
  predicate IsCandidate(l: Located, baseUrl: string, netloc: string -> string) {
    Href(l).Some? && IsPotentialArticleLink(Href(l).value, baseUrl, netloc)
    && ScoreArticleLink(l, Href(l).value) > 0
  }

  function DocumentCandidates(doc: Node, baseUrl: string, resolve: (string, string) -> string,
                              netloc: string -> string): seq<Candidate> {
    Candidates(FindAll(Root(doc), {"a"}), baseUrl, resolve, netloc)
  }

  // ---------------------------------------------------------------------------
  // `discover_article_urls` over abstract fetch outcomes.

  /** What the plain HTTP fetch and parse of a page produced. */
  datatype Fetch = Fetched(doc: Node) | NetworkFailure | OtherFailure

  /**
   Whether the rendering service is configured, and what each of its calls
   returns: `onFailure` after a network failure, `onEmpty` when the page held no
   candidate.
   */
  datatype ZenRows = NoZenRows | ZenRows(onFailure: Option<Node>, onEmpty: Option<Node>)

  /** The candidate list after the optional retry on an empty result. */
  function CandidatesWithRetry(doc: Node, zen: ZenRows, baseUrl: string,
                               resolve: (string, string) -> string, netloc: string -> string): seq<Candidate>
  {
    var cs := DocumentCandidates(doc, baseUrl, resolve, netloc);
    if cs == [] && zen.ZenRows? && zen.onEmpty.Some? then
      DocumentCandidates(zen.onEmpty.value, baseUrl, resolve, netloc)
    else cs
  }

  /**
   `discover_article_urls` as written: after a network failure with no
   rendering service configured, `soup` was never bound and the `if not soup`
   test raises.
   */
  function DiscoverAsWritten(baseUrl: string, maxUrls: int, fetch: Fetch, zen: ZenRows,
                             resolve: (string, string) -> string, netloc: string -> string): (r: Outcome<seq<string>>)
    ensures r.Raised? <==> fetch.NetworkFailure? && zen.NoZenRows?
  {
    match fetch
    case OtherFailure => Returned([])
    case NetworkFailure =>
      if zen.NoZenRows? then Raised
      else if zen.onFailure.None? then Returned([])
      else Returned(RankUrls(CandidatesWithRetry(zen.onFailure.value, zen, baseUrl, resolve, netloc), maxUrls))
    case Fetched(doc) => Returned(RankUrls(CandidatesWithRetry(doc, zen, baseUrl, resolve, netloc), maxUrls))
  }

  /**
   `discover_article_urls` as intended: every failure to obtain a page gives
   the empty list.
   */
  function DiscoverArticleUrls(baseUrl: string, maxUrls: int, fetch: Fetch, zen: ZenRows,
                               resolve: (string, string) -> string, netloc: string -> string): (r: seq<string>)
    ensures maxUrls >= 0 ==> |r| <= maxUrls
    ensures fetch.OtherFailure? ==> r == []
    ensures fetch.NetworkFailure? && (zen.NoZenRows? || zen.onFailure.None?) ==> r == []
    ensures fetch.Fetched? && DocumentCandidates(fetch.doc, baseUrl, resolve, netloc) != [] ==>
      UrlsOf(r, DocumentCandidates(fetch.doc, baseUrl, resolve, netloc))
    ensures fetch.Fetched? && DocumentCandidates(fetch.doc, baseUrl, resolve, netloc) != [] ==>
      r == RankUrls(DocumentCandidates(fetch.doc, baseUrl, resolve, netloc), maxUrls)
    ensures fetch.Fetched? && DocumentCandidates(fetch.doc, baseUrl, resolve, netloc) == [] ==>
      r == (if zen.ZenRows? && zen.onEmpty.Some?
            then RankUrls(DocumentCandidates(zen.onEmpty.value, baseUrl, resolve, netloc), maxUrls)
            else [])
    ensures fetch.NetworkFailure? && zen.ZenRows? && zen.onFailure.Some? ==>
      r == RankUrls(CandidatesWithRetry(zen.onFailure.value, zen, baseUrl, resolve, netloc), maxUrls)
  {
    match fetch
    case OtherFailure => []
    case NetworkFailure =>
      if zen.NoZenRows? || zen.onFailure.None? then []
      else RankUrls(CandidatesWithRetry(zen.onFailure.value, zen, baseUrl, resolve, netloc), maxUrls)
    case Fetched(doc) => RankUrls(CandidatesWithRetry(doc, zen, baseUrl, resolve, netloc), maxUrls)
  }

  /** The as-written discovery raises on a network failure when no rendering service is configured. */
  lemma UnboundPageRaises(baseUrl: string, maxUrls: int, resolve: (string, string) -> string, netloc: string -> string)
    ensures DiscoverAsWritten(baseUrl, maxUrls, NetworkFailure, NoZenRows, resolve, netloc) == Raised
    ensures DiscoverArticleUrls(baseUrl, maxUrls, NetworkFailure, NoZenRows, resolve, netloc) == []
  {
  }

  /** Apart from that one case, the intended discovery returns what the as-written one returns. */
  lemma DiscoverAgrees(baseUrl: string, maxUrls: int, fetch: Fetch, zen: ZenRows,
                       resolve: (string, string) -> string, netloc: string -> string)
    requires !(fetch.NetworkFailure? && zen.NoZenRows?)
    ensures DiscoverAsWritten(baseUrl, maxUrls, fetch, zen, resolve, netloc)
         == Returned(DiscoverArticleUrls(baseUrl, maxUrls, fetch, zen, resolve, netloc))
  {
  }

  // ---------------------------------------------------------------------------
  // `_is_likely_blog_post_url`, a predicate the discovery path never calls.

  const NonPostSegments: seq<string> := ["/tag/", "/category/", "/archive/", "/page/", "/search", "/about", "/contact", "/privacy"]
  const PostSegments: seq<string> := ["/blog/", "/post/", "/article/", "/news/", "/guides/", "/interview"]

  predicate IsLikelyBlogPostUrl(href: string) {
    if MentionsAny(Lower(href), NonPostSegments) then false
    else if MentionsAny(Lower(href), PostSegments) then true
    else HasYearSegment(href)
  }

  /** A listing segment vetoes the URL, whatever post segment or year it also holds. */
  lemma ListingSegmentVetoes(href: string, k: nat)
    requires k < |NonPostSegments| && Contains(Lower(href), NonPostSegments[k])
    ensures !IsLikelyBlogPostUrl(href)
  {
    MentionsAnyIff(Lower(href), NonPostSegments);
  }

  /** Without a listing segment, a post segment or a `/yyyy/` segment makes the URL a post. */
  lemma BlogPostIff(href: string)
    requires forall k :: 0 <= k < |NonPostSegments| ==> !Contains(Lower(href), NonPostSegments[k])
    ensures IsLikelyBlogPostUrl(href) <==>
      (exists k :: 0 <= k < |PostSegments| && Contains(Lower(href), PostSegments[k]))
      || HasYearSegment(href)
  {
    var t := Lower(href);
    MentionsAnyIff(t, NonPostSegments);
    assert !MentionsAny(t, NonPostSegments);
    MentionsAnyIff(t, PostSegments);
  }
}

=== FILE: pdf_chapters.dfy ===
/**
 Chapter segmentation of the book PDF (`process_book_chapters`). A page is
 given by the texts of its lines, in block order, and by its plain text; PDF
 parsing itself is not modelled.
 */
module PdfChapters {
  import opened Text
  import opened Common

  /** One PDF page: each text line as its spans joined, and `page.get_text()`. */
  datatype Page = Page(lines: seq<string>, text: string)

  const ChapterLimit := 8
  const BookType: string := "book"
  const BookAuthor: string := "Aline"
  const PageBreak: string := "\n\n"

  /**
   `re.match(r"^Chapter\s+\d+[:\s]", line)`. Backtracking cannot help: giving
   back whitespace leaves a space where a digit is needed, and giving back a
   digit leaves a digit where `:` or whitespace is needed, so the greedy runs
   decide the match.
   */
  predicate IsChapterHeading(line: string) {
    StartsWith(line, "Chapter")
    && var j := SkipSpace(line, 7);
       j > 7
       && var k := DigitRun(line, j);
          k > j && k < |line| && (line[k] == ':' || IsSpace(line[k]))
  }

  /** A chapter title: a stripped line that matches the heading pattern. */
  predicate IsChapterTitle(t: string) {
    IsStripped(t) && IsChapterHeading(t)
  }

  /** The title recognised on a page: the first stripped line that matches. Later matches are never looked at. */
  function TitleOf(lines: seq<string>): (r: Option<string>)
    ensures r.Some? ==> IsChapterTitle(r.value) && r.value != []
    ensures r.None? <==> forall i :: 0 <= i < |lines| ==> !IsChapterHeading(Strip(lines[i]))
    ensures r.Some? ==>
      exists i :: 0 <= i < |lines| && r.value == Strip(lines[i])
                  && forall j :: 0 <= j < i ==> !IsChapterHeading(Strip(lines[j]))
  {
    match FirstWhere(lines, IsHeadingLine)
    case Some(i) => Some(Strip(lines[i]))
    case None => None
  }

  /** A line whose stripped text matches the heading pattern. */
  predicate IsHeadingLine(line: string) {
    IsChapterHeading(Strip(line))
  }

  /** A number alone after "Chapter" is no heading: a stripped line cannot end in the required `:` or space. */
  lemma BareChapterNumberIsNoTitle(n: nat)
    ensures !IsChapterHeading("Chapter " + NatToString(n))
  {
    var d := NatToString(n);
    var line := "Chapter " + d;
    assert line[..7] == "Chapter";
    assert line[7] == ' ' && !IsSpace(line[8]) by { assert line[8] == d[0]; }
    assert SkipSpace(line, 8) == 8;
    assert SkipSpace(line, 7) == 8;
    assert forall i :: 8 <= i < |line| ==> IsDigit(line[i]) by {
      forall i | 8 <= i < |line| ensures IsDigit(line[i]) { assert line[i] == d[i - 8]; }
    }
    DigitRunToEnd(line, 8);
  }

  lemma {:induction false} DigitRunToEnd(t: string, k: nat)
    requires k <= |t|
    requires forall i :: k <= i < |t| ==> IsDigit(t[i])
    ensures DigitRun(t, k) == |t|
    decreases |t| - k
  {
    if k < |t| {
      DigitRunToEnd(t, k + 1);
    }
  }

  /**
   A page as the loop sees it: the title recognised on it, if any, and its
   text. Recognising every page up front is the same as recognising each page
   when the loop reaches it, since recognition reads nothing but the page.
   */
  datatype ScannedPage = ScannedPage(heading: Option<string>, text: string)

  /** Headings that are chapter titles, as the recogniser only produces. */
  predicate WellScanned(ps: seq<ScannedPage>) {
    forall i :: 0 <= i < |ps| && ps[i].heading.Some? ==> IsChapterTitle(ps[i].heading.value) && ps[i].heading.value != []
  }

  function ScanPages(pages: seq<Page>): (r: seq<ScannedPage>)
    ensures |r| == |pages| && WellScanned(r)
    ensures forall i :: 0 <= i < |pages| ==> r[i].heading == TitleOf(pages[i].lines) && r[i].text == pages[i].text
  {
    if pages == [] then []
    else [ScannedPage(TitleOf(pages[0].lines), pages[0].text)] + ScanPages(pages[1..])
  }

  /** The record of one finished chapter. */
  function ChapterItem(title: string, text: string, sourceUrl: string): (r: Item)
    ensures r.title == title && r.content == Strip(text) && r.sourceUrl == sourceUrl
    ensures r.contentType == Some(BookType) && r.author == BookAuthor && r.userId == [] && r.scrapedWith.None?
  {
    Item(title, Strip(text), Some(BookType), sourceUrl, BookAuthor, [], None)
  }

  /** A chapter's record when a title is open and at least one page was accumulated into it. */
  function Emit(title: string, text: string, sourceUrl: string): (r: seq<Item>)
    ensures |r| <= 1
    ensures r != [] <==> title != [] && text != []
  {
    if title != [] && text != [] then [ChapterItem(title, text, sourceUrl)] else []
  }

  // ---------------------------------------------------------------------------
  // The loop as written.

  /** The loop variables: the current title and text, the chapters found so far, and the records. */
  datatype Scan = Scan(title: string, text: string, found: nat, items: seq<Item>)

  /**
   One page of the loop body; the loop calls it only while fewer than eight
   chapters were found, so the source's `chapters_found > 8` exit inside the
   body is never taken and is not modelled.
   */
  function StepPage(p: ScannedPage, s: Scan, sourceUrl: string): (r: Scan)
    requires s.found < ChapterLimit
    ensures r.found == s.found || r.found == s.found + 1
    ensures r.found <= ChapterLimit
  {
    match p.heading
    case Some(t) => Scan(t, [], s.found + 1, s.items + Emit(s.title, s.text, sourceUrl))
    case None => if s.title != [] then s.(text := s.text + p.text + PageBreak) else s
  }

  /** The page loop, which stops at the first page after the eighth title. */
  function Loop(pages: seq<ScannedPage>, s: Scan, sourceUrl: string): (r: Scan)
    requires s.found <= ChapterLimit
    ensures r.found <= ChapterLimit
    decreases |pages|
  {
    if pages == [] || s.found >= ChapterLimit then s
    else Loop(pages[1..], StepPage(pages[0], s, sourceUrl), sourceUrl)
  }

  /** The records of the loop and of the chapter still open after it. */
  function Finish(s: Scan, sourceUrl: string): seq<Item> {
    s.items + (if s.title != [] && s.text != [] && s.found <= ChapterLimit then [ChapterItem(s.title, s.text, sourceUrl)] else [])
  }

  /**
   `process_book_chapters`: `pages` is None when the file is missing or PyMuPDF
   raises anywhere, which both give no records.
   */
  function ProcessBookChapters(pages: Option<seq<Page>>, sourceUrl: string): (r: seq<Item>)
    ensures pages.None? ==> r == []
  {
    match pages
    case None => []
    case Some(ps) => Finish(Loop(ScanPages(ps), Scan([], [], 0, []), sourceUrl), sourceUrl)
  }

  // ---------------------------------------------------------------------------
  // A reference segmentation.

  /** `page.get_text() + "\n\n"` for every page, concatenated. */
  function Accumulate(pages: seq<ScannedPage>): (r: string)
    ensures pages == [] <==> r == []
  {
    if pages == [] then [] else pages[0].text + PageBreak + Accumulate(pages[1..])
  }

  lemma {:induction false} AccumulateAppend(a: seq<ScannedPage>, b: seq<ScannedPage>)
    ensures Accumulate(a + b) == Accumulate(a) + Accumulate(b)
  {
    if a != [] {
      assert (a + b)[1..] == a[1..] + b;
      AccumulateAppend(a[1..], b);
    } else {
      assert a + b == b;
    }
  }

  /** How many pages at the front carry no title. */
  function UntitledRun(pages: seq<ScannedPage>): (n: nat)
    ensures n <= |pages|
    ensures forall i :: 0 <= i < n ==> pages[i].heading.None?
    ensures n < |pages| ==> pages[n].heading.Some?
  {
    if pages == [] || pages[0].heading.Some? then 0
    else
      var m := UntitledRun(pages[1..]);
      assert forall i :: 1 <= i < 1 + m ==> pages[1..][i - 1] == pages[i];
      1 + m
  }

  /** A chapter as the book lays it out: its title and the untitled pages after its title page. */
  datatype Chapter = Chapter(title: string, body: seq<ScannedPage>)

  /** The book's chapters in order; pages before the first title belong to none. */
  function Chapters(pages: seq<ScannedPage>): (r: seq<Chapter>)
    ensures |r| <= |pages|
    decreases |pages|
  {
    if pages == [] then []
    else if pages[0].heading.None? then Chapters(pages[1..])
    else
      var n := UntitledRun(pages[1..]);
      [Chapter(pages[0].heading.value, pages[1..][..n])] + Chapters(pages[1..][n..])
  }

  /** Every chapter is named by a page's recognised title. */
  lemma {:induction false} ChapterTitles(pages: seq<ScannedPage>)
    requires WellScanned(pages)
    ensures forall i :: 0 <= i < |Chapters(pages)| ==> IsChapterTitle(Chapters(pages)[i].title) && Chapters(pages)[i].title != []
    decreases |pages|
  {
    if pages != [] {
      WellScannedSuffix(pages, 1);
      if pages[0].heading.None? {
        ChapterTitles(pages[1..]);
      } else {
        var n := UntitledRun(pages[1..]);
        WellScannedSuffix(pages[1..], n);
        ChapterTitles(pages[1..][n..]);
      }
    }
  }

  /**
   The records the segmentation promises, `budget` being how many more titles
   the loop will accept: each chapter with at least one page gives a record of
   its stripped accumulated text, and the chapter whose title uses the last of
   the budget gives none, because the loop stops on the next page.
   */
  function Expected(chs: seq<Chapter>, budget: nat, sourceUrl: string): (r: seq<Item>)
    ensures |r| <= |chs| && (budget > 0 ==> |r| < budget)
  {
    if chs == [] || budget <= 1 then []
    else
      (if chs[0].body != [] then [ChapterItem(chs[0].title, Accumulate(chs[0].body), sourceUrl)] else [])
      + Expected(chs[1..], budget - 1, sourceUrl)
  }

  // ---------------------------------------------------------------------------
  // The loop agrees with the reference.

  /**
   Inside a chapter, from `pages` on: the open chapter takes the untitled pages
   ahead, and the rest follows the reference.
   */
  predicate InChapterAgrees(pages: seq<ScannedPage>, s: Scan, sourceUrl: string)
    requires s.found <= ChapterLimit
  {
    var n := UntitledRun(pages);
    Finish(Loop(pages, s, sourceUrl), sourceUrl)
      == s.items + Emit(s.title, s.text + Accumulate(pages[..n]), sourceUrl)
         + Expected(Chapters(pages[n..]), ChapterLimit - s.found, sourceUrl)
  }

  /** The first page's title, when it has one, is not empty. */
  predicate TitleNonEmpty(pages: seq<ScannedPage>) {
    pages != [] && pages[0].heading.Some? ==> pages[0].heading.value != []
  }

  lemma WellScannedSuffix(pages: seq<ScannedPage>, n: nat)
    requires WellScanned(pages) && n <= |pages|
    ensures WellScanned(pages[n..])
  {
    assert forall i :: 0 <= i < |pages| - n ==> pages[n..][i] == pages[i + n];
  }

  lemma {:induction false} InChapter(pages: seq<ScannedPage>, s: Scan, sourceUrl: string)
    requires WellScanned(pages)
    requires s.title != [] && 1 <= s.found < ChapterLimit
    ensures InChapterAgrees(pages, s, sourceUrl)
    decreases |pages|
  {
    if pages == [] {
      assert s.text + Accumulate(pages[..0]) == s.text;
    } else {
      WellScannedSuffix(pages, 1);
      assert TitleNonEmpty(pages);
      var s' := StepPage(pages[0], s, sourceUrl);
      if pages[0].heading.None? {
        InChapter(pages[1..], s', sourceUrl);
        assert s' == Extended(pages[0], s);
        UntitledStep(pages, s, sourceUrl);
      } else {
        if s'.found < ChapterLimit {
          InChapter(pages[1..], s', sourceUrl);
          assert s' == Opening(pages[0].heading.value, s, sourceUrl);
        }
        TitledStep(pages, s, sourceUrl);
      }
    }
  }

  /** An untitled page extends the open chapter's text. */
  lemma UntitledStep(pages: seq<ScannedPage>, s: Scan, sourceUrl: string)
    requires pages != [] && pages[0].heading.None?
    requires s.title != [] && 1 <= s.found < ChapterLimit
    requires InChapterAgrees(pages[1..], Extended(pages[0], s), sourceUrl)
    ensures InChapterAgrees(pages, s, sourceUrl)
  {
    LoopOverUntitled(pages, s, sourceUrl);
    UntitledRunStep(pages);
    AccumulateStep(pages, s.text);
  }

  /** The loop state after an untitled page inside a chapter: the page's text appended. */
  function Extended(p: ScannedPage, s: Scan): (r: Scan)
    ensures r.title == s.title && r.found == s.found && r.items == s.items
    ensures r.text == s.text + p.text + PageBreak
  {
    s.(text := s.text + p.text + PageBreak)
  }

  /** The loop steps over an untitled page inside a chapter into the extended state. */
  lemma LoopOverUntitled(pages: seq<ScannedPage>, s: Scan, sourceUrl: string)
    requires pages != [] && pages[0].heading.None? && s.title != [] && s.found < ChapterLimit
    ensures Loop(pages, s, sourceUrl) == Loop(pages[1..], Extended(pages[0], s), sourceUrl)
  {
    assert StepPage(pages[0], s, sourceUrl) == Extended(pages[0], s);
  }

  /** An untitled first page lengthens the untitled run by one and leaves what follows it unchanged. */
  lemma UntitledRunStep(pages: seq<ScannedPage>)
    requires pages != [] && pages[0].heading.None?
    ensures UntitledRun(pages) == 1 + UntitledRun(pages[1..])
    ensures pages[1..][UntitledRun(pages[1..])..] == pages[UntitledRun(pages)..]
  {
  }

  /** Appending the first untitled page's text, then the rest of the run, is appending the run. */
  lemma AccumulateStep(pages: seq<ScannedPage>, t: string)
    requires pages != [] && pages[0].heading.None?
    ensures t + pages[0].text + PageBreak + Accumulate(pages[1..][..UntitledRun(pages[1..])])
            == t + Accumulate(pages[..UntitledRun(pages)])
  {
    var m := UntitledRun(pages[1..]);
    var rest := Accumulate(pages[1..][..m]);
    UntitledRunStep(pages);
    TakeAfterHead(pages, m);
    AccumulateAppend([pages[0]], pages[1..][..m]);
    assert Accumulate([pages[0]]) == pages[0].text + PageBreak;
    AppendAssociates(t + pages[0].text, PageBreak, rest);
    AppendAssociates(t, pages[0].text, PageBreak + rest);
    AppendAssociates(pages[0].text, PageBreak, rest);
  }

  lemma TakeAfterHead<T>(xs: seq<T>, m: nat)
    requires m < |xs|
    ensures xs[..1 + m] == [xs[0]] + xs[1..][..m]
  {
  }

  /** A titled page closes the open chapter and opens the next one, unless it is the eighth. */
  lemma TitledStep(pages: seq<ScannedPage>, s: Scan, sourceUrl: string)
    requires pages != [] && pages[0].heading.Some? && TitleNonEmpty(pages)
    requires s.title != [] && 1 <= s.found < ChapterLimit
    requires s.found + 1 < ChapterLimit ==> InChapterAgrees(pages[1..], Opening(pages[0].heading.value, s, sourceUrl), sourceUrl)
    ensures InChapterAgrees(pages, s, sourceUrl)
  {
    if s.found + 1 == ChapterLimit {
      EighthTitle(pages, s, sourceUrl);
    } else {
      NextTitle(pages, s, sourceUrl);
    }
    assert UntitledRun(pages) == 0;
    assert s.text + Accumulate(pages[..0]) == s.text;
    assert pages[0..] == pages;
  }

  /** The eighth title closes the open chapter, and the loop stops on the next page. */
  lemma EighthTitle(pages: seq<ScannedPage>, s: Scan, sourceUrl: string)
    requires pages != [] && pages[0].heading.Some?
    requires s.title != [] && s.found + 1 == ChapterLimit
    ensures Finish(Loop(pages, s, sourceUrl), sourceUrl)
            == s.items + Emit(s.title, s.text, sourceUrl) + Expected(Chapters(pages), ChapterLimit - s.found, sourceUrl)
  {
    var s' := Scan(pages[0].heading.value, [], ChapterLimit, s.items + Emit(s.title, s.text, sourceUrl));
    assert StepPage(pages[0], s, sourceUrl) == s';
    assert Loop(pages, s, sourceUrl) == s';
    assert Expected(Chapters(pages), 1, sourceUrl) == [];
  }

  /** The pages a title page's chapter holds: the untitled ones right after it. */
  function Body(pages: seq<ScannedPage>): (r: seq<ScannedPage>)
    requires pages != []
    ensures |r| < |pages|
    ensures forall i :: 0 <= i < |r| ==> r[i] == pages[i + 1] && r[i].heading.None?
  {
    pages[1..][..UntitledRun(pages[1..])]
  }

  /** The pages after a title page's chapter. */
  function After(pages: seq<ScannedPage>): seq<ScannedPage>
    requires pages != []
  {
    pages[1..][UntitledRun(pages[1..])..]
  }

  /** The reference from a title page: that chapter's record, then the rest. */
  lemma ExpectedFromTitle(pages: seq<ScannedPage>, budget: nat, sourceUrl: string)
    requires pages != [] && pages[0].heading.Some? && TitleNonEmpty(pages) && budget > 0
    ensures Expected(Chapters(pages), budget + 1, sourceUrl)
            == Emit(pages[0].heading.value, Accumulate(Body(pages)), sourceUrl) + Expected(Chapters(After(pages)), budget, sourceUrl)
  {
    assert Chapters(pages) == [Chapter(pages[0].heading.value, Body(pages))] + Chapters(After(pages));
  }

  /** The loop from the page after a title page, as the open chapter's invariant gives it. */
  lemma LoopFromTitle(pages: seq<ScannedPage>, items: seq<Item>, found: nat, sourceUrl: string)
    requires pages != [] && pages[0].heading.Some?
    requires 1 <= found < ChapterLimit
    requires InChapterAgrees(pages[1..], Scan(pages[0].heading.value, [], found, items), sourceUrl)
    ensures Finish(Loop(pages[1..], Scan(pages[0].heading.value, [], found, items), sourceUrl), sourceUrl)
            == items + Emit(pages[0].heading.value, Accumulate(Body(pages)), sourceUrl)
               + Expected(Chapters(After(pages)), ChapterLimit - found, sourceUrl)
  {
    assert [] + Accumulate(Body(pages)) == Accumulate(Body(pages));
  }

  /**
   A title opens a chapter that follows the reference: what the loop yields
   from the page after it is the chapter's record, if it has pages, and then
   the reference's records for the rest.
   */
  lemma OpenedChapter(pages: seq<ScannedPage>, s: Scan, budget: nat, sourceUrl: string)
    requires pages != [] && pages[0].heading.Some? && TitleNonEmpty(pages)
    requires s.title == pages[0].heading.value && s.text == []
    requires 1 <= s.found < ChapterLimit && budget == ChapterLimit - s.found + 1
    requires InChapterAgrees(pages[1..], s, sourceUrl)
    ensures Finish(Loop(pages[1..], s, sourceUrl), sourceUrl) == s.items + Expected(Chapters(pages), budget, sourceUrl)
  {
    assert s == Scan(pages[0].heading.value, [], s.found, s.items);
    var open := Emit(pages[0].heading.value, Accumulate(Body(pages)), sourceUrl);
    var rest := Expected(Chapters(After(pages)), ChapterLimit - s.found, sourceUrl);
    LoopFromTitle(pages, s.items, s.found, sourceUrl);
    ExpectedFromTitle(pages, ChapterLimit - s.found, sourceUrl);
    AppendAssociates(s.items, open, rest);
  }

  /** The loop state right after a title page: the open chapter closed and the new one opened. */
  function Opening(title: string, s: Scan, sourceUrl: string): (r: Scan)
    requires s.found < ChapterLimit
    ensures r.title == title && r.text == [] && r.found == s.found + 1
    ensures r.items == s.items + Emit(s.title, s.text, sourceUrl)
  {
    Scan(title, [], s.found + 1, s.items + Emit(s.title, s.text, sourceUrl))
  }

  /** The loop steps over a title page into the opened state. */
  lemma LoopOverTitle(pages: seq<ScannedPage>, s: Scan, sourceUrl: string)
    requires pages != [] && pages[0].heading.Some? && s.found < ChapterLimit
    ensures Loop(pages, s, sourceUrl) == Loop(pages[1..], Opening(pages[0].heading.value, s, sourceUrl), sourceUrl)
  {
    assert StepPage(pages[0], s, sourceUrl) == Opening(pages[0].heading.value, s, sourceUrl);
  }

  /** A title before the eighth closes the open chapter and opens one that follows the reference. */
  lemma NextTitle(pages: seq<ScannedPage>, s: Scan, sourceUrl: string)
    requires pages != [] && pages[0].heading.Some? && TitleNonEmpty(pages)
    requires s.title != [] && s.found + 1 < ChapterLimit
    requires InChapterAgrees(pages[1..], Opening(pages[0].heading.value, s, sourceUrl), sourceUrl)
    ensures Finish(Loop(pages, s, sourceUrl), sourceUrl)
            == s.items + Emit(s.title, s.text, sourceUrl) + Expected(Chapters(pages), ChapterLimit - s.found, sourceUrl)
  {
    LoopOverTitle(pages, s, sourceUrl);
    OpenedChapter(pages, Opening(pages[0].heading.value, s, sourceUrl), ChapterLimit - s.found, sourceUrl);
  }

  /** Before the first title: untitled pages are skipped, then the reference takes over. */
  lemma {:induction false} BeforeFirstChapter(pages: seq<ScannedPage>, sourceUrl: string)
    requires WellScanned(pages)
    ensures Finish(Loop(pages, Scan([], [], 0, []), sourceUrl), sourceUrl)
            == Expected(Chapters(pages), ChapterLimit, sourceUrl)
    decreases |pages|
  {
    var s := Scan([], [], 0, []);
    if pages != [] {
      WellScannedSuffix(pages, 1);
      assert TitleNonEmpty(pages);
      if pages[0].heading.None? {
        assert StepPage(pages[0], s, sourceUrl) == s;
        BeforeFirstChapter(pages[1..], sourceUrl);
      } else {
        var s' := Opening(pages[0].heading.value, s, sourceUrl);
        LoopOverTitle(pages, s, sourceUrl);
        InChapter(pages[1..], s', sourceUrl);
        OpenedChapter(pages, s', ChapterLimit, sourceUrl);
      }
    }
  }

  /**
   The loop produces exactly the reference records: one per chapter among the
   first seven that has a page after its title page, with the stripped text of
   those pages.
   */
  lemma SegmentationMatchesReference(pages: seq<Page>, sourceUrl: string)
    ensures ProcessBookChapters(Some(pages), sourceUrl) == Expected(Chapters(ScanPages(pages)), ChapterLimit, sourceUrl)
  {
    BeforeFirstChapter(ScanPages(pages), sourceUrl);
  }

  /** At most seven records, all titled by chapter headings and attributed to the book. */
  lemma RecordsAreBookChapters(pages: Option<seq<Page>>, sourceUrl: string)
    ensures |ProcessBookChapters(pages, sourceUrl)| <= ChapterLimit - 1
    ensures forall x :: x in ProcessBookChapters(pages, sourceUrl) ==>
              IsChapterTitle(x.title) && x.contentType == Some(BookType) && x.author == BookAuthor
              && x.userId == [] && x.sourceUrl == sourceUrl
  {
    if pages.Some? {
      SegmentationMatchesReference(pages.value, sourceUrl);
      ChapterTitles(ScanPages(pages.value));
      ExpectedRecords(Chapters(ScanPages(pages.value)), ChapterLimit, sourceUrl);
    }
  }

  lemma {:induction false} ExpectedRecords(chs: seq<Chapter>, budget: nat, sourceUrl: string)
    requires forall i :: 0 <= i < |chs| ==> IsChapterTitle(chs[i].title)
    ensures forall x :: x in Expected(chs, budget, sourceUrl) ==>
              IsChapterTitle(x.title) && x.contentType == Some(BookType) && x.author == BookAuthor
              && x.userId == [] && x.sourceUrl == sourceUrl
  {
    if chs != [] && budget > 1 {
      ExpectedRecords(chs[1..], budget - 1, sourceUrl);
    }
  }
}

=== FILE: target_extraction.dfy ===
/**
 The extraction helpers that the configuration-driven scraper and the ZenRows
 fallback share line for line: the title lookup, selector-ordered body
 extraction with element formatting and substring exclusion, the author
 precedence and the byline split.

 The CSS selector engine is not modelled: what `select_one` and `select`
 answer on one page is given as functions. The fixed lookups (the two author
 `meta` tags and the byline text search) are computed from the tree.
 */
module TargetExtraction {
  import opened Text
  import opened Common
  import opened Dom
  import opened Config
  import ContentFormat

  /** BeautifulSoup's answers on one parsed page: `select_one` and `select` on the page, and `select` inside an element. */
  datatype Css = Css(
    selectOne: string -> Option<Located>,
    select: string -> seq<Located>,
    selectWithin: (Located, string) -> seq<Located>)

  /** A parsed page: its tree and the CSS engine's answers on it. */
  datatype Page = Page(doc: Node, css: Css)

  const NoTitle: string := "No Title Found"
  const PartSeparator: string := "\n\n"
  /** The element selector used when a target names no `content_elements`. */
  const DefaultContentElements: string := "p, ul li, ol li, h2, h3, h4"
  const MarkdownHeadings: set<string> := {"h2", "h3", "h4"}
  const BylineMode: string := "byline_text"

  /** `element.name`; a text node has none. */
  function Name(l: Located): string {
    if l.node.Element? then l.node.tag else ""
  }

  /** `_extract_title`: the text of the element `title_selector` picks, or the placeholder. */
  function ExtractTitle(t: Target, p: Page): (r: string)
    ensures p.css.selectOne(t.titleSelector).None? ==> r == NoTitle
    ensures p.css.selectOne(t.titleSelector).Some? ==> r == GetText(p.css.selectOne(t.titleSelector).value)
  {
    match p.css.selectOne(t.titleSelector)
    case Some(e) => GetText(e)
    case None => NoTitle
  }

  // ---------------------------------------------------------------------------
  // `_process_content_element` and `_should_exclude_content`.

  /**
   `h2`..`h4` become Markdown headings whose level is read off the tag's digit,
   list items get a bullet, and every other element gives its text unchanged.
   */
  function ProcessContentElement(l: Located): (r: string)
    ensures EndsWith(r, GetText(l))
    ensures r == GetText(l) <==> Name(l) !in MarkdownHeadings && Name(l) != "li"
    ensures Name(l) in MarkdownHeadings ==>
      StartsWith(r, Repeat('#', ContentFormat.HeadingLevel(Name(l))) + " ")
    ensures Name(l) == "li" ==> StartsWith(r, "• ")
    ensures Name(l) in MarkdownHeadings ==> |r| == ContentFormat.HeadingLevel(Name(l)) + 1 + |GetText(l)|
    ensures Name(l) == "li" ==> |r| == 2 + |GetText(l)|
  {
    var text := GetText(l);
    var name := Name(l);
    if name in MarkdownHeadings then
      var level := name[1] as int - '0' as int;
      assert 2 <= level <= 4;
      var r := Repeat('#', level) + " " + text;
      assert r[|r| - |text|..] == text;
      r
    else if name == "li" then
      var r := "• " + text;
      assert r[|r| - |text|..] == text;
      r
    else text
  }

  /** `any(pattern.lower() in text.lower() for pattern in patterns)`, written as the source's early-return loop. */
  function ShouldExclude(text: string, patterns: seq<string>): (r: bool)
    ensures r <==> exists k :: 0 <= k < |patterns| && Contains(Lower(text), Lower(patterns[k]))
  {
    if patterns == [] then false
    else if Contains(Lower(text), Lower(patterns[0])) then true
    else
      var r := ShouldExclude(text, patterns[1..]);
      assert forall k :: 1 <= k < |patterns| ==> patterns[1..][k - 1] == patterns[k];
      r
  }

  /** No patterns exclude nothing; an empty pattern excludes everything. */
  lemma ExclusionEdgeCases(text: string, patterns: seq<string>)
    ensures !ShouldExclude(text, [])
    ensures "" in patterns ==> ShouldExclude(text, patterns)
  {
    if "" in patterns {
      var k :| 0 <= k < |patterns| && patterns[k] == "";
      ContainsEmpty(Lower(text));
      assert Lower(patterns[k]) == "";
    }
  }

  // ---------------------------------------------------------------------------
  // `_extract_content`.

  /** A text the content loop keeps: non-empty, long enough and not excluded. */
  predicate Keeps(text: string, minLength: int, patterns: seq<string>) {
    text != [] && |text| >= minLength && !ShouldExclude(text, patterns)
  }

  /** The kept texts, in order. */
  function KeptTexts(texts: seq<string>, minLength: int, patterns: seq<string>): (r: seq<string>)
    ensures |r| <= |texts|
    ensures forall x :: x in r <==> x in texts && Keeps(x, minLength, patterns)
  {
    if texts == [] then []
    else
      var rest := KeptTexts(texts[1..], minLength, patterns);
      assert forall x :: x in texts <==> x == texts[0] || x in texts[1..];
      if Keeps(texts[0], minLength, patterns) then [texts[0]] + rest else rest
  }

  /** The content loop keeps document order: filtering a split list filters each part, in order. */
  lemma {:induction false} KeptTextsAppend(a: seq<string>, b: seq<string>, minLength: int, patterns: seq<string>)
    ensures KeptTexts(a + b, minLength, patterns) == KeptTexts(a, minLength, patterns) + KeptTexts(b, minLength, patterns)
  {
    if a == [] {
      assert a + b == b;
    } else {
      assert (a + b)[0] == a[0];
      assert (a + b)[1..] == a[1..] + b;
      KeptTextsAppend(a[1..], b, minLength, patterns);
    }
  }

  /** The formatted text of every element. */
  function Processed(els: seq<Located>): (r: seq<string>)
    ensures |r| == |els|
    ensures forall i :: 0 <= i < |els| ==> r[i] == ProcessContentElement(els[i])
  {
    seq(|els|, i requires 0 <= i < |els| => ProcessContentElement(els[i]))
  }

  /** The stripped text of every element. */
  function Texts(els: seq<Located>): (r: seq<string>)
    ensures |r| == |els|
    ensures forall i :: 0 <= i < |els| ==> r[i] == GetText(els[i])
  {
    seq(|els|, i requires 0 <= i < |els| => GetText(els[i]))
  }

  /** The selector for the elements inside a content container. */
  function ElementSelector(t: Target): string {
    if t.contentElements != [] then Join(t.contentElements, ", ") else DefaultContentElements
  }

  /** What one content selector yields: nothing without a container, else its kept formatted elements. */
  function SelectorParts(t: Target, p: Page, sel: string): (r: seq<string>)
    ensures forall x :: x in r ==> Keeps(x, t.contentMinLength, t.excludeContentPatterns)
    ensures p.css.selectOne(sel).None? ==> r == []
    ensures p.css.selectOne(sel).Some? ==>
      forall e :: (e in p.css.selectWithin(p.css.selectOne(sel).value, ElementSelector(t))
                   && Keeps(ProcessContentElement(e), t.contentMinLength, t.excludeContentPatterns)
                   ==> ProcessContentElement(e) in r)
  {
    match p.css.selectOne(sel)
    case None => []
    case Some(c) =>
      var els := p.css.selectWithin(c, ElementSelector(t));
      var texts := Processed(els);
      assert forall e :: e in els ==> ProcessContentElement(e) in texts;
      KeptTexts(texts, t.contentMinLength, t.excludeContentPatterns)
  }

  /** The selector loop: the parts of the first selector that yields any. */
  function SelectorStage(t: Target, p: Page, sels: seq<string>): (r: seq<string>)
    ensures r == [] <==> forall j :: 0 <= j < |sels| ==> SelectorParts(t, p, sels[j]) == []
    ensures r != [] ==> exists i :: 0 <= i < |sels| && r == SelectorParts(t, p, sels[i])
  {
    if sels == [] then []
    else
      var first := SelectorParts(t, p, sels[0]);
      if first != [] then first
      else
        var r := SelectorStage(t, p, sels[1..]);
        assert forall j :: 1 <= j < |sels| ==> sels[1..][j - 1] == sels[j];
        r
  }

  /** The page-wide fallback: unformatted `p` texts at twice the minimum length. */
  function FallbackParts(t: Target, p: Page): (r: seq<string>)
    ensures forall x :: x in r ==> Keeps(x, 2 * t.contentMinLength, t.excludeContentPatterns)
    ensures forall e :: (e in p.css.select("p") && Keeps(GetText(e), 2 * t.contentMinLength, t.excludeContentPatterns)
                         ==> GetText(e) in r)
  {
    var els := p.css.select("p");
    var texts := Texts(els);
    assert forall e :: e in els ==> GetText(e) in texts;
    KeptTexts(texts, t.contentMinLength * 2, t.excludeContentPatterns)
  }

  /**
   The paragraphs `_extract_content` joins. Every one is non-empty, not
   excluded and at least `content_min_length` long, prefix included.
   */
  function ContentParts(t: Target, p: Page): (r: seq<string>)
    ensures forall x :: x in r ==> Keeps(x, t.contentMinLength, t.excludeContentPatterns)
  {
    var s := SelectorStage(t, p, t.contentSelectors);
    if s != [] then s else FallbackParts(t, p)
  }

  /**
   `_extract_content`: the parts joined by a blank line, in order; empty
   exactly when there are no parts, and every part occurs in it.
   */
  function ExtractContent(t: Target, p: Page): (r: string)
    ensures r == Join(ContentParts(t, p), PartSeparator)
    ensures r == [] <==> ContentParts(t, p) == []
    ensures forall x :: x in ContentParts(t, p) ==> Contains(r, x)
  {
    var parts := ContentParts(t, p);
    JoinHoldsEvery(parts, PartSeparator);
    Join(parts, PartSeparator)
  }

  /** The first selector that yields a part decides the content; later selectors are never looked at. */
  lemma FirstProductiveSelectorWins(t: Target, p: Page, i: nat)
    requires i < |t.contentSelectors|
    requires SelectorParts(t, p, t.contentSelectors[i]) != []
    requires forall j :: 0 <= j < i ==> SelectorParts(t, p, t.contentSelectors[j]) == []
    ensures ContentParts(t, p) == SelectorParts(t, p, t.contentSelectors[i])
  {
    FirstProductiveFrom(t, p, t.contentSelectors, i);
  }

  lemma {:induction false} FirstProductiveFrom(t: Target, p: Page, sels: seq<string>, i: nat)
    requires i < |sels|
    requires SelectorParts(t, p, sels[i]) != []
    requires forall j :: 0 <= j < i ==> SelectorParts(t, p, sels[j]) == []
    ensures SelectorStage(t, p, sels) == SelectorParts(t, p, sels[i])
  {
    if i > 0 {
      assert SelectorParts(t, p, sels[0]) == [];
      assert sels[1..][i - 1] == sels[i];
      FirstProductiveFrom(t, p, sels[1..], i - 1);
    }
  }

  /** When no selector yields a part, the content comes from page-wide paragraphs at the doubled threshold. */
  lemma FallbackWhenNoSelectorYields(t: Target, p: Page)
    requires forall j :: 0 <= j < |t.contentSelectors| ==> SelectorParts(t, p, t.contentSelectors[j]) == []
    ensures ContentParts(t, p) == FallbackParts(t, p)
    ensures forall x :: x in ContentParts(t, p) ==> |x| >= 2 * t.contentMinLength
  {
  }

  // ---------------------------------------------------------------------------
  // `_extract_author` and `_extract_author_byline`.

  /** The author an `author_selector` element gives: a `meta`'s `content`, else its text. */
  function SelectedAuthor(l: Located): (r: string)
    ensures Name(l) == "meta" && "content" in l.node.attrs ==> r == l.node.attrs["content"]
    ensures !(Name(l) == "meta" && "content" in l.node.attrs) ==> r == GetText(l)
  {
    if Name(l) == "meta" && "content" in l.node.attrs then l.node.attrs["content"] else GetText(l)
  }

  /** `select_one('meta[<attr>="<value>"]')['content']` when that first match has a `content`. */
  function MetaContent(doc: Node, attr: string, value: string): (r: Option<string>)
    ensures r.Some? ==> FirstMeta(Descendants(Root(doc)), attr, value).Some?
  {
    match FirstMeta(Descendants(Root(doc)), attr, value)
    case Some(m) => Attr(m, "content")
    case None => None
  }

  /** `re.search(r'By\s+', s)`: "By" followed by a whitespace character somewhere in `s`. */
  predicate HasByMark(s: string)
    decreases |s|
  {
    (|s| >= 3 && s[..2] == "By" && IsSpace(s[2])) || (|s| > 0 && HasByMark(s[1..]))
  }

  /** `soup.find(text=re.compile(r'By\s+'))`: the first string in document order with a match. */
  function FirstByline(ls: seq<Located>): (r: Option<string>)
    ensures r.Some? ==> HasByMark(r.value)
    ensures r.None? ==> forall l :: l in ls && l.node.TextNode? ==> !HasByMark(l.node.text)
  {
    if ls == [] then None
    else if ls[0].node.TextNode? && HasByMark(ls[0].node.text) then Some(ls[0].node.text)
    else FirstByline(ls[1..])
  }

  /** `s.split("|")[0].strip()`: no bar survives, and the result is stripped. */
  function BeforeBar(s: string): (r: string)
    ensures IsStripped(r) && '|' !in r
  {
    var cut := FirstField(s, "|");
    assert '|' !in cut by {
      forall i | 0 <= i < |cut|
        ensures cut[i] != '|'
      {
        assert !OccursAt(cut, "|", i);
      }
    }
    StripKeepsChars(cut);
    Strip(cut)
  }

  /** `s.split()[0] if s.split() else s` for a stripped `s`: its first word, or the empty string. */
  function FirstWord(s: string): (r: string)
    requires IsStripped(s)
    ensures forall i :: 0 <= i < |r| ==> !IsSpace(r[i])
    ensures r == [] <==> s == []
  {
    var words := SplitWs(s);
    if words != [] then
      assert words[0] in words;
      words[0]
    else s
  }

  /**
   The split applied to the byline string. With a bar, the stripped piece
   between the first "By " and the first bar (stopping early at a second "By ");
   without one, the first word after "By "; with no "By " at all, nothing.
   */
  function BylineAuthor(raw: string): (r: string)
    ensures !Contains(Strip(raw), "By ") ==> r == []
    ensures Contains(Strip(raw), "By ") && Contains(Strip(raw), "|") ==> IsStripped(r) && '|' !in r
    ensures !Contains(Strip(raw), "|") ==> forall i :: 0 <= i < |r| ==> !IsSpace(r[i])
  {
    var text := Strip(raw);
    if Contains(text, "By ") && Contains(text, "|") then BeforeBar(SecondField(text, "By "))
    else if Contains(text, "By ") then FirstWord(Strip(SecondField(text, "By ")))
    else []
  }

  /** `_extract_author_byline`. */
  function ExtractAuthorByline(doc: Node): (r: string)
    ensures FirstByline(Descendants(Root(doc))).None? ==> r == []
    ensures FirstByline(Descendants(Root(doc))).Some? ==> r == BylineAuthor(FirstByline(Descendants(Root(doc))).value)
  {
    match FirstByline(Descendants(Root(doc)))
    case Some(s) => BylineAuthor(s)
    case None => []
  }

  /** The first word of a stripped string that starts with a word followed by a space. */
  lemma FirstWordOf(w: string, more: string)
    requires w != [] && forall i :: 0 <= i < |w| ==> !IsSpace(w[i])
    requires more != [] && IsStripped(more)
    ensures IsStripped(w + " " + more)
    ensures FirstWord(w + " " + more) == w
  {
    var s := w + " " + more;
    assert s[0] == w[0] && s[|s| - 1] == more[|more| - 1];
    assert LStrip(s) == s;
    assert s == w + (" " + more);
    WordLengthPrefix(w, " " + more);
    assert SplitWs(s)[0] == s[..|w|];
  }

  /** In "By <name>", the first occurrence of "By " is the leading one and there is no second. */
  lemma LeadingByIsOnly(name: string, rest: string)
    requires !Contains(name, "By ") && '|' !in name
    ensures Contains("By " + name + rest, "By ")
    ensures rest == [] ==> SecondField("By " + name + rest, "By ") == name
    ensures rest != [] && rest[0] == '|' ==> StartsWith(SecondField("By " + name + rest, "By "), name + "|")
  {
    var text := "By " + name + rest;
    assert OccursAt(text, "By ", 0) by { assert text[0..3] == "By "; }
    ContainsIff(text, "By ");
    if rest == [] {
      assert text == "By " + name;
      SecondFieldOfLead("By ", name);
    } else if rest[0] == '|' {
      SecondFieldUpToBar("By ", name, rest);
    }
  }

  /** The text after a leading separator, when the separator does not recur. */
  lemma SecondFieldOfLead(sep: string, name: string)
    requires sep != [] && !Contains(name, sep)
    ensures Contains(sep + name, sep)
    ensures SecondField(sep + name, sep) == name
  {
    var text := sep + name;
    assert OccursAt(text, sep, 0) by { assert text[0..|sep|] == sep; }
    ContainsIff(text, sep);
    assert FindFrom(text, sep, 0) == 0;
    forall p | |sep| <= p
      ensures !OccursAt(text, sep, p)
    {
      NoSepAt(sep, name, [], p);
    }
    assert FindFrom(text, sep, |sep|) == -1;
    assert text[|sep|..] == name;
  }

  /** The text after a leading separator reaches past a bar that follows `name`, when the separator holds no bar. */
  lemma SecondFieldUpToBar(sep: string, name: string, rest: string)
    requires sep != [] && '|' !in sep && !Contains(name, sep)
    requires rest != [] && rest[0] == '|'
    ensures Contains(sep + name + rest, sep)
    ensures StartsWith(SecondField(sep + name + rest, sep), name + "|")
  {
    var text := sep + name + rest;
    LeadingSeparator(text, sep);
    NextSepAfterBar(sep, name, rest);
    var j := FindFrom(text, sep, |sep|);
    var e := if j == -1 then |text| else j;
    SecondFieldFromStart(text, sep);
    NameThenBar(sep, name, rest);
    SliceStartsWith(text, |sep|, e, name + "|");
  }

  /** The field after a leading separator runs up to the next separator, or to the end. */
  lemma SecondFieldFromStart(text: string, sep: string)
    requires Contains(text, sep) && FindFrom(text, sep, 0) == 0 && |sep| <= |text|
    ensures SecondField(text, sep)
            == text[|sep|..if FindFrom(text, sep, |sep|) == -1 then |text| else FindFrom(text, sep, |sep|)]
  {
  }

  lemma NameThenBar(sep: string, name: string, rest: string)
    requires rest != [] && rest[0] == '|'
    ensures (sep + name + rest)[|sep|..|sep| + |name| + 1] == name + "|"
  {
    var text := sep + name + rest;
    assert forall i :: 0 <= i < |name| ==> text[|sep| + i] == name[i];
    assert text[|sep| + |name|] == '|';
  }

  lemma SliceStartsWith(text: string, a: nat, e: nat, p: string)
    requires a + |p| <= e <= |text| && text[a..a + |p|] == p
    ensures StartsWith(text[a..e], p)
  {
    assert text[a..e][..|p|] == text[a..a + |p|];
  }

  /** A text that starts with `sep` contains it, first at 0. */
  lemma LeadingSeparator(text: string, sep: string)
    requires StartsWith(text, sep)
    ensures Contains(text, sep) && FindFrom(text, sep, 0) == 0
  {
    assert OccursAt(text, sep, 0) by { assert text[0..|sep|] == sep; }
    ContainsIff(text, sep);
  }

  /** After the leading separator, the next one starts only past the name and its bar. */
  lemma NextSepAfterBar(sep: string, name: string, rest: string)
    requires sep != [] && '|' !in sep && !Contains(name, sep)
    requires rest != [] && rest[0] == '|'
    ensures FindFrom(sep + name + rest, sep, |sep|) == -1 || FindFrom(sep + name + rest, sep, |sep|) > |name| + |sep|
  {
    var text := sep + name + rest;
    forall p | |sep| <= p <= |name| + |sep|
      ensures !OccursAt(text, sep, p)
    {
      NoSepAt(sep, name, rest, p);
    }
  }

  /** No separator starts inside `name`, nor across a bar that follows it, nor past the end. */
  lemma NoSepAt(sep: string, name: string, rest: string, p: nat)
    requires sep != [] && !Contains(name, sep)
    requires |sep| <= p
    requires p <= |name| || (p <= |name| + |sep| && rest != [] && rest[0] == '|' && '|' !in sep)
             || p + |sep| > |sep| + |name| + |rest|
    ensures !OccursAt(sep + name + rest, sep, p)
  {
    if p + |sep| <= |sep| + |name| + |rest| {
      if p <= |name| {
        NoSepInside(sep, name, rest, p);
      } else {
        NoSepAcrossBar(sep, name, rest, p);
      }
    }
  }

  lemma NoSepInside(sep: string, name: string, rest: string, p: nat)
    requires sep != [] && !Contains(name, sep)
    requires |sep| <= p <= |name|
    ensures !OccursAt(sep + name + rest, sep, p)
  {
    var text := sep + name + rest;
    ContainsIff(name, sep);
    assert !OccursAt(name, sep, p - |sep|);
    assert text[p..p + |sep|] == name[p - |sep|..p];
  }

  lemma NoSepAcrossBar(sep: string, name: string, rest: string, p: nat)
    requires '|' !in sep && rest != [] && rest[0] == '|'
    requires |name| < p <= |name| + |sep| && p + |sep| <= |sep| + |name| + |rest|
    ensures !OccursAt(sep + name + rest, sep, p)
  {
    var text := sep + name + rest;
    var q := |sep| + |name| - p;
    assert text[p..p + |sep|][q] == '|';
    assert sep[q] != '|';
  }

  /** The three branches of the byline split, on a string that is already stripped. */
  lemma BylineBranches(text: string)
    requires IsStripped(text)
    ensures Contains(text, "By ") && Contains(text, "|") ==> BylineAuthor(text) == BeforeBar(SecondField(text, "By "))
    ensures Contains(text, "By ") && !Contains(text, "|") ==> BylineAuthor(text) == FirstWord(Strip(SecondField(text, "By ")))
  {
    StripStripped(text);
  }

  /** A byline "By <name>" without a bar gives the first word of the name. */
  lemma BylineWithoutBar(name: string)
    requires name != [] && IsStripped(name)
    requires !Contains(name, "By ") && '|' !in name
    ensures BylineAuthor("By " + name) == FirstWord(name)
  {
    var text := "By " + name;
    assert text[0] == 'B' && text[|text| - 1] == name[|name| - 1];
    assert '|' !in text;
    MissingCharNotContained(text, "|", '|');
    LeadingByIsOnly(name, []);
    assert text + [] == text;
    StripStripped(name);
    BylineBranches(text);
  }

  /** Cutting at the first bar keeps what comes before it. */
  lemma CutAtBar(name: string, tail: string)
    requires '|' !in name
    ensures FirstField(name + "|" + tail, "|") == name
  {
    var s := name + "|" + tail;
    assert OccursAt(s, "|", |name|);
    forall j | 0 <= j < |name|
      ensures !OccursAt(s, "|", j)
    {
      assert s[j] == name[j];
    }
  }

  /** With a bar after the name, the whole stripped name survives, whatever follows the bar. */
  lemma BylineWithBar(name: string, rest: string)
    requires !Contains(name, "By ") && '|' !in name
    requires rest == [] || !IsSpace(rest[|rest| - 1])
    ensures BylineAuthor("By " + name + "|" + rest) == Strip(name)
  {
    var text := "By " + name + "|" + rest;
    BarBylineShape(name, rest);
    assert text == "By " + name + ("|" + rest);
    LeadingByIsOnly(name, "|" + rest);
    var second := SecondField(text, "By ");
    BeforeBarOfLead(name, second);
    BylineBranches(text);
  }

  /** "By <name>|<rest>" is stripped and holds a bar. */
  lemma BarBylineShape(name: string, rest: string)
    requires rest == [] || !IsSpace(rest[|rest| - 1])
    ensures IsStripped("By " + name + "|" + rest) && Contains("By " + name + "|" + rest, "|")
  {
    var text := "By " + name + "|" + rest;
    assert text[0] == 'B';
    if rest == [] {
      assert text[|text| - 1] == '|';
    } else {
      assert text[|text| - 1] == rest[|rest| - 1];
    }
    assert text[3 + |name|..][..1] == "|";
    ContainsSuffix(text, 3 + |name|, "|");
  }

  /** A field that starts with a bar-free name and a bar keeps just the stripped name. */
  lemma BeforeBarOfLead(name: string, second: string)
    requires '|' !in name && StartsWith(second, name + "|")
    ensures BeforeBar(second) == Strip(name)
  {
    var tail := second[|name| + 1..];
    assert second == second[..|name| + 1] + tail;
    CutAtBar(name, tail);
  }

  /** A byline "By <first> <last>" without a bar gives the first name only: "By Jane Doe" gives "Jane". */
  lemma BylineFirstNameOnly(first: string, last: string)
    requires first != [] && last != []
    requires forall i :: 0 <= i < |first| ==> !IsSpace(first[i]) && first[i] != 'B' && first[i] != '|'
    requires forall i :: 0 <= i < |last| ==> !IsSpace(last[i]) && last[i] != 'B' && last[i] != '|'
    ensures BylineAuthor("By " + (first + " " + last)) == first
  {
    var name := first + " " + last;
    FirstWordOf(first, last);
    assert 'B' !in name && '|' !in name;
    MissingCharNotContained(name, "By ", 'B');
    BylineWithoutBar(name);
  }

  /** The ordered author sources of `_extract_author`; an absent source is None. */
  function AuthorSources(t: Target, p: Page): seq<Option<string>> {
    [ if t.defaultAuthor != [] then Some(t.defaultAuthor) else None,
      if t.authorExtraction == BylineMode then Some(ExtractAuthorByline(p.doc)) else None,
      if t.authorSelector != [] && p.css.selectOne(t.authorSelector).Some?
      then Some(SelectedAuthor(p.css.selectOne(t.authorSelector).value)) else None,
      MetaContent(p.doc, "name", "author"),
      MetaContent(p.doc, "property", "article:author") ]
  }

  /** The first present value, or `fallback`. */
  function FirstPresent(xs: seq<Option<string>>, fallback: string): (r: string)
    ensures (forall i :: 0 <= i < |xs| ==> xs[i].None?) ==> r == fallback
    ensures forall i :: 0 <= i < |xs| && xs[i].Some? && (forall j :: 0 <= j < i ==> xs[j].None?) ==> r == xs[i].value
  {
    if xs == [] then fallback
    else if xs[0].Some? then xs[0].value
    else
      var r := FirstPresent(xs[1..], fallback);
      assert forall i :: 1 <= i < |xs| ==> xs[1..][i - 1] == xs[i];
      r
  }

  /** `_extract_author`, in the source's branch order. */
  function ExtractAuthor(t: Target, p: Page): (r: string)
    ensures t.defaultAuthor != [] ==> r == t.defaultAuthor
    ensures t.defaultAuthor == [] && t.authorExtraction == BylineMode ==> r == ExtractAuthorByline(p.doc)
  {
    if t.defaultAuthor != [] then t.defaultAuthor
    else if t.authorExtraction == BylineMode then ExtractAuthorByline(p.doc)
    else if t.authorSelector != [] && p.css.selectOne(t.authorSelector).Some? then
      SelectedAuthor(p.css.selectOne(t.authorSelector).value)
    else if MetaContent(p.doc, "name", "author").Some? then MetaContent(p.doc, "name", "author").value
    else if MetaContent(p.doc, "property", "article:author").Some? then MetaContent(p.doc, "property", "article:author").value
    else []
  }

  /** The author is the first present source in the order default, byline, selector, the two meta tags, else "". */
  lemma ExtractAuthorIsFirstPresent(t: Target, p: Page)
    ensures ExtractAuthor(t, p) == FirstPresent(AuthorSources(t, p), [])
  {
    var xs := AuthorSources(t, p);
    if xs[0].None? && xs[1].None? && xs[2].None? && xs[3].None? && xs[4].None? {
      assert forall i :: 0 <= i < |xs| ==> xs[i].None?;
    }
  }

  /** In byline mode without a default author, neither the selector nor the meta tags are consulted. */
  lemma BylineModeIgnoresSelectors(t: Target, p: Page, css: Css)
    requires t.defaultAuthor == [] && t.authorExtraction == BylineMode
    ensures ExtractAuthor(t, p) == ExtractAuthor(t, Page(p.doc, css))
  {
  }

  // ---------------------------------------------------------------------------
  // The link loop both discovery paths run over `select(article_link_selector)`.

  /** `link.get('href')`. */
  function LinkHref(l: Located): Option<string> {
    Attr(l.node, "href")
  }

  /** A link the loop follows: a non-empty `href` that contains the filter, when there is one. */
  predicate HrefPasses(href: Option<string>, filter: string) {
    href.Some? && href.value != [] && (filter == [] || Contains(href.value, filter))
  }

  /** The hrefs the link loop keeps, in link order and with repeats. */
  function AcceptedHrefs(links: seq<Located>, filter: string): (r: seq<string>)
    ensures |r| <= |links|
    ensures forall h :: h in r ==> h != [] && (filter == [] || Contains(h, filter))
    ensures forall l :: l in links && HrefPasses(LinkHref(l), filter) ==> LinkHref(l).value in r
  {
    if links == [] then []
    else
      var init := links[..|links| - 1];
      var last := links[|links| - 1];
      assert forall l :: l in links ==> l in init || l == last;
      AcceptedHrefs(init, filter) + (if HrefPasses(LinkHref(last), filter) then [LinkHref(last).value] else [])
  }

  /** A passing link appends its href even when an earlier link had the same one: nothing is deduplicated. */
  lemma RepeatedLinkKept(links: seq<Located>, l: Located, filter: string)
    requires HrefPasses(LinkHref(l), filter)
    ensures AcceptedHrefs(links + [l, l], filter) == AcceptedHrefs(links, filter) + [LinkHref(l).value, LinkHref(l).value]
  {
    assert (links + [l, l])[..|links| + 1] == links + [l];
    assert (links + [l])[..|links|] == links;
  }

  /** `[urljoin(base, href) for href in hrefs]`. */
  function ResolveAll(base: string, hrefs: seq<string>, resolve: (string, string) -> string): (r: seq<string>)
    ensures |r| == |hrefs|
    ensures forall i :: 0 <= i < |hrefs| ==> r[i] == resolve(base, hrefs[i])
  {
    if hrefs == [] then [] else [resolve(base, hrefs[0])] + ResolveAll(base, hrefs[1..], resolve)
  }
}

=== FILE: text.dfy ===
/**
 String helpers shared by every part of the scraper model.

 Python's `str.strip()`, `str.split()`, `str.lower()` and the regular-expression
 classes `\s` and `\d` are Unicode-aware; this model restricts them to their
 ASCII members (six whitespace characters, ASCII letters and digits).
 */
module Text {

  /** The whitespace characters recognised by `strip`, `split` and `\s`. */
  predicate IsSpace(c: char) {
    c == ' ' || c == '\t' || c == '\n' || c == '\r' || c == '\U{000B}' || c == '\U{000C}'
  }

  predicate IsUpper(c: char) { 'A' <= c <= 'Z' }

  predicate IsLower(c: char) { 'a' <= c <= 'z' }

  predicate IsLetter(c: char) { IsUpper(c) || IsLower(c) }

  predicate IsDigit(c: char) { '0' <= c <= '9' }

  /** The en dash `–` that several patterns accept as a separator. */
  const EnDash: char := '\U{2013}'

  function LowerChar(c: char): char {
    if IsUpper(c) then (c as int + 32) as char else c
  }

  /** `s.lower()` on ASCII letters. */
  function Lower(s: string): (r: string)
    ensures |r| == |s|
    ensures forall i :: 0 <= i < |s| ==> r[i] == LowerChar(s[i])
  {
    seq(|s|, i requires 0 <= i < |s| => LowerChar(s[i]))
  }

  /** A text without capitals is its own lower-case form. */
  lemma LowerFixed(s: string)
    requires forall i :: 0 <= i < |s| ==> !IsUpper(s[i])
    ensures Lower(s) == s
  {
  }

  lemma LowerAppend(a: string, b: string)
    ensures Lower(a + b) == Lower(a) + Lower(b)
  {
  }

  predicate AllSpace(s: string) {
    forall i :: 0 <= i < |s| ==> IsSpace(s[i])
  }

  /** `s.lstrip()`: the suffix of `s` that starts at its first non-space character. */
  function LStrip(s: string): (r: string)
    ensures |r| <= |s| && r == s[|s| - |r|..]
    ensures r == [] || !IsSpace(r[0])
    ensures AllSpace(s[..|s| - |r|])
  {
    if |s| > 0 && IsSpace(s[0]) then LStrip(s[1..]) else s
  }

  /** `s.rstrip()`: the prefix of `s` that ends at its last non-space character. */
  function RStrip(s: string): (r: string)
    ensures |r| <= |s| && r == s[..|r|]
    ensures r == [] || !IsSpace(r[|r| - 1])
    ensures AllSpace(s[|r|..])
  {
    if |s| > 0 && IsSpace(s[|s| - 1]) then
      var r := RStrip(s[..|s| - 1]);
      assert s[|r|..] == s[..|s| - 1][|r|..] + [s[|s| - 1]];
      r
    else s
  }

  /** `s.strip()`. */
  function Strip(s: string): (r: string)
    ensures |r| <= |s|
    ensures r == [] || (!IsSpace(r[0]) && !IsSpace(r[|r| - 1]))
    ensures IsStripped(r)
  {
    RStrip(LStrip(s))
  }

  predicate IsStripped(s: string) {
    s == [] || (!IsSpace(s[0]) && !IsSpace(s[|s| - 1]))
  }

  /** Stripping a string that has no surrounding whitespace changes nothing. */
  lemma StripStripped(s: string)
    requires IsStripped(s)
    ensures Strip(s) == s
  {
  }

  /** A string is empty after stripping exactly when it is all whitespace. */
  lemma StripEmptyIff(s: string)
    ensures Strip(s) == [] <==> AllSpace(s)
  {
  }

  lemma StripIdempotent(s: string)
    ensures Strip(Strip(s)) == Strip(s)
  {
    StripStripped(Strip(s));
  }

  predicate StartsWith(s: string, p: string) {
    |p| <= |s| && s[..|p|] == p
  }

  /** A text that differs from `p` at some position of `p` does not start with `p`. */
  lemma DiffersAt(s: string, p: string, i: nat)
    requires i < |p| && (i >= |s| || s[i] != p[i])
    ensures !StartsWith(s, p)
  {
    if |p| <= |s| {
      assert s[..|p|][i] == s[i];
    }
  }

  predicate EndsWith(s: string, p: string) {
    |p| <= |s| && s[|s| - |p|..] == p
  }

  /** `sub in s` for strings: `sub` occurs at some position of `s`. */
  predicate Contains(s: string, sub: string)
    decreases |s|
  {
    StartsWith(s, sub) || (|s| > 0 && Contains(s[1..], sub))
  }

  predicate OccursAt(s: string, sub: string, i: int) {
    0 <= i && i + |sub| <= |s| && s[i..i + |sub|] == sub
  }

  /** `Contains` agrees with the positional definition of an occurrence. */
  lemma {:induction false} ContainsIff(s: string, sub: string)
    ensures Contains(s, sub) <==> exists i :: OccursAt(s, sub, i)
    decreases |s|
  {
    if StartsWith(s, sub) {
      assert OccursAt(s, sub, 0);
    } else if |s| > 0 {
      ContainsIff(s[1..], sub);
      if Contains(s[1..], sub) {
        var i :| OccursAt(s[1..], sub, i);
        assert s[1..][i..i + |sub|] == s[i + 1..i + 1 + |sub|];
        assert OccursAt(s, sub, i + 1);
      }
      if exists i :: OccursAt(s, sub, i) {
        var i :| OccursAt(s, sub, i);
        assert i != 0;
        assert s[1..][i - 1..i - 1 + |sub|] == s[i..i + |sub|];
        assert OccursAt(s[1..], sub, i - 1);
      }
    }
  }

  /** The empty string occurs in every string. */
  lemma ContainsEmpty(s: string)
    ensures Contains(s, "")
  {
    assert StartsWith(s, "");
  }

  /** Every string contains itself. */
  lemma ContainsSelf(s: string)
    ensures Contains(s, s)
  {
    assert StartsWith(s, s);
  }

  /** An occurrence inside a suffix is an occurrence in the whole string. */
  lemma ContainsSuffix(s: string, k: nat, sub: string)
    requires k <= |s|
    requires Contains(s[k..], sub)
    ensures Contains(s, sub)
  {
    ContainsIff(s[k..], sub);
    var i :| OccursAt(s[k..], sub, i);
    assert s[k..][i..i + |sub|] == s[k + i..k + i + |sub|];
    assert OccursAt(s, sub, k + i);
    ContainsIff(s, sub);
  }

  /** `any(phrase in s for phrase in phrases)`. */
  predicate MentionsAny(s: string, phrases: seq<string>) {
    if phrases == [] then false else Contains(s, phrases[0]) || MentionsAny(s, phrases[1..])
  }

  lemma {:induction false} MentionsAnyIff(s: string, phrases: seq<string>)
    ensures MentionsAny(s, phrases) <==> exists k :: 0 <= k < |phrases| && Contains(s, phrases[k])
  {
    if phrases != [] {
      MentionsAnyIff(s, phrases[1..]);
      if exists k :: 0 <= k < |phrases| && Contains(s, phrases[k]) {
        var k :| 0 <= k < |phrases| && Contains(s, phrases[k]);
        if k > 0 { assert phrases[1..][k - 1] == phrases[k]; }
      }
      if MentionsAny(s, phrases[1..]) {
        var k :| 0 <= k < |phrases[1..]| && Contains(s, phrases[1..][k]);
        assert phrases[k + 1] == phrases[1..][k];
      }
    }
  }

  /** One of `words` is a prefix of `t`. */
  predicate StartsWithAny(t: string, words: seq<string>) {
    exists k :: 0 <= k < |words| && StartsWith(t, words[k])
  }

  /** `s.find(sub, i)`: the first occurrence of `sub` at or after `i`, or -1. */
  function FindFrom(s: string, sub: string, i: nat): (r: int)
    requires i <= |s|
    ensures r == -1 || (i <= r && OccursAt(s, sub, r))
    ensures forall j :: i <= j && (r == -1 || j < r) ==> !OccursAt(s, sub, j)
    decreases |s| - i
  {
    if i + |sub| > |s| then -1
    else if s[i..i + |sub|] == sub then i
    else FindFrom(s, sub, i + 1)
  }

  /** A string that contains `sub` has a first occurrence of it. */
  lemma FindContained(s: string, sub: string)
    requires Contains(s, sub)
    ensures FindFrom(s, sub, 0) != -1
  {
    ContainsIff(s, sub);
    var i :| OccursAt(s, sub, i);
    assert 0 <= i;
  }

  /** `s.split(sep)[0]`: everything before the first occurrence of `sep`, or all of `s`. */
  function FirstField(s: string, sep: string): (r: string)
    ensures StartsWith(s, r)
    ensures sep != [] ==> forall i :: 0 <= i < |r| ==> !OccursAt(r, sep, i)
  {
    var i := FindFrom(s, sep, 0);
    var r := if i == -1 then s else s[..i];
    assert forall j :: 0 <= j < |r| && OccursAt(r, sep, j) ==> OccursAt(s, sep, j);
    r
  }

  /**
   `s.split(sep)[1]` for an `s` that contains `sep`: what lies between the
   first occurrence of `sep` and the next one, or the end of `s`.
   */
  function SecondField(s: string, sep: string): (r: string)
    requires Contains(s, sep)
    ensures exists k :: OccursAt(s, sep, k) && StartsWith(s[k + |sep|..], r)
  {
    FindContained(s, sep);
    var i := FindFrom(s, sep, 0);
    var j := FindFrom(s, sep, i + |sep|);
    var r := s[i + |sep|..if j == -1 then |s| else j];
    assert StartsWith(s[i + |sep|..], r);
    r
  }

  /** Stripping only removes characters. */
  lemma StripKeepsChars(s: string)
    ensures forall c :: c in Strip(s) ==> c in s
  {
    var l := LStrip(s);
    var r := RStrip(l);
    assert Strip(s) == r;
    forall c | c in r
      ensures c in s
    {
      var i :| 0 <= i < |r| && r[i] == c;
      assert l[..|r|][i] == c;
      assert s[|s| - |l|..][i] == c;
    }
  }

  /** The end of the whitespace run that starts at `k`. */
  function SkipSpace(t: string, k: nat): (p: nat)
    requires k <= |t|
    ensures k <= p <= |t|
    ensures AllSpace(t[k..p])
    ensures p == |t| || !IsSpace(t[p])
    decreases |t| - k
  {
    if k < |t| && IsSpace(t[k]) then
      var p := SkipSpace(t, k + 1);
      assert t[k..p] == [t[k]] + t[k + 1..p];
      p
    else k
  }

  /** Skipping spaces stops at the first character that is not one. */
  lemma {:induction false} SkipSpaceStopsAt(t: string, k: nat, e: nat)
    requires k <= e < |t| && !IsSpace(t[e])
    ensures SkipSpace(t, k) <= e
    decreases e - k
  {
    if k < e && IsSpace(t[k]) {
      SkipSpaceStopsAt(t, k + 1, e);
    }
  }

  /** The end of the run of ASCII digits that starts at `k`. */
  function DigitRun(t: string, k: nat): (p: nat)
    requires k <= |t|
    ensures k <= p <= |t|
    ensures forall i :: k <= i < p ==> IsDigit(t[i])
    ensures p == |t| || !IsDigit(t[p])
    decreases |t| - k
  {
    if k < |t| && IsDigit(t[k]) then DigitRun(t, k + 1) else k
  }

  /** A string lacking one of the characters of `sub` does not contain `sub`. */
  lemma MissingCharNotContained(s: string, sub: string, c: char)
    requires c in sub && c !in s
    ensures !Contains(s, sub)
  {
    ContainsIff(s, sub);
  }

  /** A run of non-space characters ended by a space or the end is one word long. */
  lemma {:induction false} WordLengthPrefix(w: string, rest: string)
    requires forall i :: 0 <= i < |w| ==> !IsSpace(w[i])
    requires rest == [] || IsSpace(rest[0])
    ensures WordLength(w + rest) == |w|
  {
    if w != [] {
      assert (w + rest)[1..] == w[1..] + rest;
      WordLengthPrefix(w[1..], rest);
    } else {
      assert w + rest == rest;
    }
  }

  /** `sep.join(parts)`. */
  function Join(parts: seq<string>, sep: string): (r: string)
    ensures parts == [] ==> r == []
    ensures |parts| == 1 ==> r == parts[0]
  {
    if parts == [] then []
    else if |parts| == 1 then parts[0]
    else parts[0] + sep + Join(parts[1..], sep)
  }

  /**
   Appending a part appends the separator and the part: `sep.join` puts the
   separator exactly between consecutive parts, in their order.
   */
  lemma {:induction false} JoinAppend(parts: seq<string>, sep: string, x: string)
    requires parts != []
    ensures Join(parts + [x], sep) == Join(parts, sep) + sep + x
    decreases |parts|
  {
    if |parts| == 1 {
      assert parts + [x] == [parts[0], x];
      assert [parts[0], x][1..] == [x];
    } else {
      assert (parts + [x])[1..] == parts[1..] + [x];
      JoinAppend(parts[1..], sep, x);
    }
  }

  /** Every part occurs in the joined string. */
  lemma {:induction false} JoinContainsPart(parts: seq<string>, sep: string, i: nat)
    requires i < |parts|
    ensures Contains(Join(parts, sep), parts[i])
    decreases |parts|
  {
    var s := Join(parts, sep);
    if |parts| == 1 {
      ContainsSelf(parts[0]);
    } else if i == 0 {
      assert s[..|parts[0]|] == parts[0];
      assert StartsWith(s, parts[0]);
    } else {
      JoinContainsPart(parts[1..], sep, i - 1);
      assert s[|parts[0] + sep|..] == Join(parts[1..], sep);
      ContainsSuffix(s, |parts[0] + sep|, parts[i]);
    }
  }

  /** Every part occurs in the joined string, and non-empty parts join to the empty string only when there are none. */
  lemma JoinHoldsEvery(parts: seq<string>, sep: string)
    ensures forall x :: x in parts ==> Contains(Join(parts, sep), x)
    ensures (forall x :: x in parts ==> x != []) ==> (Join(parts, sep) == [] <==> parts == [])
  {
    forall x | x in parts
      ensures Contains(Join(parts, sep), x)
    {
      var i :| 0 <= i < |parts| && parts[i] == x;
      JoinContainsPart(parts, sep, i);
    }
    if forall x :: x in parts ==> x != [] {
      assert forall i :: 0 <= i < |parts| ==> parts[i] in parts;
      JoinEmptyIff(parts, sep);
    }
  }

  /** Joining non-empty parts gives the empty string only when there are no parts. */
  lemma JoinEmptyIff(parts: seq<string>, sep: string)
    requires forall i :: 0 <= i < |parts| ==> parts[i] != []
    ensures Join(parts, sep) == [] <==> parts == []
  {
    if |parts| > 1 {
      assert |Join(parts, sep)| >= |parts[0]|;
    }
  }

  /** `c * n` for a one-character string `c`. */
  function Repeat(c: char, n: nat): (r: string)
    ensures |r| == n
    ensures forall i :: 0 <= i < n ==> r[i] == c
  {
    if n == 0 then [] else [c] + Repeat(c, n - 1)
  }

  /** A non-empty run of non-whitespace characters. */
  predicate IsWord(w: string) {
    w != [] && forall i :: 0 <= i < |w| ==> !IsSpace(w[i])
  }

  /** `s.split()`: the maximal runs of non-whitespace characters, in order. */
  function SplitWs(s: string): (r: seq<string>)
    ensures forall w :: w in r ==> IsWord(w)
    decreases |s|
  {
    var t := LStrip(s);
    if t == [] then []
    else
      var n := WordLength(t);
      assert IsWord(t[..n]);
      [t[..n]] + SplitWs(t[n..])
  }

  /** The length of the leading run of non-whitespace characters. */
  function WordLength(s: string): (n: nat)
    ensures n <= |s|
    ensures forall i :: 0 <= i < n ==> !IsSpace(s[i])
    ensures n == |s| || IsSpace(s[n])
    ensures s != [] && !IsSpace(s[0]) ==> n > 0
  {
    if s == [] || IsSpace(s[0]) then 0 else 1 + WordLength(s[1..])
  }

  /** `re.sub(r'\s+', ' ', s)`: every run of whitespace becomes one space. */
  function CollapseSpaces(s: string): (r: string)
    ensures |r| <= |s|
    ensures forall i :: 0 <= i < |r| && IsSpace(r[i]) ==> r[i] == ' '
    ensures forall i :: 0 <= i < |r| - 1 ==> !(IsSpace(r[i]) && IsSpace(r[i + 1]))
    decreases |s|
  {
    if s == [] then []
    else if IsSpace(s[0]) then
      var rest := LStrip(s);
      [' '] + CollapseSpacesWord(rest)
    else CollapseSpacesWord(s)
  }

  /** Collapses a string that does not start with whitespace. */
  function CollapseSpacesWord(s: string): (r: string)
    requires s == [] || !IsSpace(s[0])
    ensures |r| <= |s|
    ensures r == [] || !IsSpace(r[0])
    ensures forall i :: 0 <= i < |r| && IsSpace(r[i]) ==> r[i] == ' '
    ensures forall i :: 0 <= i < |r| - 1 ==> !(IsSpace(r[i]) && IsSpace(r[i + 1]))
    decreases |s|, 0
  {
    if s == [] then []
    else
      var n := WordLength(s);
      var rest := s[n..];
      if rest == [] then s
      else
        var tail := CollapseSpaces(rest);
        s[..n] + tail
  }

  /** Every whitespace character is a space, and no two whitespace characters are adjacent. */
  predicate SingleSpaced(s: string) {
    (forall i :: 0 <= i < |s| && IsSpace(s[i]) ==> s[i] == ' ')
    && (forall i :: 0 <= i < |s| - 1 ==> !(IsSpace(s[i]) && IsSpace(s[i + 1])))
  }

  /** Any slice of a single-spaced text is single-spaced. */
  lemma SliceSingleSpaced(s: string, a: nat, b: nat)
    requires a <= b <= |s| && SingleSpaced(s)
    ensures SingleSpaced(s[a..b])
  {
    var u := s[a..b];
    assert forall i :: 0 <= i < |u| ==> u[i] == s[a + i];
  }

  /** Stripping keeps a single-spaced text single-spaced: it only removes an outer part. */
  lemma StripKeepsSingleSpaced(s: string)
    requires SingleSpaced(s)
    ensures SingleSpaced(Strip(s))
  {
    var l := LStrip(s);
    SliceSingleSpaced(s, |s| - |l|, |s|);
    SliceSingleSpaced(l, 0, |RStrip(l)|);
  }

  /** The collapse leaves a single-spaced text. */
  lemma CollapseSingleSpaced(s: string)
    ensures SingleSpaced(CollapseSpaces(s))
  {
  }

  /** A text whose whitespace is already single spaces is its own collapse. */
  lemma {:induction false} CollapseFixed(s: string)
    requires forall i :: 0 <= i < |s| && IsSpace(s[i]) ==> s[i] == ' '
    requires forall i :: 0 <= i < |s| - 1 ==> !(IsSpace(s[i]) && IsSpace(s[i + 1]))
    ensures CollapseSpaces(s) == s
    decreases |s|, 1
  {
    if s != [] {
      if IsSpace(s[0]) {
        assert LStrip(s[1..]) == s[1..];
        CollapseWordFixed(s[1..]);
      } else {
        CollapseWordFixed(s);
      }
    }
  }

  lemma {:induction false} CollapseWordFixed(s: string)
    requires s == [] || !IsSpace(s[0])
    requires forall i :: 0 <= i < |s| && IsSpace(s[i]) ==> s[i] == ' '
    requires forall i :: 0 <= i < |s| - 1 ==> !(IsSpace(s[i]) && IsSpace(s[i + 1]))
    ensures CollapseSpacesWord(s) == s
    decreases |s|, 0
  {
    if s != [] {
      var n := WordLength(s);
      if s[n..] != [] {
        CollapseFixed(s[n..]);
        assert s[..n] + s[n..] == s;
      }
    }
  }

  /** `str(n)` for a natural number. */
  function NatToString(n: nat): (r: string)
    ensures r != []
    ensures forall i :: 0 <= i < |r| ==> IsDigit(r[i])
  {
    if n < 10 then [('0' as int + n) as char]
    else NatToString(n / 10) + [('0' as int + n % 10) as char]
  }
}

=== FILE: title.dfy ===
/**
 The title cascade of the heuristic scraper: meta titles, then the `<title>`
 tag with its site suffix cut off, then the longest article-like `h1`, then a
 fixed placeholder.
 */
module Title {
  import opened Text
  import opened Common
  import opened Dom

  const NoTitle: string := "No Title Found"

  /** The stripped `content` of the first meta tag whose `attr` is `value`, if non-empty and longer than 5. */
  function MetaTitleFrom(doc: Node, attr: string, value: string): (r: Option<string>)
    ensures r.Some? ==> |r.value| > 5 && IsStripped(r.value)
    ensures r.Some? <==> exists m, c :: FirstMeta(Elements(doc), attr, value) == Some(m)
                                       && Attr(m, "content") == Some(c) && |Strip(c)| > 5
    ensures forall m, c :: (FirstMeta(Elements(doc), attr, value) == Some(m) && Attr(m, "content") == Some(c)
                            && |Strip(c)| > 5) ==> r == Some(Strip(c))
  {
    match FirstMeta(Elements(doc), attr, value)
    case None => None
    case Some(m) =>
      match Attr(m, "content")
      case None => None
      case Some(c) => if c != [] && |Strip(c)| > 5 then Some(Strip(c)) else None
  }

  /** Strategy 1: `og:title`, then `name="title"`. */
  function MetaTitle(doc: Node): (r: Option<string>)
    ensures r.Some? ==> |r.value| > 5 && IsStripped(r.value)
    ensures MetaTitleFrom(doc, "property", "og:title").Some? ==> r == MetaTitleFrom(doc, "property", "og:title")
    ensures MetaTitleFrom(doc, "property", "og:title").None? ==> r == MetaTitleFrom(doc, "name", "title")
  {
    var og := MetaTitleFrom(doc, "property", "og:title");
    if og.Some? then og else MetaTitleFrom(doc, "name", "title")
  }

  predicate IsSuffixSeparator(c: char) { c == '|' || c == '-' || c == EnDash }

  /**
   A separator at `j` can start the suffix `\s*[|\-–]\s*[^|]*$`: it is one of
   `|`, `-`, `–` and no `|` follows it.
   */
  predicate CutsAt(t: string, j: int) {
    0 <= j < |t| && IsSuffixSeparator(t[j]) && '|' !in t[j + 1..]
  }

  /** The leftmost position where the suffix can begin, at or after `j`. */
  function FirstCut(t: string, j: nat): (r: int)
    requires j <= |t|
    ensures r == -1 || (j <= r && CutsAt(t, r))
    ensures forall k :: j <= k && (r == -1 || k < r) ==> !CutsAt(t, k)
    decreases |t| - j
  {
    if j == |t| then -1
    else if CutsAt(t, j) then j
    else FirstCut(t, j + 1)
  }

  /** The start of the whitespace run that ends just before `j`. */
  function RunStart(t: string, j: nat): (r: nat)
    requires j <= |t|
    ensures r <= j
    ensures AllSpace(t[r..j])
    ensures r == 0 || !IsSpace(t[r - 1])
  {
    if j > 0 && IsSpace(t[j - 1]) then
      var r := RunStart(t, j - 1);
      assert t[r..j] == t[r..j - 1] + [t[j - 1]];
      r
    else j
  }

  /**
   `re.sub(r'\s*[\|\-\–]\s*[^|]*$', '', t)`. The leftmost match starts at the
   whitespace run before the leftmost separator that has no `|` after it, and
   runs to the end; everything from there on is removed. So "Step-by-step
   guide" keeps only "Step".
   */
  function CutSiteSuffix(t: string): (r: string)
    ensures |r| <= |t| && r == t[..|r|]
    ensures (forall k :: !CutsAt(t, k)) ==> r == t
    ensures (exists k :: CutsAt(t, k)) ==>
      exists j :: |r| <= j && CutsAt(t, j) && AllSpace(t[|r|..j])
        && (forall k :: 0 <= k < j ==> !CutsAt(t, k))
        && (r == [] || !IsSpace(r[|r| - 1]))
  {
    var j := FirstCut(t, 0);
    if j == -1 then t else t[..RunStart(t, j)]
  }

  /** With no separator before `j` and a cut at `j`, the leftmost cut from `i` is `j`. */
  lemma {:induction false} FirstCutAt(t: string, i: nat, j: nat)
    requires i <= j && CutsAt(t, j)
    requires forall k :: i <= k < j ==> !IsSuffixSeparator(t[k])
    ensures FirstCut(t, i) == j
    decreases j - i
  {
    if i < j {
      FirstCutAt(t, i + 1, j);
    }
  }

  lemma CutStepByStep()
    ensures CutSiteSuffix("Step-by-step guide") == "Step"
  {
    var t := "Step-by-step guide";
    assert '|' !in t[5..];
    assert forall k :: 0 <= k < 4 ==> !IsSuffixSeparator(t[k]);
    FirstCutAt(t, 0, 4);
    assert RunStart(t, 4) == 4;
    assert t[..4] == "Step";
  }

  lemma CutExampleBlog()
    ensures CutSiteSuffix("My Post - Example Blog") == "My Post"
  {
    var t := "My Post - Example Blog";
    assert '|' !in t[9..];
    assert forall k :: 0 <= k < 8 ==> !IsSuffixSeparator(t[k]);
    FirstCutAt(t, 0, 8);
    assert RunStart(t, 7) == 7;
    assert RunStart(t, 8) == 7;
    assert t[..7] == "My Post";
  }

  /** Strategy 2: the `<title>` text with its suffix cut, if longer than 5. */
  function TagTitle(doc: Node): (r: Option<string>)
    ensures r.Some? ==> |r.value| > 5
    ensures r.Some? ==> exists t :: FirstWithTag(Descendants(Root(doc)), "title") == Some(t)
                                   && StartsWith(GetText(t), r.value)
    ensures r.Some? <==> exists t :: FirstWithTag(Descendants(Root(doc)), "title") == Some(t)
                                    && |CutSiteSuffix(GetText(t))| > 5
    ensures forall t :: (FirstWithTag(Descendants(Root(doc)), "title") == Some(t)
                         && |CutSiteSuffix(GetText(t))| > 5) ==> r == Some(CutSiteSuffix(GetText(t)))
  {
    match FirstWithTag(Descendants(Root(doc)), "title")
    case None => None
    case Some(t) =>
      var cut := CutSiteSuffix(GetText(t));
      if |cut| > 5 then Some(cut) else None
  }

  /** `^[a-z]+\.(com|io|org|net)$` on an already lower-cased string, `$` also before a final newline. */
  predicate IsDomainLike(s: string) {
    var u := if |s| > 0 && s[|s| - 1] == '\n' then s[..|s| - 1] else s;
    exists tld :: tld in ["com", "io", "org", "net"] &&
      |u| > |tld| + 1 && EndsWith(u, "." + tld)
      && forall i :: 0 <= i < |u| - |tld| - 1 ==> IsLower(u[i])
  }

  /** `^(home|blog|news|articles?)$` on a lower-cased string. */
  predicate IsSiteWord(s: string) {
    exists w :: w in ["home", "blog", "news", "article", "articles"] && (s == w || s == w + "\n")
  }

  /** `_is_likely_site_title`: inside `header`/`nav`, shorter than 10, or a site word or bare domain. */
  predicate IsLikelySiteTitle(h: Located, text: string) {
    HasAncestorTag(h, {"header", "nav"})
    || |text| < 10
    || IsSiteWord(Lower(text))
    || IsDomainLike(Lower(text))
  }

  /** The `h1`s whose text is longer than 10 and that do not look like a site title. */
  function ContentH1s(hs: seq<Located>): (r: seq<Located>)
    ensures forall h :: h in r ==> h in hs && |GetText(h)| > 10 && !IsLikelySiteTitle(h, GetText(h))
    ensures forall h :: h in hs && |GetText(h)| > 10 && !IsLikelySiteTitle(h, GetText(h)) ==> h in r
  {
    if hs == [] then []
    else
      var t := GetText(hs[0]);
      (if |t| > 10 && !IsLikelySiteTitle(hs[0], t) then [hs[0]] else []) + ContentH1s(hs[1..])
  }

  function TextLengths(hs: seq<Located>): (r: seq<int>)
    ensures |r| == |hs| && forall i :: 0 <= i < |hs| ==> r[i] == |GetText(hs[i])|
  {
    seq(|hs|, i requires 0 <= i < |hs| => |GetText(hs[i])|)
  }

  /**
   `text` is the text of the first element of `hs` whose text is the longest,
   as `max` with a length key picks it, and that element is not inside
   `header`/`nav`.
   */
  predicate IsFirstLongest(hs: seq<Located>, text: string) {
    exists i :: 0 <= i < |hs| && GetText(hs[i]) == text
      && !HasAncestorTag(hs[i], {"header", "nav"})
      && (forall j :: 0 <= j < |hs| ==> |GetText(hs[j])| <= |text|)
      && (forall j :: 0 <= j < i ==> |GetText(hs[j])| < |text|)
  }

  /**
   The longest content `h1` text. The source also requires it to be longer
   than 5, which always holds: every content `h1` text is longer than 10.
   */
  function BestH1(hs: seq<Located>): (r: Option<string>)
    requires forall h :: h in hs ==> |GetText(h)| > 10 && !HasAncestorTag(h, {"header", "nav"})
    ensures r.None? <==> hs == []
    ensures r.Some? ==> IsFirstLongest(hs, r.value)
    ensures r.Some? ==> |r.value| > 10
  {
    if hs == [] then None
    else
      var i := FirstMax(TextLengths(hs));
      assert hs[i] in hs;
      Some(GetText(hs[i]))
  }

  /**
   Strategy 3: among the content `h1`s, the first one with the longest text;
   its text is longer than 10 and it is never inside `header`/`nav`.
   */
  function H1Title(doc: Node): (r: Option<string>)
    ensures r.Some? ==> IsFirstLongest(ContentH1s(FindAll(Root(doc), {"h1"})), r.value)
    ensures r.Some? ==> |r.value| > 10
    ensures r.None? <==> ContentH1s(FindAll(Root(doc), {"h1"})) == []
  {
    var hs := ContentH1s(FindAll(Root(doc), {"h1"}));
    BestH1(hs)
  }

  /**
   `_extract_title`: the first strategy that yields a title, else the
   placeholder. Every title returned is longer than 5 characters.
   */
  function ExtractTitle(doc: Node): (r: string)
    ensures |r| > 5
    ensures r == NoTitle || MetaTitle(doc) == Some(r) || TagTitle(doc) == Some(r) || H1Title(doc) == Some(r)
  {
    match MetaTitle(doc)
    case Some(t) => t
    case None =>
      match TagTitle(doc)
      case Some(t) => t
      case None =>
        match H1Title(doc)
        case Some(t) => t
        case None => NoTitle
  }

  /**
   The cascade order: a meta title beats everything; otherwise the `<title>`
   tag wins over every `h1` whenever its cut text is longer than 5, however
   long the `h1` is; the `h1` is consulted only when both fail, and the
   placeholder only when all three do.
   */
  lemma TitleCascadeOrder(doc: Node)
    ensures MetaTitle(doc).Some? ==> ExtractTitle(doc) == MetaTitle(doc).value
    ensures MetaTitle(doc).None? && TagTitle(doc).Some? ==> ExtractTitle(doc) == TagTitle(doc).value
    ensures MetaTitle(doc).None? && TagTitle(doc).None? && H1Title(doc).Some? ==> ExtractTitle(doc) == H1Title(doc).value
    ensures MetaTitle(doc).None? && TagTitle(doc).None? && H1Title(doc).None? ==> ExtractTitle(doc) == NoTitle
  {
  }
}

=== FILE: universal_scrape.dfy ===
/**
 `UniversalScraper.scrape_url` over abstract fetch outcomes: the plain fetch,
 the optional rendering-service retries, the content-length gate and the
 record it builds.
 */
module UniversalScrape {
  import opened Common
  import opened Dom
  import opened Title
  import opened ContentDetector
  import opened ContentFormat
  import opened AuthorCascade
  import opened Links

  const MinContentLength := 50

  /**
   Whether a rendering service is configured and what each of its calls in
   `scrape_url` returns: after a network failure, when no content area was
   found, and when the content was too short.
   */
  datatype Retries = NoRetries | Retries(onFailure: Option<Node>, onNoArea: Option<Node>, onThinContent: Option<Node>)

  /** `content and len(content) >= 50`. */
  predicate Sufficient(content: string) { content != [] && |content| >= MinContentLength }

  /** The page the processing stage starts from, or None when the fetch stage returns. */
  function FirstPage(fetch: Fetch, zen: Retries): (r: Option<Node>)
    ensures fetch.Fetched? ==> r == Some(fetch.doc)
    ensures fetch.OtherFailure? ==> r.None?
    ensures fetch.NetworkFailure? ==> r == (if zen.Retries? then zen.onFailure else None)
  {
    match fetch
    case Fetched(d) => Some(d)
    case NetworkFailure => if zen.Retries? then zen.onFailure else None
    case OtherFailure => None
  }

  /** The content-area stage: the page that finally held an area, and the area. */
  function AreaStage(page: Node, zen: Retries): (r: Option<(Node, Located)>)
    ensures r.Some? ==> FindMainContentArea(r.value.0) == Some(r.value.1)
    ensures FindMainContentArea(page).Some? ==> r == Some((page, FindMainContentArea(page).value))
    ensures FindMainContentArea(page).None? && zen.NoRetries? ==> r.None?
  {
    match FindMainContentArea(page)
    case Some(a) => Some((page, a))
    case None =>
      if zen.NoRetries? || zen.onNoArea.None? then None
      else
        match FindMainContentArea(zen.onNoArea.value)
        case Some(a) => Some((zen.onNoArea.value, a))
        case None => None
  }

  /** The record, once the author cascade has run on the page the content came from. */
  function Finish(url: string, title: string, content: string, page: Node, src: AuthorSources): (r: Option<Item>)
    requires WellFormedSources(src)
    ensures r.Some? <==> ExtractAuthor(page, src).Returned?
    ensures r.Some? ==> r.value == Item(title, content, None, url, ExtractAuthor(page, src).value, "", None)
  {
    match ExtractAuthor(page, src)
    case Raised => None
    case Returned(a) => Some(Item(title, content, None, url, a, "", None))
  }

  /** The formatted content of a page's main content area, if it has one. */
  function ContentOf(page: Node): Option<string> {
    match FindMainContentArea(page)
    case Some(a) => Some(ExtractContentFromArea(a))
    case None => None
  }

  /**
   The content stage: the page whose content is used and that content, which
   is always at least 50 characters long. A short first result is retried
   once on a rendered page.
   */
  function ContentStage(page: Node, zen: Retries): (r: Option<(Node, string)>)
    ensures r.Some? ==> Sufficient(r.value.1) && ContentOf(r.value.0) == Some(r.value.1)
    ensures zen.NoRetries? ==> r == (if ContentOf(page).Some? && Sufficient(ContentOf(page).value)
                                     then Some((page, ContentOf(page).value)) else None)
  {
    match AreaStage(page, zen)
    case None => None
    case Some(found) =>
      var content := ExtractContentFromArea(found.1);
      if Sufficient(content) then Some((found.0, content))
      else if zen.NoRetries? || zen.onThinContent.None? then None
      else
        var retry := zen.onThinContent.value;
        match ContentOf(retry)
        case None => None
        case Some(again) => if Sufficient(again) then Some((retry, again)) else None
  }

  /**
   `scrape_url`. `sources` gives, for a page, what the author cascade reads
   from it. A record is built only from content of at least 50 characters, with
   an empty `user_id`; the title always comes from the first page, while the
   content and author may come from a rendered retry.
   */
  function ScrapeUrl(url: string, fetch: Fetch, zen: Retries, sources: Node -> AuthorSources): (r: Option<Item>)
    requires forall d :: WellFormedSources(sources(d))
    ensures FirstPage(fetch, zen).None? ==> r.None?
    ensures r.Some? ==>
      |r.value.content| >= MinContentLength && r.value.userId == "" && r.value.sourceUrl == url
      && r.value.contentType.None? && r.value.scrapedWith.None?
      && r.value.title == ExtractTitle(FirstPage(fetch, zen).value)
    ensures r.Some? ==>
      exists page: Node ::
        ContentOf(page) == Some(r.value.content) && ExtractAuthor(page, sources(page)) == Returned(r.value.author)
    ensures fetch.Fetched? && zen.NoRetries? ==>
      (r.Some? <==> ContentOf(fetch.doc).Some? && Sufficient(ContentOf(fetch.doc).value)
                    && ExtractAuthor(fetch.doc, sources(fetch.doc)).Returned?)
  {
    match FirstPage(fetch, zen)
    case None => None
    case Some(page) =>
      match ContentStage(page, zen)
      case None => None
      case Some(found) => Finish(url, ExtractTitle(page), found.1, found.0, sources(found.0))
  }

  /** A page without any positive-scoring content area gives no record unless a retry supplies one. */
  lemma NoAreaNoRecord(url: string, doc: Node, sources: Node -> AuthorSources)
    requires forall d :: WellFormedSources(sources(d))
    requires forall c :: c in Proposals(doc) ==> c.score == 0
    ensures ScrapeUrl(url, Fetched(doc), NoRetries, sources).None?
  {
    assert FindMainContentArea(doc).None?;
    assert ContentOf(doc).None?;
  }
}

=== FILE: zenrows.dfy ===
/**
 The ZenRows fallback scraper: the query parameters it sends, the record it
 builds from the page the service returns, and its link discovery. The HTTP
 call itself is a function from the parameter map to a response.
 */
module ZenRows {
  import opened Text
  import opened Common
  import opened Dom
  import opened Config
  import opened TargetExtraction

  /** What the service answers for one parameter map: a parsed page, or any request or processing failure. */
  datatype Response = Rendered(page: Page) | ServiceError

  const ScrapedWith: string := "zenrows"
  /** The `wait` value, in milliseconds, of a premium article request and of a premium discovery request. */
  const ArticleWait: string := "2000"
  const DiscoveryWait: string := "3000"
  const PremiumKeys: set<string> := {"js_render", "premium_proxy", "wait"}

  /** The query parameters: the target URL and the key, plus the rendering options when premium is asked for. */
  function RequestParams(url: string, apiKey: string, premium: bool, wait: string): (r: map<string, string>)
    ensures "url" in r && r["url"] == url && "apikey" in r && r["apikey"] == apiKey
    ensures r.Keys == {"url", "apikey"} + (if premium then PremiumKeys else {})
    ensures premium ==> r["js_render"] == "true" && r["premium_proxy"] == "true" && r["wait"] == wait
  {
    var base := map["url" := url, "apikey" := apiKey];
    if premium then base + map["js_render" := "true", "premium_proxy" := "true", "wait" := wait] else base
  }

  /** The parameters of `scrape_url`. */
  function ArticleParams(url: string, apiKey: string, premium: bool): (r: map<string, string>)
    ensures r.Keys == {"url", "apikey"} + (if premium then PremiumKeys else {})
    ensures r["url"] == url && r["apikey"] == apiKey
    ensures premium ==> r["wait"] == ArticleWait
  {
    RequestParams(url, apiKey, premium, ArticleWait)
  }

  /** The parameters of `scrape_articles_from_page`. */
  function DiscoveryParams(pageUrl: string, apiKey: string, premium: bool): (r: map<string, string>)
    ensures r.Keys == {"url", "apikey"} + (if premium then PremiumKeys else {})
    ensures r["url"] == pageUrl && r["apikey"] == apiKey
    ensures premium ==> r["wait"] == DiscoveryWait
  {
    RequestParams(pageUrl, apiKey, premium, DiscoveryWait)
  }

  /** The two request kinds differ only in how long a premium request waits. */
  lemma ParamsDifferOnlyInWait(url: string, apiKey: string, premium: bool)
    ensures ArticleParams(url, apiKey, premium) == DiscoveryParams(url, apiKey, premium) <==> !premium
    ensures premium ==> ArticleParams(url, apiKey, premium) == DiscoveryParams(url, apiKey, premium)["wait" := ArticleWait]
  {
    if premium {
      assert ArticleParams(url, apiKey, premium)["wait"] != DiscoveryParams(url, apiKey, premium)["wait"];
    }
  }

  /**
   `ZenRowsScraper.scrape_url`: None on a service failure or when the page
   yields no content; otherwise a record marked as scraped with ZenRows.
   */
  function ScrapeUrl(url: string, t: Target, premium: bool, apiKey: string, api: map<string, string> -> Response): (r: Option<Item>)
    ensures r.None? <==> api(ArticleParams(url, apiKey, premium)).ServiceError?
                         || ExtractContent(t, api(ArticleParams(url, apiKey, premium)).page) == []
    ensures r.Some? ==>
      r.value.content != [] && r.value.contentType == Some(t.kind) && r.value.sourceUrl == url
      && r.value.userId == [] && r.value.scrapedWith == Some(ScrapedWith)
    ensures r.Some? ==>
      var p := api(ArticleParams(url, apiKey, premium)).page;
      r.value.title == ExtractTitle(t, p) && r.value.content == ExtractContent(t, p) && r.value.author == ExtractAuthor(t, p)
  {
    match api(ArticleParams(url, apiKey, premium))
    case ServiceError => None
    case Rendered(p) =>
      var title := ExtractTitle(t, p);
      var content := ExtractContent(t, p);
      var author := ExtractAuthor(t, p);
      if content == [] then None
      else Some(Item(title, content, Some(t.kind), url, author, [], Some(ScrapedWith)))
  }

  /**
   `scrape_articles_from_page`: on success, the resolved hrefs of the links that
   pass the filter, one URL per link in link order and with repeats; on any
   failure, nothing.
   */
  function ScrapeArticlesFromPage(pageUrl: string, t: Target, premium: bool, apiKey: string,
                                  api: map<string, string> -> Response, resolve: (string, string) -> string): (r: seq<string>)
    ensures api(DiscoveryParams(pageUrl, apiKey, premium)).ServiceError? ==> r == []
    ensures api(DiscoveryParams(pageUrl, apiKey, premium)).Rendered? ==>
      var hrefs := AcceptedHrefs(api(DiscoveryParams(pageUrl, apiKey, premium)).page.css.select(t.articleLinkSelector), t.articleLinkFilter);
      |r| == |hrefs| && forall i :: 0 <= i < |r| ==> r[i] == resolve(pageUrl, hrefs[i])
  {
    match api(DiscoveryParams(pageUrl, apiKey, premium))
    case ServiceError => []
    case Rendered(p) => ResolveAll(pageUrl, AcceptedHrefs(p.css.select(t.articleLinkSelector), t.articleLinkFilter), resolve)
  }

  /** Every URL discovered through ZenRows is the resolution of an href that contains the target's filter. */
  lemma DiscoveredUrlsPassFilter(pageUrl: string, t: Target, premium: bool, apiKey: string,
                                 api: map<string, string> -> Response, resolve: (string, string) -> string, i: nat)
    requires i < |ScrapeArticlesFromPage(pageUrl, t, premium, apiKey, api, resolve)|
    ensures exists h: string ::
              h != [] && (t.articleLinkFilter == [] || Contains(h, t.articleLinkFilter))
              && ScrapeArticlesFromPage(pageUrl, t, premium, apiKey, api, resolve)[i] == resolve(pageUrl, h)
  {
    var p := api(DiscoveryParams(pageUrl, apiKey, premium)).page;
    var hrefs := AcceptedHrefs(p.css.select(t.articleLinkSelector), t.articleLinkFilter);
    assert hrefs[i] in hrefs;
  }
}
